=== FILE: README.md ===
# EasyVocab decision rules in Dafny

EasyVocab is a Flask/MySQL vocabulary trainer. Its words carry a legacy
review count, a simplified SM-2 schedule (interval, repetitions, ease
factor) and a category. A daily study log counts reviews per day, and a
"word debt" measures the shortfall against a quota of 100 reviews a day.
Vocabulary arrives as XML word books and is imported in batches.

This project models the pure decision rules inside that application as
immutable datatypes and functions, and proves what the code promises about
them. Dates are day numbers (`int`), timestamps are seconds, and the daily
study log is a `map<int, int>`. The database, the clock, the file system and
XML parsing are all parameters.

| file | module | what it models |
|---|---|---|
| `results.dfy` | `Results` | `Option` and `Result` |
| `arith.dfy` | `Arith` | Python's `max` and `min` on integers |
| `text.dfy` | `Text` | the Python string operations the code relies on: `isspace`, `strip`/`lstrip`/`rstrip`, `split`, `join`, `split()`, `startswith`/`endswith`, `in`, `replace`, and ASCII `lower`/`upper` |
| `srs.dfy` | `Srs` | the SM-2 step of the quiz result endpoint |
| `quiz_selection.dfy` | `QuizSelection` | which word the quiz asks next |
| `daily_counter.dfy` | `DailyCounter` | the per-word-per-day review counter |
| `word_debt.dfy` | `WordDebt` | the debt endpoint and the diagnostic script's per-row total |
| `triggers.dfy` | `ActivityTriggers` | the BEFORE UPDATE and AFTER UPDATE triggers on `words` |
| `poe_response.dfy` | `PoeResponse` | stripping "Thinking..." artifacts from an AI reply |
| `uploads.dfy` | `Uploads` | the upload extension check |
| `browse.dfy` | `Browse` | sort order, index clamping, position lookup and the sample-sentence review bump |
| `xml_items.dfy` | `XmlItems` | XML items as records with optional elements |
| `vocab_xml.dfy` | `VocabXml` | validation, CDATA clean-up, parsing, batching and import statistics of the XML parser |
| `xml_cleaning.dfy` | `XmlCleaning` | the two XML cleaning scripts and the new-word import |
| `sql_script.dfy` | `SqlScript` | the DELIMITER-aware SQL statement splitter |
| `env_config.dfy` | `EnvConfig` | the `.env` reader and the SRS column migration |
| `tag_update.dfy` | `TagUpdate` | the XML tag renaming script |

Representation choices:

- The ease factor is kept in integer hundredths: 2.5 is 250, the penalty is
  15 and the floor is 130. `int(interval * ease_factor)` becomes
  `interval * ease / 100`, truncated toward zero as Python's `int()` does.
- Python's `or` defaulting is modelled literally. A stored ease factor of 0
  counts as missing and becomes 2.5.
- An XML element is a record holding its own leading text (`element.text`)
  and all of its text (`itertext()`). An item is three optional elements
  (`word`, `trans`, `tags`). A tree is a root tag plus its items.
- Database answers are inputs to the model: whether a guard row exists, how
  many rows a batch added, and whether an insert was ignored or raised.
- Times are whole seconds on one integer axis. The range a Python `datetime`
  can hold (up to 9999-12-31) is a `TimeRange` parameter. A due date that
  falls outside it is the `OverflowError` that `now + timedelta(days=…)`
  raises, which the handler answers with status 500 before anything is
  committed.

## Model

| member | source | states |
|---|---|---|
| Text.Strip | app.py:1560 | `strip()` leaves no whitespace at either end and is empty exactly when the input is all whitespace |
| Text.LStripShape | init_aiven_db.py:32 | `lstrip()` removes a prefix made only of whitespace and keeps the rest of the string unchanged |
| Text.RStripShape | init_aiven_db.py:47 | `rstrip()` removes a suffix made only of whitespace and keeps the rest of the string unchanged |
| Text.StripIdempotent | init_aiven_db.py:52-53 | stripping an already stripped string changes nothing |
| Text.JoinSplit | app.py:1560 | `"\n".join(s.split("\n")) == s` |
| Text.SplitJoin | app.py:1596 | splitting a join of newline-free lines gives the same lines back |
| Text.TokensEmpty | init_aiven_db.py:37 | `split()` is empty iff the string is all whitespace |
| Text.TokenAlone | init_aiven_db.py:37 | a non-empty run of non-whitespace splits into itself alone |
| Text.TokensSpaceJoin | init_aiven_db.py:37 | `(a + " " + b).split() == a.split() + b.split()`: the runs come out in order, cut at whitespace |
| Text.ReplaceAbsent | update_xml_tags.py:53-54 | `replace` of a pattern that does not occur returns the line unchanged |
| Srs.StateOf | app.py:1887-1889 | missing interval and repetitions read as 0; a missing or zero ease factor reads as 2.5 |
| Srs.TruncDiv | app.py:1898 | `int()` of a quotient truncates toward zero; the bounds are given for both signs |
| Srs.NextReview | app.py:1913-1918 | the next review falls `interval` days after now: it is now exactly when the interval is 0, and never earlier than now for a non-negative interval |
| Srs.ApplyAnswer | app.py:1891-1918 | remember: interval 1, then 6, then ⌊interval·ef⌋; repetitions +1; ef unchanged; count becomes max(0, count−1); due `interval` days from now. Not remember: repetitions and interval 0; ef becomes max(1.3, ef−0.15); count +1; due now |
| Srs.RepeatedFailures | app.py:1904-1911 | n failures in a row lower ef by 0.15 each time, never below 1.3 |
| Srs.ReviewCountStaysNatural | app.py:1902 | the legacy count never goes negative and stays at 0 under "remember" |
| Srs.SuccessInterval | app.py:1897-1898 | from repetition 2 on, success never shrinks the interval when ef ≥ 1.0, and is monotone in ef |
| Srs.FreshRememberThenForget | app.py:1886-1911 | a fresh word remembered, then forgotten, ends at repetitions 0, interval 0, ef 2.35 |
| Srs.ParseAnswer | app.py:1865-1866 | only "remember" and "not_remember" are accepted |
| Srs.SubmitQuizResult | app.py:1856-1952 | refused for missing fields exactly when one is missing, for an invalid result exactly when the result is neither accepted string, for an unknown word exactly when the id is absent, and for the due date exactly when a non-zero interval puts it outside the representable datetime range, with nothing written; succeeds exactly in every other case, where only that word's row changes and it receives the SM-2 step |
| Srs.FreshWordIntervals | app.py:1891-1898 | a fresh word at ease 2.5 answered "remember" 16 and 17 times in a row reaches intervals of 2192375 and 5480937 days |
| Srs.SeventeenthRememberRefused | app.py:1913-1952 | the 17th "remember" on such a word is refused when its due date, 5480937 days on, lies past the end of the datetime range |
| Srs.ForgetAlwaysWritten | app.py:1904-1916 | "not remember" is never refused for its due date: interval 0 makes it due now, with no `timedelta` |
| QuizSelection.RanksFirstIsTotalPreorder | app.py:1813-1818 | the ORDER BY (dated first, then date, then updated_at) is a total preorder |
| QuizSelection.SelectNextWord | app.py:1792-1831 | returns none iff no word is a candidate (review_count ≥ 1, in the category unless "All" or empty, due or undated); otherwise a candidate that ranks first among all candidates; an undated result means every candidate is undated |
| DailyCounter.Credit | app.py:403-410 | the upsert adds one to the day's count and creates the row if it is missing; other days keep their counts |
| DailyCounter.IncrementDailyCounter | app.py:375-412 | with a word id and the guard table present: applied iff (word, day) is not guarded yet, in which case the pair is guarded; without a word id, or when the guard lookup fails: always +1; not applied means nothing changes |
| DailyCounter.CreditTwice | app.py:375-412 | the same word twice on a day adds exactly one; two anonymous calls add two |
| DailyCounter.DayCountIsDistinctWords | app.py:375-412 | starting from a day with no guarded pairs, over the day's calls the count rises by the number of distinct words plus the anonymous calls, and exactly those words end up guarded |
| WordDebt.FirstDayExists | app.py:1426-1430 | a non-empty ledger has a minimum date |
| WordDebt.Earliest | app.py:1426-1437 | `MIN(date)` is a logged day that no logged day precedes |
| WordDebt.TodaySurplus | app.py:1473-1476 | today only subtracts its count above 100, never adds |
| WordDebt.GetWordDebt | app.py:1426-1499 | the endpoint's loops compute the closed-form report `DebtOf` |
| WordDebt.FindEarliest | app.py:1426-1437 | finds whether the ledger has rows, and its minimum date |
| WordDebt.SumShortfalls | app.py:1462-1471 | the day loop sums 100 − count over earliest ≤ d < today, with missing days counting 0 |
| WordDebt.WalkBack | app.py:1482-1495 | the breakdown has min(20, max(0, today − earliest)) entries, yesterday first, each holding the raw 100 − count |
| WordDebt.DebtReportShape | app.py:1433-1495 | empty ledger: total 0 and no breakdown; total ≥ 0; at most 20 breakdown days, consecutive from yesterday and never before the earliest day; entries are unclamped |
| WordDebt.DebtBetweenExtend | app.py:1464-1469 | one more finished day adds exactly its shortfall |
| WordDebt.TodayOnlyRepays | app.py:1473-1480 | changing today's count only ever lowers the total, by the surplus over 100 |
| WordDebt.ThreeDayExample | app.py:1462-1495 | counts 0, 150, 50 give a total of 100 and a breakdown of 50, −50, 100 |
| WordDebt.RowContribution | check_debt_data.py:47-61 | a future row adds 0; today's row adds −(count − 100) only above 100; a past row adds 100 − count |
| WordDebt.PastRows | check_debt_data.py:21-26 | the k consecutive days before today, newest first, with their counts: the rows the query returns for those days when each day has a row |
| WordDebt.DiagnosticAgreesWithoutGaps | check_debt_data.py:36-69 | over k consecutive logged days before today (and today's row, if any), the script's total equals the endpoint's day sum over those same k days, minus today's surplus |
| WordDebt.RecentRows | check_debt_data.py:21-28 | the query's rows: logged rows only, with their counts, dates strictly descending, min(30, number of logged days) of them, and no logged day left out is newer than a fetched one |
| WordDebt.DayRange | app.py:1462-1469 | the days from the first to the last, one element per day |
| WordDebt.DaysSpread | check_debt_data.py:24 | dates sorted strictly descending drop by at least one day per row |
| WordDebt.LoggedDays | app.py:1426-1469 | with no future row and no missing day, the logged days are exactly the earliest day through today (or yesterday, when today has no row) |
| WordDebt.RowsAreDays | check_debt_data.py:21-26 | n strictly descending dates inside an n-day window are that window, newest first |
| WordDebt.FetchIsWholeHistory | check_debt_data.py:21-28 | for a history of at most 30 days with no gaps and no future rows, the fetch is every row: today's, if logged, then the days before it |
| WordDebt.DiagnosticMatchesEndpoint | check_debt_data.py:21-69 | for such a history, the script's total is the endpoint's total before its clamp at 0, and equals the endpoint's reported total whenever it is not negative |
| WordDebt.DiagnosticAppend | check_debt_data.py:39-61 | the running total adds each row's contribution |
| WordDebt.GapIsNotFilled | check_debt_data.py:21-69 | with a missing day, the script's total differs from the endpoint's |
| ActivityTriggers.SignificantMeansWatchedChanged | setup_daily_logic.py:40-45 | an update is significant iff category, review_count, translation or the sample sentence changes, NULL to value and back included |
| ActivityTriggers.BeforeUpdate | setup_daily_logic.py:35-57 | counted iff significant and not yet counted today; counting adds 1 to today and stamps the row; otherwise log and row are as written |
| ActivityTriggers.OncePerDay | setup_daily_logic.py:40-57 | over a day's updates, today's count rises by at most one, and by one iff the word was not yet counted and some update is significant; other days are untouched |
| ActivityTriggers.AlreadyCounted | setup_daily_logic.py:48 | a word stamped today changes nothing for the rest of the day |
| ActivityTriggers.DailyLogicScenario | test_daily_logic.py:30-58 | category change +1, then review −1 gives +0, then translation edit gives +0 |
| ActivityTriggers.AfterUpdate | apply_trigger.py:34-40 | today's row grows by max(0, diff), and is created if needed; diff ≤ 0 leaves the log unchanged; other days are untouched |
| ActivityTriggers.AfterIgnoresOtherColumns | apply_trigger.py:34-37 | only the review count matters |
| ActivityTriggers.AfterNeverDecreases | apply_trigger.py:34-41 | over a run of updates the log never shrinks, and grows by exactly the positive rises |
| PoeResponse.LastQuote | app.py:1562-1566 | finds the last line whose stripped form starts with `>`, or −1 |
| PoeResponse.IsHeaderMatchesPattern | app.py:1584 | the header scan accepts exactly the lines matching `^[\s*]*Thinking\.\.\.[\s*]*$` (ASCII case-insensitive) |
| PoeResponse.DropLeadingBlank | app.py:1587-1594 | drops only blank lines from the front, and the first kept line is not blank |
| PoeResponse.Candidate | app.py:1568-1585 | a suffix with no quoted line that drops every line up to the last quoted one, and exactly one line more iff the line after it is a "Thinking..." header |
| PoeResponse.CleanPoeResponse | app.py:1557-1596 | empty in, empty out; the result is stripped and has no line whose stripped form starts with `>` |
| PoeResponse.QuoteLineHead | app.py:1565 | a line is quoted iff its first non-space character is `>` |
| PoeResponse.ConcatQuote | app.py:1596 | joining two texts with a newline has a quote line iff one of them has |
| PoeResponse.CandidateWithoutQuotes | app.py:1568-1585 | with no quoted line and no header, every line is a candidate |
| PoeResponse.KeptLinesRejoin | app.py:1587-1596 | when nothing is dropped, the result is the stripped reply |
| PoeResponse.JoinQuote | app.py:1596 | a join of newline-free lines has a quote line iff one of the lines is quoted |
| PoeResponse.StripKeepsNoQuote | app.py:1596 | stripping cannot create a quote line |
| PoeResponse.CleanedLinesUnquoted | app.py:1557-1596 | no line of the result, split on newlines, is quoted |
| PoeResponse.HeaderNotQuote | app.py:1565-1584 | a header line is never a quoted line |
| PoeResponse.CleanLines | app.py:1557-1596 | a reply made of newline-free lines with no surrounding whitespace is cleaned from exactly those lines |
| PoeResponse.ThinkingBlockDropped | app.py:1562-1596 | quoted reasoning followed by an answer with no quote and no leading header cleans to the answer, less leading blank lines, stripped |
| PoeResponse.HeaderDropped | app.py:1576-1596 | a header line followed by lines with no quote cleans to those lines, less leading blank lines, stripped |
| PoeResponse.BlankReply | app.py:1557-1560 | an all-whitespace reply cleans to "" |
| PoeResponse.NoArtifactsUnchanged | app.py:1555 | a reply with no quote line and no header comes back merely stripped |
| Uploads.LastIndexOf | app.py:350 | the last index of the character, or −1 iff it is absent |
| Uploads.Extension | app.py:350 | `rsplit(".", 1)[1]` is dot-free and follows the last dot |
| Uploads.AllowedFileMeans | app.py:348-351 | accepted iff the name is `stem + "." + ext` with a dot-free ext whose lower-case form is an allowed extension |
| Uploads.UniqueExtension | app.py:350 | for `stem + "." + ext` with a dot-free ext, the extension read is exactly ext |
| Uploads.Accepted | app.py:348-351 | any such name whose ext lower-cases to `xml` is accepted |
| Uploads.RejectedBy | app.py:348-351 | a name whose last extension is not three characters long, or does not start with `x` or `X`, is rejected |
| Uploads.AcceptsTestXml | test/test_basic.py:146 | "test.xml" is accepted |
| Uploads.AcceptsVocabularyXml | test/test_basic.py:147 | "vocabulary.xml" is accepted |
| Uploads.AcceptsUpperCaseXml | app.py:350 | "NOTES.XML" is accepted: the extension is compared in lower case |
| Uploads.RejectsTestExe | test/test_basic.py:152 | "test.exe" is rejected |
| Uploads.RejectsTestPy | test/test_basic.py:153 | "test.py" is rejected |
| Uploads.RejectsNoExtension | test/test_basic.py:154 | "noextension" is rejected |
| Uploads.RejectsTestTxt | test/test_basic.py:155 | "test.txt" is rejected |
| Uploads.RejectsDoubleExtension | app.py:350 | "archive.xml.zip" is rejected: only the text after the last dot counts |
| Browse.BrowseOrder | app.py:605-617 | an unknown `sort_by` falls back to `updated_at` |
| Browse.OrdersAgree | app.py:2072-2077 | the position endpoint picks the same order as the browser |
| Browse.PrecedesIsStrictTotal | app.py:612-617 | every order is a strict total order on rows with distinct ids |
| Browse.ClampIndex | app.py:600-645 | a missing category or zero words is an error; it succeeds exactly when the category is given and has words, and then the index is clamped into [0, total) |
| Browse.ClampIdempotentMonotone | app.py:641-645 | clamping is idempotent and monotone |
| Browse.FindIndex | app.py:2090-2100 | −1 iff the id is absent; otherwise the first index holding it |
| Browse.EditSampleShared | app.py:1028-1073 | an unknown id is refused; otherwise every row with the same word text gets the new sentence and, when the edit counts, one more review and today's stamp; rows of other words are untouched |
| Browse.SiblingStampIgnored | app.py:1055-1063 | the daily cap is read from the edited row only: a same-word row stamped today is still bumped |
| Browse.EditSample | app.py:1047-1063 | the sentence is stored as sent; a change beyond surrounding whitespace, not yet counted today, adds one review and stamps today |
| Browse.SampleOncePerDay | app.py:1053-1063 | any number of edits in a day add at most one review |
| Browse.WhitespaceEditIsNotReview | app.py:1054 | re-saving with only different surrounding whitespace is not a review |
| XmlItems.OwnText | import_raw_xml.py:49 | `e.text.strip() if e.text else ''`: empty for a missing element or one without text of its own, otherwise exactly the stripped own text |
| VocabXml.FirstMissing | utils/xml_parser.py:63-72 | reports word, then trans, then tags: the first child that is missing |
| VocabXml.CheckItems | utils/xml_parser.py:62-72 | passes iff every item checked is complete; otherwise reports the first incomplete item, numbered from 1 |
| VocabXml.ValidateXml | utils/xml_parser.py:47-79 | the root is stored even when it is rejected; fails on a parse error, a wrong root tag or no items; passes iff the first five items are complete |
| VocabXml.OnlyFirstFiveChecked | utils/xml_parser.py:62 | items after the fifth do not affect validation |
| VocabXml.SixthItemNotChecked | utils/xml_parser.py:62 | an incomplete sixth item still validates |
| VocabXml.CollapseBlanks | utils/xml_parser.py:145 | `[ \t]+` → one space: no tab and no double space remain |
| VocabXml.JoinIndented | utils/xml_parser.py:146 | `\n\s+` → `\n`: no whitespace follows a newline; the output is free of tabs and double spaces whenever the input is |
| VocabXml.ExtractCdata | utils/xml_parser.py:138-148 | "" for a missing element; otherwise the result has no tab, no double space, no indentation and no surrounding whitespace, and is empty iff the text is all whitespace |
| VocabXml.CollapseKeepsText | utils/xml_parser.py:145 | collapsing keeps every non-blank character, in order |
| VocabXml.JoinKeepsText | utils/xml_parser.py:146 | removing indentation keeps every non-whitespace character, in order |
| VocabXml.CollapseIdempotent | utils/xml_parser.py:145 | collapsing twice is collapsing once |
| VocabXml.CollapseFixed | utils/xml_parser.py:145 | text without tabs and double spaces is left unchanged |
| VocabXml.ParseItem | utils/xml_parser.py:97-119 | a record iff word, translation and category are all non-empty; the record holds the stripped word text, the cleaned translation and the stripped tags text |
| VocabXml.ParseItemsAppend | utils/xml_parser.py:97-126 | records keep document order |
| VocabXml.RecordSource | utils/xml_parser.py:97-126 | every record comes from some item |
| VocabXml.RecordKept | utils/xml_parser.py:111-119 | every item that parses contributes its record |
| VocabXml.NothingSkipped | utils/xml_parser.py:111-119 | when every item parses, there are as many records as items |
| VocabXml.ParseWords | utils/xml_parser.py:92-126 | refused iff no root was stored; otherwise the records of the stored root's items, in order |
| VocabXml.ParseAfterFailedValidation | utils/xml_parser.py:49-54 | after a root-tag failure, parsing still succeeds |
| VocabXml.Batches | utils/xml_parser.py:192-193 | batches are non-empty and at most `batch_size` long; all but the last are full |
| VocabXml.BatchesCover | utils/xml_parser.py:192-193 | concatenating the batches gives back the records |
| VocabXml.RunBatches | utils/xml_parser.py:203-218 | each batch adds its length to added + skipped + errors |
| VocabXml.ImportToDatabase | utils/xml_parser.py:167-218 | fails with the validation message iff validation fails, and with the `range()` error iff validation passes and the batch size is 0; succeeds exactly otherwise; total_processed = len(words); for a positive batch size, added + skipped + errors = total_processed |
| VocabXml.AllBatchesFail | utils/xml_parser.py:215-217 | if every batch fails, every record is an error and none is added |
| XmlCleaning.ItemLines | import_raw_xml.py:44-63 | nothing unless the item has word and trans; otherwise `<item>`, the stripped word, the CDATA-wrapped trans, a tags line only for non-empty tag text, then `</item>` |
| XmlCleaning.CleanedLines | import_raw_xml.py:35-66 | the first line is `<wordbook>` and the last is `</wordbook>` |
| XmlCleaning.OpenLinesCountKept | import_raw_xml.py:38-63 | the `<item>` lines are exactly the items kept |
| XmlCleaning.CleanRawXml | import_raw_xml.py:35-75 | the newline-joined lines, and a count equal to the number of `<item>` blocks |
| XmlCleaning.CleanXml | data/clean_vocab.py:15-51 | the same text, but the printed count is every item, kept or not |
| XmlCleaning.CountsAgreeIffNoneSkipped | data/clean_vocab.py:51 | the two counts agree iff no item is skipped |
| XmlCleaning.KeptAll | import_raw_xml.py:44 | every item is kept iff every item has word and trans |
| XmlCleaning.OutcomesPartition | import_202512_newword.py:68-79 | each insert is added, ignored as a duplicate, or raises |
| XmlCleaning.NewWordTranslation | import_202512_newword.py:33 | the full text is used only when the element has leading text of its own |
| XmlCleaning.NewWordOf | import_202512_newword.py:31-39 | a record iff word and trans exist and both stripped texts are non-empty; it holds the stripped word and the translation text |
| XmlCleaning.ParseXmlWords | import_202512_newword.py:27-42 | every record has a non-empty word and translation |
| XmlCleaning.NewWordsAppend | import_202512_newword.py:27-42 | records keep document order: parsing a concatenation concatenates the parses |
| XmlCleaning.NewWordSource | import_202512_newword.py:27-42 | every record is the record of some item |
| XmlCleaning.NewWordKept | import_202512_newword.py:31-41 | every item that yields a record contributes it |
| XmlCleaning.NestedTranslationDropped | import_202512_newword.py:33 | a translation that starts with a child element drops the item |
| XmlCleaning.ImportWords | import_202512_newword.py:53-102 | every insert uses category 202512_New; added and errors count the outcomes; skipped = total − added |
| XmlCleaning.SkippedIncludesErrors | import_202512_newword.py:75-99 | skipped = duplicates + errors |
| SqlScript.Classify | init_aiven_db.py:32-43 | blank and `--` lines are ignored; DELIMITER is recognised case-insensitively and carries exactly `split()[1]` of the stripped line, or nothing when there is no second token; `USE ` lines are skipped |
| SqlScript.Feed | init_aiven_db.py:45-54 | the buffer grows by the line plus a space, or is flushed; at most one statement is added, and it is trimmed |
| SqlScript.FeedKeepsGood | init_aiven_db.py:45-54 | every emitted statement is non-empty and stripped |
| SqlScript.Step | init_aiven_db.py:31-54 | fails iff the line is a DELIMITER line without a token; skipped lines change nothing; earlier statements are kept |
| SqlScript.SplitStatements | init_aiven_db.py:26-54 | every statement is non-empty and stripped |
| SqlScript.DelimiterLine | init_aiven_db.py:36-38 | `DELIMITER d` sets the terminator to d |
| SqlScript.OneLineStatement | init_aiven_db.py:45-54 | a statement on one line followed by the terminator is emitted as it is |
| SqlScript.DelimitedBlock | init_aiven_db.py:26-54 | `DELIMITER d`, a body ended by d, `DELIMITER ;` and one more statement split into exactly the body and that statement, whatever the body holds |
| SqlScript.TriggerFileSplits | init_aiven_db.py:26-54 | a trigger whose body holds `;` between `DELIMITER //` and `DELIMITER ;` is one statement, and the statement after it another |
| SqlScript.RunAppend | init_aiven_db.py:31 | lines are processed in order |
| SqlScript.SkippedLineChangesNothing | init_aiven_db.py:33-43 | blank, comment and USE lines never reach a statement |
| SqlScript.BadDelimiterAborts | init_aiven_db.py:36-38 | a DELIMITER line without a token raises `IndexError`, which abandons the whole file: no statement of it is run |
| SqlScript.DelimiterSwitches | init_aiven_db.py:36-38 | a DELIMITER line sets the terminator and nothing else |
| SqlScript.FlushIffLineEnds | init_aiven_db.py:47 | a line flushes iff it ends with the terminator |
| SqlScript.FeedEmits | init_aiven_db.py:45-54 | a line ending with the terminator empties the buffer and emits the buffered text plus the line without its terminator, stripped, unless that is empty |
| SqlScript.FeedBuffers | init_aiven_db.py:45-47 | a line not ending with the terminator is appended to the buffer with a space and emits nothing |
| SqlScript.FeedSees | init_aiven_db.py:45-47 | the stripped buffer ends with the terminator iff the new line does |
| SqlScript.StepContinues | init_aiven_db.py:45-47 | a code line that does not end with the terminator only grows the buffer |
| SqlScript.CutStatement | init_aiven_db.py:45-54 | the emitted statement is the buffered text with the terminator cut off, then stripped |
| SqlScript.TrailingTextDropped | init_aiven_db.py:45-56 | lines that never end with the terminator emit nothing |
| EnvConfig.IndexOf | migrate_srs_mysql.py:18 | the first `=` |
| EnvConfig.Unquote | migrate_srs_mysql.py:19-23 | a value starting and ending with `"`, or else with `'`, loses its first and last characters; any other value is kept |
| EnvConfig.UnquotePair | migrate_srs_mysql.py:20-23 | a matched pair comes off exactly once |
| EnvConfig.MismatchedQuotesKept | migrate_srs_mysql.py:20-23 | mismatched quotes are kept |
| EnvConfig.LoneQuoteEmpties | migrate_srs_mysql.py:20-21 | a lone `"` becomes "" |
| EnvConfig.ParseLine | migrate_srs_mysql.py:16-24 | none iff the stripped line is empty, a `#` comment, or has no `=`; otherwise the key has no `=` and key + "=" + value is the stripped line, with the value unquoted |
| EnvConfig.ParseKeyValue | migrate_srs_mysql.py:16-24 | `k=v` with a plain key gives (k, Unquote(v)) |
| EnvConfig.ValueKeepsEquals | migrate_srs_mysql.py:18 | later `=` stay in the value |
| EnvConfig.KeyNotTrimmed | migrate_srs_mysql.py:18 | spaces around `=` stay in the key and the value |
| EnvConfig.LastLineWins | migrate_srs_mysql.py:15-24 | each key holds the value of the last line that sets it |
| EnvConfig.EnvVarsKeys | migrate_srs_mysql.py:11-24 | a missing file sets nothing |
| EnvConfig.AllPresentDropped | migrate_srs_mysql.py:62-68 | no column whose name exists is added |
| EnvConfig.AllMissingKept | migrate_srs_mysql.py:62-68 | when no name exists, every column is added, in order |
| EnvConfig.FirstSeparator | migrate_srs_mysql.py:18 | the line splits at the first `=`, after a key free of `=` |
| EnvConfig.LoadSnoc | migrate_srs_mysql.py:15-24 | lines are applied in file order |
| EnvConfig.Get | migrate_srs_mysql.py:29-33 | `get(key, default)` |
| EnvConfig.Settings | migrate_srs_mysql.py:29-33 | missing keys default to localhost / 3306 / root / "" / bkdict_db |
| EnvConfig.NoFileDefaults | migrate_srs_mysql.py:29-33 | without a `.env` file every setting is its default |
| EnvConfig.MissingColumns | migrate_srs_mysql.py:51-68 | a column is added iff its name is absent, in list order |
| EnvConfig.MigrationExtremes | migrate_srs_mysql.py:51-68 | a full table gets nothing; an empty one gets all four columns |
| TagUpdate.Replacements | update_xml_tags.py:8-12 | the three old/new tag elements, in dict order |
| TagUpdate.ApplyReplacement | update_xml_tags.py:52-54 | a line without the old tag is left alone |
| TagUpdate.UntouchedLine | update_xml_tags.py:51-55 | a line with none of the old tags is written unchanged |
| TagUpdate.TagLineContains | update_xml_tags.py:53 | a tag line contains `<tags>x</tags>` iff its tag is x |
| TagUpdate.RewriteTagLine | update_xml_tags.py:51-55 | a tag line is rewritten to the same line with the tag renamed |
| TagUpdate.RewriteIdempotent | update_xml_tags.py:8-12 | rewriting a rewritten tag line changes nothing |
| TagUpdate.OtherTagUntouched | update_xml_tags.py:51-55 | another tag is left alone |
| TagUpdate.SelectFile | update_xml_tags.py:26-40 | an existing name is used; a missing AI.xml falls back to AI_CS.xml; anything else missing is skipped |
| TagUpdate.ProcessedFiles | update_xml_tags.py:25-40 | only existing files are processed |
| TagUpdate.ExistingProcessed | update_xml_tags.py:26-27 | every listed file that exists is processed |
| TagUpdate.AiFallback | update_xml_tags.py:27-37 | a missing AI.xml falls back to AI_CS.xml; with both missing the run covers the other names only |
| TagUpdate.AiChosen | update_xml_tags.py:27-34 | the file chosen for the AI.xml entry is processed |
| TagUpdate.AiSkipped | update_xml_tags.py:35-37 | when neither AI file exists, that entry adds nothing |
| TagUpdate.ProcessedAppend | update_xml_tags.py:25 | the listed names are processed in order, independently of each other |
| TagUpdate.RenameAi | update_xml_tags.py:66-80 | the rename succeeds iff AI.xml exists and AI_CS.xml does not |
| TagUpdate.FilesAfter | update_xml_tags.py:66-80 | AI.xml survives only if the rename failed; AI_CS.xml exists afterwards iff either file existed |
| TagUpdate.RewriteFile | update_xml_tags.py:51-55 | every line is rewritten, one for one |

## Left out

- Flask routing, request parsing, sessions, the rate limiter and JSON responses. Each endpoint is a function of its inputs, and the error cases become `Result` values.
- The MySQL connection, the schema DDL, stored procedures and every cursor round trip. Tables are maps and sequences passed in and returned. Database answers are parameters: whether a guard row exists, rows added per batch, and per-insert outcomes.
- The wall clock and the UTC+10 conversion. `today` and `now` are parameters.
- The daily count endpoint reads server `CURDATE()` instead of the UTC+10 date. That mismatch is not modelled.
- Concurrency: the guard check and insert of the daily counter are two round trips. Calls are modelled one after another.
- Floating point: the ease factor is integer hundredths, so float rounding at the floor boundaries of `int(interval * ef)` is abstracted.
- Unicode case folding and MySQL collation. Only the ASCII case mapping is modelled, and SQL string comparisons are exact.
- ElementTree parsing and file reading, writing and renaming. XML items are records, and a file is its lines.
- The PIL image handling and the AI service calls. Only the cleaning of a reply is modelled.
- The verification, debug and setup scripts, the SQLite migration and `import_vocab.py`. They are I/O around logic that is already covered.
- EnvConfig.Settings: the port stays the text read (or 3306). `int()` of a malformed port raising `ValueError` is not modelled.
- EnvConfig.EnvVars: an exception while reading `.env` is not modelled. The file is either missing or a sequence of lines.
- EnvConfig.MissingColumns: the `ALTER TABLE` statements themselves and their errors are not modelled.
- SqlScript: the execution of the statements, and the connection errors around it, are not modelled.
- TagUpdate.RewriteIdempotent: proved for lines holding a single tags element, which is the layout the cleaned files use. Lines holding several tags elements are not covered.
- TagUpdate.RewriteFile: the temporary file, `os.replace` and the per-file error handler are not modelled.
- VocabXml.ImportToDatabase: the stats identity is stated for a positive batch size. A zero batch size is the `range()` error, and a negative one yields no batches.
- VocabXml.ImportToDatabase: the category count procedure called after the batches is not modelled.
- XmlCleaning.ImportWords: requires one database outcome per word. The final category count query is not modelled.
- Browse.EditSample: the code compares the stored stamp with `date.today()` of the server but stamps `CURDATE()` of the database. Both are modelled as the one `today` parameter, so a clock mismatch between them is not modelled.
- Browse.EditSampleShared: the translation, image and word fields of the same request, and the `last_reviewed` timestamp, are not modelled. Only the sample sentence, the review count and the sample stamp are modelled.
- Browse.ClampIndex: `int()` of a non-numeric index raising `ValueError` is not modelled.
- WordDebt.DiagnosticMatchesEndpoint: stated for histories of at most 30 days with no missing day and no future row. For a longer history the 30-row fetch leaves the oldest days out, and the model does not relate the two totals there.
- TagUpdate.RenameAi: follows the rename semantics of the Windows directory the script names, where renaming onto an existing `AI_CS.xml` fails. The POSIX overwrite is not modelled.

=== FILE: arith.dfy ===
/** Integer helpers shared by the modules of the model. */
module Arith {

  /** Python's `max(a, b)`. */
  function Max(a: int, b: int): int {
    if a >= b then a else b
  }

  /** Python's `min(a, b)`. */
  function Min(a: int, b: int): int {
    if a <= b then a else b
  }
}

=== FILE: browse.dfy ===
/** Small decisions of the word browser: which sort order a request asks
    for, how a requested index is clamped to the category's words, where a
    word sits in that order, and when editing a sample sentence counts as a
    review. */
module Browse {
  import opened Results
  import opened Text

  // ---------------------------------------------------------------------
  // Sort order.

  /** The three orders the browser offers; every one breaks ties by id in
      the same direction as its last key. */
  datatype SortOrder =
    | UpdatedDesc       // updated_at DESC, id DESC
    | UpdatedAsc        // updated_at ASC, id ASC
    | ReviewCountDesc   // review_count DESC, updated_at DESC, id DESC

  /** The browse endpoint: an unknown `sort_by` falls back to
      `updated_at`, then the value picks the order. */
  function BrowseOrder(sortBy: String): (o: SortOrder)
    ensures sortBy == "review_count" ==> o == ReviewCountDesc
    ensures sortBy == "updated_at_asc" ==> o == UpdatedAsc
    ensures sortBy != "review_count" && sortBy != "updated_at_asc" ==> o == UpdatedDesc
  {
    var s := if sortBy in ["updated_at", "review_count", "updated_at_asc"] then sortBy else "updated_at";
    if s == "updated_at" then UpdatedDesc
    else if s == "updated_at_asc" then UpdatedAsc
    else ReviewCountDesc
  }

  /** The position endpoint: `updated_at` order unless `sort_by` names one
      of the other two. */
  function PositionOrder(sortBy: String): SortOrder {
    if sortBy == "review_count" then ReviewCountDesc
    else if sortBy == "updated_at_asc" then UpdatedAsc
    else UpdatedDesc
  }

  /** Both endpoints read `sort_by` the same way, so a word's reported
      position is its index in the browser's order. */
  lemma OrdersAgree(sortBy: String)
    ensures BrowseOrder(sortBy) == PositionOrder(sortBy)
  {
  }

  /** The columns the orders compare. */
  datatype Row = Row(id: int, updatedAt: int, reviewCount: int)

  /** `a` comes strictly before `b` in the order. */
  predicate Precedes(o: SortOrder, a: Row, b: Row) {
    match o
    case UpdatedDesc =>
      a.updatedAt > b.updatedAt || (a.updatedAt == b.updatedAt && a.id > b.id)
    case UpdatedAsc =>
      a.updatedAt < b.updatedAt || (a.updatedAt == b.updatedAt && a.id < b.id)
    case ReviewCountDesc =>
      || a.reviewCount > b.reviewCount
      || (a.reviewCount == b.reviewCount && a.updatedAt > b.updatedAt)
      || (a.reviewCount == b.reviewCount && a.updatedAt == b.updatedAt && a.id > b.id)
  }

  /** Every order is a strict total order on rows with distinct ids, so the
      result of `ORDER BY ... LIMIT 1 OFFSET i` is determined. */
  lemma PrecedesIsStrictTotal(o: SortOrder, a: Row, b: Row, c: Row)
    ensures !Precedes(o, a, a)
    ensures a.id != b.id ==> Precedes(o, a, b) || Precedes(o, b, a)
    ensures Precedes(o, a, b) ==> !Precedes(o, b, a)
    ensures Precedes(o, a, b) && Precedes(o, b, c) ==> Precedes(o, a, c)
  {
  }

  // ---------------------------------------------------------------------
  // Index clamping.

  datatype BrowseError = CategoryRequired | NoWords

  /** The browse endpoint's index handling: a missing category is refused,
      an empty category has no words, and otherwise the index is clamped
      into `[0, total)`. */
  function ClampIndex(category: String, index: int, total: nat): (r: Result<nat, BrowseError>)
    ensures category == [] ==> r == Err(CategoryRequired)
    ensures category != [] && total == 0 ==> r == Err(NoWords)
    ensures r.Ok? <==> category != [] && total > 0
    ensures r.Ok? ==> r.value < total
    ensures r.Ok? && 0 <= index < total ==> r.value == index
    ensures r.Ok? && index < 0 ==> r.value == 0
    ensures r.Ok? && index >= total ==> r.value == total - 1
  {
    if category == [] then Err(CategoryRequired)
    else if total == 0 then Err(NoWords)
    else if index < 0 then Ok(0)
    else if index >= total then Ok(total - 1)
    else Ok(index)
  }

  /** Clamping is idempotent and monotone: a clamped index clamps to itself,
      and a larger request never lands on an earlier word. */
  lemma ClampIdempotentMonotone(category: String, i: int, j: int, total: nat)
    requires category != [] && total > 0
    ensures ClampIndex(category, ClampIndex(category, i, total).value, total) == ClampIndex(category, i, total)
    ensures i <= j ==> ClampIndex(category, i, total).value <= ClampIndex(category, j, total).value
  {
  }

  // ---------------------------------------------------------------------
  // Position lookup.

  /** The position endpoint's scan: the index of the first row with the
      id, or -1 (reported as an error) when the id is not in the list. */
  method FindIndex(ids: seq<int>, id: int) returns (index: int)
    ensures index == -1 <==> id !in ids
    ensures index != -1 ==> 0 <= index < |ids| && ids[index] == id
    ensures index != -1 ==> forall k :: 0 <= k < index ==> ids[k] != id
  {
    index := -1;
    var i := 0;
    while i < |ids|
      invariant 0 <= i <= |ids|
      invariant forall k :: 0 <= k < i ==> ids[k] != id
    {
      if ids[i] == id {
        index := i;
        return;
      }
      i := i + 1;
    }
  }

  // ---------------------------------------------------------------------
  // Editing a sample sentence.

  /** The columns of a row that a sample sentence edit touches. */
  datatype SampleRow = SampleRow(sample: Option<String>, reviewCount: int, lastSampleReview: Option<int>)

  /** The edit counts as a review: the sentence changed beyond surrounding
      whitespace (a missing sentence reads as empty), and no sample review
      was counted today. */
  predicate SampleBumps(row: SampleRow, newSample: Option<String>, today: int) {
    && Strip(newSample.GetOr("")) != Strip(row.sample.GetOr(""))
    && row.lastSampleReview != Some(today)
  }

  /** The word update endpoint with `example_sentence` in the request: the
      new sentence is stored as sent; a counted edit also raises the review
      count by one and stamps today. */
  function EditSample(row: SampleRow, newSample: Option<String>, today: int): (r: SampleRow)
    ensures r.sample == newSample
    ensures SampleBumps(row, newSample, today) ==>
      r.reviewCount == row.reviewCount + 1 && r.lastSampleReview == Some(today)
    ensures !SampleBumps(row, newSample, today) ==>
      r.reviewCount == row.reviewCount && r.lastSampleReview == row.lastSampleReview
  {
    if SampleBumps(row, newSample, today) then
      SampleRow(newSample, row.reviewCount + 1, Some(today))
    else
      SampleRow(newSample, row.reviewCount, row.lastSampleReview)
  }

  /** A `words` row as the update endpoint sees it: the word text shared by
      every row of the same word, and the sample columns. */
  datatype WordEntry = WordEntry(word: String, row: SampleRow)

  datatype EditError = WordNotFound

  /** What the shared `UPDATE ... WHERE word = %s` does to one row: the
      sentence is stored, and on a counted edit the review count rises by one
      and today is stamped. */
  function SharedEdit(row: SampleRow, newSample: Option<String>, bump: bool, today: int): SampleRow {
    if bump then SampleRow(newSample, row.reviewCount + 1, Some(today))
    else SampleRow(newSample, row.reviewCount, row.lastSampleReview)
  }

  /** The word update endpoint with `example_sentence` in the request, on the
      whole table: an unknown id is refused; otherwise the decision is taken
      from the requested row alone, and then applied to every row with the
      same word text. Rows of other words are untouched. */
  function EditSampleShared(table: map<int, WordEntry>, id: int, newSample: Option<String>, today: int)
    : (r: Result<map<int, WordEntry>, EditError>)
    ensures r.Err? <==> id !in table
    ensures r.Ok? ==> r.value.Keys == table.Keys
    ensures r.Ok? ==> r.value[id].row == EditSample(table[id].row, newSample, today)
    ensures r.Ok? ==> forall k :: k in table && table[k].word != table[id].word ==> r.value[k] == table[k]
    ensures r.Ok? ==> forall k :: k in table && table[k].word == table[id].word ==>
      && r.value[k].word == table[k].word
      && r.value[k].row.sample == newSample
      && (SampleBumps(table[id].row, newSample, today) ==>
            r.value[k].row.reviewCount == table[k].row.reviewCount + 1 && r.value[k].row.lastSampleReview == Some(today))
      && (!SampleBumps(table[id].row, newSample, today) ==>
            r.value[k].row.reviewCount == table[k].row.reviewCount && r.value[k].row.lastSampleReview == table[k].row.lastSampleReview)
  {
    if id !in table then Err(WordNotFound)
    else
      var w := table[id].word;
      var bump := SampleBumps(table[id].row, newSample, today);
      Ok(map k | k in table :: if table[k].word == w then WordEntry(w, SharedEdit(table[k].row, newSample, bump, today)) else table[k])
  }

  /** The daily cap is read from the requested row only: a second row of the
      same word that was already stamped today is still bumped again when the
      edit counts for the requested row. */
  lemma SiblingStampIgnored(a: SampleRow, b: SampleRow, s: String, today: int)
    requires a.sample == None && a.lastSampleReview == None
    requires b.lastSampleReview == Some(today)
    requires Strip(s) != []
    ensures var table := map[1 := WordEntry("w", a), 2 := WordEntry("w", b)];
      var r := EditSampleShared(table, 1, Some(s), today);
      r.Ok? && r.value[2].row.reviewCount == b.reviewCount + 1
  {
    var table := map[1 := WordEntry("w", a), 2 := WordEntry("w", b)];
    assert Strip(a.sample.GetOr("")) == [] by {
      assert a.sample.GetOr("") == [];
    }
    assert SampleBumps(table[1].row, Some(s), today);
  }

  /** A day's sample edits, in order. */
  function RunSampleEdits(row: SampleRow, edits: seq<Option<String>>, today: int): SampleRow
    decreases |edits|
  {
    if |edits| == 0 then row else RunSampleEdits(EditSample(row, edits[0], today), edits[1..], today)
  }

  /** However many times the sentence is edited in one day, the review count
      rises by at most one; once stamped with today it rises no more. */
  lemma {:induction false} SampleOncePerDay(row: SampleRow, edits: seq<Option<String>>, today: int)
    ensures row.reviewCount <= RunSampleEdits(row, edits, today).reviewCount <= row.reviewCount + 1
    ensures row.lastSampleReview == Some(today) ==>
      && RunSampleEdits(row, edits, today).reviewCount == row.reviewCount
      && RunSampleEdits(row, edits, today).lastSampleReview == Some(today)
    ensures RunSampleEdits(row, edits, today).reviewCount == row.reviewCount + 1 ==>
      RunSampleEdits(row, edits, today).lastSampleReview == Some(today)
    decreases |edits|
  {
    if |edits| > 0 {
      var next := EditSample(row, edits[0], today);
      SampleOncePerDay(next, edits[1..], today);
    }
  }

  /** Re-saving the same sentence with different surrounding whitespace is
      not a review. */
  lemma WhitespaceEditIsNotReview(row: SampleRow, s: String, today: int)
    requires row.sample == Some(s)
    ensures EditSample(row, Some(" " + s + "\n"), today).reviewCount == row.reviewCount
  {
    assert Strip(" " + s + "\n") == Strip(s) by {
      StripPadded(s);
    }
  }

  /** Whitespace around a string does not survive `strip()`. */
  lemma StripPadded(s: String)
    ensures Strip(" " + s + "\n") == Strip(s)
  {
    var p := " " + s + "\n";
    var l := LStrip(s);
    assert LStrip(p) == LStrip(s + "\n") by {
      assert IsSpace(p[0]);
      assert p[1..] == s + "\n";
    }
    if l == [] {
      SpacePaddingStrips(s);
    } else {
      LStripAppend(s, "\n");
      DropTrailingNewline(l);
    }
  }

  /** An all-whitespace string padded with whitespace strips to nothing. */
  lemma SpacePaddingStrips(s: String)
    requires LStrip(s) == []
    ensures LStrip(s + "\n") == [] && Strip(s) == []
  {
    assert AllSpace(s) by {
      LStripShape(s);
      assert s[..|s|] == s;
    }
    AllSpaceLStrip(s + "\n");
  }

  /** `rstrip` drops a trailing newline. */
  lemma DropTrailingNewline(l: String)
    ensures RStrip(l + "\n") == RStrip(l)
  {
    var t := l + "\n";
    assert IsSpace(t[|t| - 1]);
    assert t[..|t| - 1] == l;
  }
}

=== FILE: daily_counter.dfy ===
/** The daily study counter: `daily_study_log` (day -> count) and the
    per-word-per-day guard `daily_word_reviews`. A call with a word id credits
    the day at most once per word; a call without one always credits it. Days
    are integer day numbers in the fixed UTC+10 calendar, passed in as `today`. */
module DailyCounter {
  import opened Results

  /** `daily_study_log`: review count per day; a missing day counts 0. */
  type Ledger = map<int, int>

  /** `daily_word_reviews`: the (word id, day) pairs already credited. */
  type Guard = set<(int, int)>

  datatype Store = Store(ledger: Ledger, guard: Guard)

  /** The guard records that `wordId` was credited on `day`. */
  predicate Credited(g: Guard, wordId: int, day: int) {
    (wordId, day) in g
  }

  /** The count recorded for `day`, 0 when there is no row. */
  function Count(l: Ledger, day: int): int {
    if day in l then l[day] else 0
  }

  /** `INSERT ... VALUES (day, 1) ON DUPLICATE KEY UPDATE review_count = review_count + 1`. */
  function Credit(l: Ledger, day: int): (r: Ledger)
    ensures r.Keys == l.Keys + {day}
    ensures Count(r, day) == Count(l, day) + 1
    ensures forall d :: d != day ==> Count(r, d) == Count(l, d)
  {
    l[day := Count(l, day) + 1]
  }

  datatype Outcome = Outcome(store: Store, applied: bool)

  /** One call of the counter. `guardAvailable` is false when the guard table
      cannot be queried (it does not exist yet); the call then falls back to an
      unconditional increment. */
  function IncrementDailyCounter(s: Store, today: int, wordId: Option<int>, guardAvailable: bool): (r: Outcome)
    ensures wordId.None? || !guardAvailable ==>
      r.applied && r.store.guard == s.guard
    ensures wordId.Some? && guardAvailable ==>
      ((wordId.value, today) in s.guard <==> !r.applied)
    ensures wordId.Some? && guardAvailable && r.applied ==>
      r.store.guard == s.guard + {(wordId.value, today)}
    ensures !r.applied ==> r.store == s
    ensures r.applied ==> Count(r.store.ledger, today) == Count(s.ledger, today) + 1
    ensures forall d :: d != today ==> Count(r.store.ledger, d) == Count(s.ledger, d)
  {
    if wordId.Some? && guardAvailable && (wordId.value, today) in s.guard then
      Outcome(s, false)
    else
      var guard := if wordId.Some? && guardAvailable then s.guard + {(wordId.value, today)} else s.guard;
      Outcome(Store(Credit(s.ledger, today), guard), true)
  }

  /** Crediting the same word twice on one day adds exactly one; crediting
      without a word id twice adds two. */
  lemma CreditTwice(s: Store, today: int, wordId: Option<int>)
    ensures var first := IncrementDailyCounter(s, today, wordId, true);
            var second := IncrementDailyCounter(first.store, today, wordId, true);
            && !(wordId.Some? && second.applied)
            && (wordId.Some? ==> Count(second.store.ledger, today) <= Count(s.ledger, today) + 1)
            && ((wordId.Some? && (wordId.value, today) !in s.guard) ==>
                  Count(second.store.ledger, today) == Count(s.ledger, today) + 1)
            && (wordId.None? ==> Count(second.store.ledger, today) == Count(s.ledger, today) + 2)
  {
  }

  /** A day's worth of calls, in order, with the guard table present. */
  function RunCalls(s: Store, today: int, calls: seq<Option<int>>): Store
    decreases |calls|
  {
    if |calls| == 0 then s
    else IncrementDailyCounter(RunCalls(s, today, calls[..|calls| - 1]), today, calls[|calls| - 1], true).store
  }

  /** The distinct word ids among the calls. */
  function WordIds(calls: seq<Option<int>>): set<int>
    decreases |calls|
  {
    if |calls| == 0 then {}
    else WordIds(calls[..|calls| - 1]) + (if calls[|calls| - 1].Some? then {calls[|calls| - 1].value} else {})
  }

  /** The calls without a word id. */
  function AnonymousCalls(calls: seq<Option<int>>): nat
    decreases |calls|
  {
    if |calls| == 0 then 0
    else AnonymousCalls(calls[..|calls| - 1]) + (if calls[|calls| - 1].None? then 1 else 0)
  }

  /** Starting from a day nobody has been credited on, a day's calls raise the
      day's count by exactly the number of distinct words plus the number of
      anonymous calls, and the guard then lists exactly those words for the day. */
  lemma {:induction false} DayCountIsDistinctWords(s: Store, today: int, calls: seq<Option<int>>)
    requires forall p :: p in s.guard ==> p.1 != today
    ensures forall w :: Credited(RunCalls(s, today, calls).guard, w, today) <==> w in WordIds(calls)
    ensures Count(RunCalls(s, today, calls).ledger, today)
         == Count(s.ledger, today) + |WordIds(calls)| + AnonymousCalls(calls)
    decreases |calls|
  {
    if |calls| > 0 {
      var prefix := calls[..|calls| - 1];
      var c := calls[|calls| - 1];
      DayCountIsDistinctWords(s, today, prefix);
      var mid := RunCalls(s, today, prefix);
      assert calls[..|calls| - 1] == prefix;
      assert RunCalls(s, today, calls) == IncrementDailyCounter(mid, today, c, true).store;
      if c.Some? {
        if c.value in WordIds(prefix) {
          assert Credited(mid.guard, c.value, today);
          assert RunCalls(s, today, calls) == mid;
          assert WordIds(calls) == WordIds(prefix);
        } else {
          assert !Credited(mid.guard, c.value, today);
          assert WordIds(calls) == WordIds(prefix) + {c.value};
          assert |WordIds(calls)| == |WordIds(prefix)| + 1;
        }
      }
    }
  }
}

=== FILE: env_config.dfy ===
/** The SRS column migration script: its hand-written `.env` reader, the
    connection settings it derives (with their defaults), and the choice of
    SRS columns it adds to the `words` table. Opening the file, connecting
    and running the `ALTER TABLE` statements are left out: the file is its
    lines (or `None` when it does not exist) and the table is the list of
    its column names. */
module EnvConfig {
  import opened Results
  import opened Text

  // ---------------------------------------------------------------------
  // One line of the file.

  /** The index of the first `c` in `s`. */
  function IndexOf(s: String, c: char): (i: nat)
    requires c in s
    ensures i < |s| && s[i] == c && c !in s[..i]
    decreases |s|
  {
    if s[0] == c then 0
    else
      var j := IndexOf(s[1..], c);
      assert s[..j + 1] == [s[0]] + s[1..][..j];
      j + 1
  }

  /** Python `v[1:-1]`: empty for a string of length at most 2. */
  function Inner(v: String): (r: String)
    ensures |v| >= 2 ==> |r| == |v| - 2 && v == [v[0]] + r + [v[|v| - 1]]
    ensures |v| < 2 ==> r == []
  {
    if |v| >= 2 then v[1..|v| - 1] else []
  }

  /** The quote removal: a value that starts and ends with `"`, or else
      starts and ends with `'`, loses its outer characters. */
  function Unquote(v: String): (r: String)
    ensures (StartsWith(v, "\"") && EndsWith(v, "\"")) || (StartsWith(v, "'") && EndsWith(v, "'"))
      ==> r == Inner(v)
    ensures !((StartsWith(v, "\"") && EndsWith(v, "\"")) || (StartsWith(v, "'") && EndsWith(v, "'")))
      ==> r == v
  {
    if StartsWith(v, "\"") && EndsWith(v, "\"") then Inner(v)
    else if StartsWith(v, "'") && EndsWith(v, "'") then Inner(v)
    else v
  }

  /** A matched pair of quotes around a value comes off, exactly once. */
  lemma UnquotePair(q: char, s: String)
    requires q == '"' || q == '\''
    ensures Unquote([q] + s + [q]) == s
  {
    var v := [q] + s + [q];
    assert v[..1] == [q] && v[|v| - 1..] == [q];
    assert v[1..|v| - 1] == s;
  }

  /** Mismatched quotes are kept. */
  lemma MismatchedQuotesKept(s: String)
    ensures Unquote("\"" + s + "'") == "\"" + s + "'"
    ensures Unquote("'" + s + "\"") == "'" + s + "\""
  {
    var a := "\"" + s + "'";
    var b := "'" + s + "\"";
    assert a[|a| - 1..] == "'" && a[..1] == "\"";
    assert b[|b| - 1..] == "\"" && b[..1] == "'";
  }

  /** A lone quote character is both the opening and the closing quote, and
      `v[1:-1]` of it is empty. */
  lemma LoneQuoteEmpties()
    ensures Unquote("\"") == []
    ensures Unquote("'") == []
  {
  }

  /** A line of the file, stripped: skipped when empty, a `#` comment or
      without `=`; otherwise cut at its first `=` into an untrimmed key and a
      value with its quotes removed. */
  function ParseLine(raw: String): (r: Option<(String, String)>)
    ensures r.None? <==> var line := Strip(raw); line == [] || StartsWith(line, "#") || '=' !in line
    ensures r.Some? ==> '=' !in r.value.0 &&
                        exists v :: Strip(raw) == r.value.0 + "=" + v && r.value.1 == Unquote(v)
  {
    var line := Strip(raw);
    if line == [] || StartsWith(line, "#") || '=' !in line then None
    else
      var i := IndexOf(line, '=');
      var k := line[..i];
      var v := line[i + 1..];
      assert line == k + "=" + v;
      Some((k, Unquote(v)))
  }

  /** A line with no surrounding whitespace is cut at the `=` that ends
      its key. */
  lemma ParseKeyValue(k: String, v: String)
    requires k != [] && !IsSpace(k[0]) && k[0] != '#' && '=' !in k
    requires v != [] && !IsSpace(v[|v| - 1])
    ensures ParseLine(k + "=" + v) == Some((k, Unquote(v)))
  {
    var line := k + "=" + v;
    PlainKeyValue(k, v);
    ParseStripped(line);
    assert line[..|k|] == k && line[|k| + 1..] == v;
  }

  /** Such a line is its own `strip()`, is not a comment, and has its first
      `=` right after the key. */
  lemma PlainKeyValue(k: String, v: String)
    requires k != [] && !IsSpace(k[0]) && k[0] != '#' && '=' !in k
    requires v != [] && !IsSpace(v[|v| - 1])
    ensures var line := k + "=" + v;
      && Strip(line) == line && line != [] && !StartsWith(line, "#") && '=' in line
      && IndexOf(line, '=') == |k|
  {
    var line := k + "=" + v;
    assert Strip(line) == line by {
      assert line[0] == k[0] && line[|line| - 1] == v[|v| - 1];
      StripUnchanged(line);
    }
    assert line[0] == k[0] && line[|k|] == '=';
    FirstSeparator(k, v);
  }

  /** Only the first `=` separates: a value keeps any later ones. */
  lemma ValueKeepsEquals(k: String, a: String, b: String)
    requires k != [] && !IsSpace(k[0]) && k[0] != '#' && '=' !in k
    requires a != [] && a[0] != '"' && a[0] != '\''
    requires b != [] && !IsSpace(b[|b| - 1])
    ensures ParseLine(k + "=" + a + "=" + b) == Some((k, a + "=" + b))
  {
    var v := a + "=" + b;
    assert k + "=" + a + "=" + b == k + "=" + v;
    assert v[0] == a[0] && v[|v| - 1] == b[|b| - 1];
    ParseKeyValue(k, v);
  }

  /** Whitespace around `=` stays in the key and the value. */
  lemma KeyNotTrimmed(k: String, v: String)
    requires k != [] && !IsSpace(k[0]) && k[0] != '#' && '=' !in k
    requires v != [] && !IsSpace(v[|v| - 1])
    ensures ParseLine(k + " = " + v) == Some((k + " ", " " + v))
  {
    assert k + " = " + v == (k + " ") + "=" + (" " + v);
    var w := " " + v;
    assert w[0] == ' ' && w[|w| - 1] == v[|v| - 1];
    ParseKeyValue(k + " ", w);
  }

  /** The first `=` after a key without one is the one that follows it. */
  lemma FirstSeparator(k: String, v: String)
    requires '=' !in k
    ensures IndexOf(k + "=" + v, '=') == |k|
  {
    var line := k + "=" + v;
    assert line[|k|] == '=';
    assert line[..|k|] == k;
  }

  /** `ParseLine` of a line that is already stripped and holds a `=`. */
  lemma ParseStripped(line: String)
    requires Strip(line) == line && line != [] && !StartsWith(line, "#") && '=' in line
    ensures var i := IndexOf(line, '=');
      ParseLine(line) == Some((line[..i], Unquote(line[i + 1..])))
  {
  }

  // ---------------------------------------------------------------------
  // The whole file.

  /** The variables read so far, and the next line applied. */
  function ApplyLine(env: map<String, String>, raw: String): map<String, String> {
    match ParseLine(raw)
    case None => env
    case Some((k, v)) => env[k := v]
  }

  /** The reading loop, line by line in file order. */
  function Load(env: map<String, String>, lines: seq<String>): map<String, String>
    decreases |lines|
  {
    if lines == [] then env else Load(ApplyLine(env, lines[0]), lines[1..])
  }

  /** The variables of the file: none when it does not exist. */
  function EnvVars(file: Option<seq<String>>): map<String, String> {
    match file
    case None => map[]
    case Some(lines) => Load(map[], lines)
  }

  /** The reference definition: scanning from the end, the value of the
      last line that sets `k`. */
  function LastValue(lines: seq<String>, k: String): Option<String>
    decreases |lines|
  {
    if lines == [] then None
    else
      match ParseLine(lines[|lines| - 1])
      case Some((k2, v)) =>
        if k2 == k then Some(v) else LastValue(lines[..|lines| - 1], k)
      case None => LastValue(lines[..|lines| - 1], k)
  }

  lemma {:induction false} LoadSnoc(env: map<String, String>, lines: seq<String>, raw: String)
    ensures Load(env, lines + [raw]) == ApplyLine(Load(env, lines), raw)
    decreases |lines|
  {
    if lines == [] {
      assert lines + [raw] == [raw];
    } else {
      assert (lines + [raw])[1..] == lines[1..] + [raw];
      LoadSnoc(ApplyLine(env, lines[0]), lines[1..], raw);
    }
  }

  /** A later line for the same key overwrites an earlier one: every key
      holds the value of the last line that sets it, and a key no line sets
      keeps what it had. */
  lemma {:induction false} LastLineWins(env: map<String, String>, lines: seq<String>, k: String)
    ensures LastValue(lines, k).Some? ==> k in Load(env, lines) && Load(env, lines)[k] == LastValue(lines, k).value
    ensures LastValue(lines, k).None? ==>
      (k in Load(env, lines) <==> k in env) && (k in env ==> Load(env, lines)[k] == env[k])
    decreases |lines|
  {
    if lines != [] {
      var init := lines[..|lines| - 1];
      var raw := lines[|lines| - 1];
      assert lines == init + [raw];
      LoadSnoc(env, init, raw);
      LastLineWins(env, init, k);
    }
  }

  /** A missing file sets nothing, and a file's variables are exactly the
      keys some line sets. */
  lemma EnvVarsKeys(file: Option<seq<String>>, k: String)
    ensures file.None? ==> EnvVars(file) == map[]
    ensures file.Some? ==> (k in EnvVars(file) <==> LastValue(file.value, k).Some?)
    ensures file.Some? && k in EnvVars(file) ==> EnvVars(file)[k] == LastValue(file.value, k).value
  {
    if file.Some? {
      LastLineWins(map[], file.value, k);
    }
  }

  // ---------------------------------------------------------------------
  // Connection settings.

  /** The port stays the text read (or the default number): `int()` of it
      is not modelled. */
  datatype Port = DefaultPort | PortText(text: String)

  datatype DbSettings = DbSettings(host: String, port: Port, user: String, password: String, name: String)

  /** `env_vars.get(key, default)`. */
  function Get(env: map<String, String>, key: String, default: String): (r: String)
    ensures key in env ==> r == env[key]
    ensures key !in env ==> r == default
  {
    if key in env then env[key] else default
  }

  const DefaultPortNumber: int := 3306

  /** The settings the script connects with. */
  function Settings(env: map<String, String>): (s: DbSettings)
    ensures s.host == (if "DB_HOST" in env then env["DB_HOST"] else "localhost")
    ensures s.port == (if "DB_PORT" in env then PortText(env["DB_PORT"]) else DefaultPort)
    ensures s.user == (if "DB_USER" in env then env["DB_USER"] else "root")
    ensures s.password == (if "DB_PASSWORD" in env then env["DB_PASSWORD"] else "")
    ensures s.name == (if "DB_NAME" in env then env["DB_NAME"] else "bkdict_db")
  {
    DbSettings(
      Get(env, "DB_HOST", "localhost"),
      if "DB_PORT" in env then PortText(env["DB_PORT"]) else DefaultPort,
      Get(env, "DB_USER", "root"),
      Get(env, "DB_PASSWORD", ""),
      Get(env, "DB_NAME", "bkdict_db"))
  }

  /** Without a `.env` file every setting is its default. */
  lemma NoFileDefaults()
    ensures Settings(EnvVars(None)) == DbSettings("localhost", DefaultPort, "root", "", "bkdict_db")
  {
  }

  // ---------------------------------------------------------------------
  // Column selection.

  datatype Column = Column(name: String, definition: String)

  /** The SRS columns, in the order they are added. */
  const SrsColumns: seq<Column> := [
    Column("next_review_date", "DATETIME DEFAULT NULL"),
    Column("srs_interval", "INT DEFAULT 0"),
    Column("srs_repetitions", "INT DEFAULT 0"),
    Column("srs_ease_factor", "FLOAT DEFAULT 2.5")
  ]

  /** `a` is `b` with some elements left out. */
  predicate IsSubsequence<T(==)>(a: seq<T>, b: seq<T>)
    decreases |b|
  {
    if a == [] then true
    else if b == [] then false
    else if a[0] == b[0] then IsSubsequence(a[1..], b[1..])
    else IsSubsequence(a, b[1..])
  }

  /** The columns of `cols` whose name the table does not have yet, in
      order: one `ALTER TABLE` each. */
  function MissingColumns(cols: seq<Column>, existing: seq<String>): (r: seq<Column>)
    ensures forall c :: c in r <==> c in cols && c.name !in existing
    ensures IsSubsequence(r, cols)
    decreases |cols|
  {
    if cols == [] then []
    else
      var rest := MissingColumns(cols[1..], existing);
      if cols[0].name !in existing then
        assert ([cols[0]] + rest)[1..] == rest;
        [cols[0]] + rest
      else
        assert forall c :: c in rest ==> c in cols;
        if rest == [] then [] else
          assert rest[0] != cols[0] by {
            assert rest[0] in rest;
          }
          rest
  }

  /** A table that has every SRS column gets nothing; one with none of them
      gets all four. */
  lemma MigrationExtremes(existing: seq<String>)
    ensures (forall c :: c in SrsColumns ==> c.name in existing) ==> MissingColumns(SrsColumns, existing) == []
    ensures (forall c :: c in SrsColumns ==> c.name !in existing) ==> MissingColumns(SrsColumns, existing) == SrsColumns
  {
    if forall c :: c in SrsColumns ==> c.name !in existing {
      AllMissingKept(SrsColumns, existing);
    }
    if forall c :: c in SrsColumns ==> c.name in existing {
      AllPresentDropped(SrsColumns, existing);
    }
  }

  lemma {:induction false} AllPresentDropped(cols: seq<Column>, existing: seq<String>)
    requires forall c :: c in cols ==> c.name in existing
    ensures MissingColumns(cols, existing) == []
    decreases |cols|
  {
    if cols != [] {
      assert cols[0] in cols;
      assert forall c :: c in cols[1..] ==> c in cols;
      AllPresentDropped(cols[1..], existing);
    }
  }

  lemma {:induction false} AllMissingKept(cols: seq<Column>, existing: seq<String>)
    requires forall c :: c in cols ==> c.name !in existing
    ensures MissingColumns(cols, existing) == cols
    decreases |cols|
  {
    if cols != [] {
      assert cols[0] in cols;
      AllMissingKept(cols[1..], existing);
      assert cols == [cols[0]] + cols[1..];
    }
  }
}

=== FILE: poe_response.dfy ===
/** Cleaning a chat model's reply before it is shown as a sample sentence:
    the reply may open with a "Thinking..." header and a block of `>`-quoted
    reasoning. Everything up to the last quoted line is dropped, then a
    leading "Thinking..." header line, then leading blank lines, and the rest
    is re-joined and stripped. */
module PoeResponse {
  import opened Text

  // ---------------------------------------------------------------------
  // Quoted lines.

  /** A line whose stripped form starts with `>`. */
  predicate QuoteLine(line: String) {
    StartsWith(Strip(line), ">")
  }

  /** In a whole text: position `j` holds a `>` that only whitespace
      separates from the start of its line at `i`. */
  predicate QuoteAt(s: String, i: int, j: int) {
    && 0 <= i <= j < |s|
    && (i == 0 || s[i - 1] == '\n')
    && AllSpace(s[i..j])
    && s[j] == '>'
  }

  /** The text has a line whose stripped form starts with `>`. */
  predicate HasQuoteLine(s: String) {
    exists i, j | 0 <= i <= j < |s| :: QuoteAt(s, i, j)
  }

  /** The index of the last quoted line among the first `n`, or -1 when
      there is none. */
  function LastQuoteBefore(lines: seq<String>, n: int): (r: int)
    requires 0 <= n <= |lines|
    ensures -1 <= r < n
    ensures r >= 0 ==> QuoteLine(lines[r])
    ensures forall k :: r < k < n ==> !QuoteLine(lines[k])
    decreases n
  {
    if n == 0 then -1
    else if QuoteLine(lines[n - 1]) then n - 1
    else LastQuoteBefore(lines, n - 1)
  }

  /** The index of the last quoted line, or -1 when there is none. */
  function LastQuote(lines: seq<String>): (r: int)
    ensures -1 <= r < |lines|
    ensures r >= 0 ==> QuoteLine(lines[r])
    ensures forall k :: r < k < |lines| ==> !QuoteLine(lines[k])
  {
    LastQuoteBefore(lines, |lines|)
  }

  // ---------------------------------------------------------------------
  // The "Thinking..." header: `^[\s*]*Thinking\.\.\.[\s*]*$`, ignoring case.

  const Marker: String := "thinking..."

  predicate StarOrSpace(c: char) {
    c == '*' || IsSpace(c)
  }

  predicate AllStarOrSpace(s: String) {
    forall k :: 0 <= k < |s| ==> StarOrSpace(s[k])
  }

  /** The length of the leading run of `*` and whitespace. */
  function LeadingRun(s: String): (n: nat)
    ensures n <= |s|
    ensures AllStarOrSpace(s[..n])
    ensures n == |s| || !StarOrSpace(s[n])
    decreases |s|
  {
    if |s| > 0 && StarOrSpace(s[0]) then
      var n := 1 + LeadingRun(s[1..]);
      assert s[..n] == [s[0]] + s[1..][..n - 1];
      n
    else 0
  }

  /** The header test as a direct scan: skip the leading run, read the
      marker in either case, and allow only `*` and whitespace after it. */
  predicate IsHeader(s: String) {
    var n := LeadingRun(s);
    && n + |Marker| <= |s|
    && Lower(s[n..n + |Marker|]) == Marker
    && AllStarOrSpace(s[n + |Marker|..])
  }

  /** The regular expression's reading: some split of the line into a
      `[\s*]*` run, the marker, and another `[\s*]*` run. */
  predicate HeaderPattern(s: String) {
    exists i | 0 <= i && i + |Marker| <= |s| ::
      && AllStarOrSpace(s[..i])
      && Lower(s[i..i + |Marker|]) == Marker
      && AllStarOrSpace(s[i + |Marker|..])
  }

  /** The scan accepts exactly the lines the pattern matches: the marker's
      first letter is no `*` or whitespace, so the run before it is the
      whole leading run. */
  lemma IsHeaderMatchesPattern(s: String)
    ensures IsHeader(s) <==> HeaderPattern(s)
  {
    var n := LeadingRun(s);
    if HeaderPattern(s) {
      var i :| 0 <= i && i + |Marker| <= |s|
        && AllStarOrSpace(s[..i])
        && Lower(s[i..i + |Marker|]) == Marker
        && AllStarOrSpace(s[i + |Marker|..]);
      assert LowerChar(s[i]) == 't' by {
        assert Lower(s[i..i + |Marker|])[0] == Marker[0];
      }
      assert !StarOrSpace(s[i]);
      assert n <= i;
      assert n >= i by {
        forall k | 0 <= k < i
          ensures StarOrSpace(s[k])
        {
          assert s[..i][k] == s[k];
        }
      }
    }
    if IsHeader(s) {
      assert AllStarOrSpace(s[..n]);
    }
  }

  // ---------------------------------------------------------------------
  // The cleaning itself.

  /** A line that is empty once stripped. */
  predicate Blank(line: String) {
    Strip(line) == []
  }

  /** The lines from the first non-blank one on. */
  function DropLeadingBlank(lines: seq<String>): (r: seq<String>)
    ensures |r| <= |lines| && r == lines[|lines| - |r|..]
    ensures forall k :: 0 <= k < |lines| - |r| ==> Blank(lines[k])
    ensures r == [] || !Blank(r[0])
    decreases |lines|
  {
    if |lines| > 0 && Blank(lines[0]) then DropLeadingBlank(lines[1..]) else lines
  }

  /** The lines after the last quoted line, without a leading header line:
      a suffix that drops every line up to the last quoted one, and one line
      more exactly when the line right after it is a header. */
  function Candidate(lines: seq<String>): (c: seq<String>)
    ensures |c| <= |lines| && c == lines[|lines| - |c|..]
    ensures forall k :: 0 <= k < |c| ==> !QuoteLine(c[k])
    ensures LastQuote(lines) + 1 <= |lines| - |c| <= LastQuote(lines) + 2
    ensures |lines| - |c| == LastQuote(lines) + 2 <==>
      LastQuote(lines) + 1 < |lines| && IsHeader(Strip(lines[LastQuote(lines) + 1]))
  {
    var after := lines[LastQuote(lines) + 1..];
    if |after| > 0 && IsHeader(Strip(after[0])) then after[1..] else after
  }

  /** `clean_poe_response`. */
  function CleanPoeResponse(text: String): (r: String)
    ensures text == [] ==> r == []
    ensures r == [] || (!IsSpace(r[0]) && !IsSpace(r[|r| - 1]))
    ensures !HasQuoteLine(r)
  {
    if text == [] then []
    else
      var lines := Split(Strip(text), '\n');
      var kept := DropLeadingBlank(Candidate(lines));
      var joined := Join(kept, '\n');
      NoQuoteInJoin(kept);
      StripKeepsNoQuote(joined);
      Strip(joined)
  }

  // ---------------------------------------------------------------------
  // Lemmas.

  /** A string starts with `>` exactly when its first character is `>`. */
  lemma StartsWithQuote(r: String)
    ensures StartsWith(r, ">") <==> r != [] && r[0] == '>'
  {
    if r != [] {
      assert r[..1] == [r[0]];
    }
  }

  /** `rstrip` keeps a first character that is not whitespace. */
  lemma RStripKeepsHead(l: String)
    requires l != [] && !IsSpace(l[0])
    ensures RStrip(l) != [] && RStrip(l)[0] == l[0]
  {
  }

  /** Stripped, a line starts with `>` exactly when its first
      non-whitespace character is `>`. */
  lemma QuoteLineHead(line: String)
    ensures QuoteLine(line) <==> LStrip(line) != [] && LStrip(line)[0] == '>'
  {
    var l := LStrip(line);
    var r := RStrip(l);
    assert Strip(line) == r;
    StartsWithQuote(r);
    if l != [] {
      assert !IsSpace(l[0]);
      RStripKeepsHead(l);
    } else {
      assert r == [];
    }
  }

  /** `lstrip` removes at least a leading run of whitespace. */
  lemma {:induction false} LStripPastSpaces(p: String, j: int)
    requires 0 <= j <= |p| && AllSpace(p[..j])
    ensures |LStrip(p)| <= |p| - j
    decreases j
  {
    if j > 0 {
      assert IsSpace(p[..j][0]);
      assert p[1..][..j - 1] == p[..j][1..];
      LStripPastSpaces(p[1..], j - 1);
    }
  }

  /** `lstrip` stops at the first non-whitespace character. */
  lemma {:induction false} LStripStopsAt(p: String, j: int)
    requires 0 <= j < |p| && !IsSpace(p[j])
    ensures |p| - |LStrip(p)| <= j
    decreases j
  {
    if IsSpace(p[0]) {
      assert p[1..][j - 1] == p[j];
      LStripStopsAt(p[1..], j - 1);
    }
  }

  /** In a single line (no newline), a quote position makes the line quoted. */
  lemma OneLineQuoteAt(p: String, i: int, j: int)
    requires '\n' !in p
    requires QuoteAt(p, i, j)
    ensures QuoteLine(p)
  {
    assert i == 0;
    assert p[..j] == p[i..j];
    LStripPastSpaces(p, j);
    LStripStopsAt(p, j);
    var l := LStrip(p);
    LStripShape(p);
    assert l[0] == p[j];
    QuoteLineHead(p);
  }

  /** A quoted line has a quote position at its start. */
  lemma OneLineQuoteFrom(p: String)
    requires QuoteLine(p)
    ensures QuoteAt(p, 0, |p| - |LStrip(p)|)
  {
    QuoteLineHead(p);
    LStripShape(p);
    var a := |p| - |LStrip(p)|;
    assert p[0..a] == p[..a];
  }

  /** A single line (no newline) has a quote position exactly when its
      stripped form starts with `>`. */
  lemma OneLineQuote(p: String)
    requires '\n' !in p
    ensures HasQuoteLine(p) <==> QuoteLine(p)
  {
    if HasQuoteLine(p) {
      var i, j :| 0 <= i <= j < |p| && QuoteAt(p, i, j);
      OneLineQuoteAt(p, i, j);
    }
    if QuoteLine(p) {
      OneLineQuoteFrom(p);
    }
  }

  lemma QuoteInLeft(a: String, b: String, i: int, j: int)
    requires QuoteAt(a, i, j)
    ensures QuoteAt(a + ['\n'] + b, i, j)
  {
    var s := a + ['\n'] + b;
    assert s[i..j] == a[i..j];
  }

  lemma QuoteInRight(a: String, b: String, i: int, j: int)
    requires QuoteAt(b, i, j)
    ensures QuoteAt(a + ['\n'] + b, i + |a| + 1, j + |a| + 1)
  {
    var s := a + ['\n'] + b;
    var off := |a| + 1;
    assert s[i + off..j + off] == b[i..j];
    assert s[i + off - 1] == (if i == 0 then '\n' else b[i - 1]);
  }

  lemma QuoteFromConcat(a: String, b: String, i: int, j: int)
    requires QuoteAt(a + ['\n'] + b, i, j)
    ensures HasQuoteLine(a) || HasQuoteLine(b)
  {
    var s := a + ['\n'] + b;
    var off := |a| + 1;
    if j < |a| {
      assert s[i..j] == a[i..j];
      assert QuoteAt(a, i, j);
    } else {
      assert j >= off;
      var i2 := if i < off then off else i;
      assert s[i2..j] == s[i..j][i2 - i..];
      assert s[i2..j] == b[i2 - off..j - off];
      assert i2 - off == 0 || b[i2 - off - 1] == s[i2 - 1];
      assert QuoteAt(b, i2 - off, j - off);
    }
  }

  /** Joining two texts with a newline: a quote line of the whole lies in
      one of the parts, and a quote line of either part is one of the whole. */
  lemma ConcatQuote(a: String, b: String)
    ensures HasQuoteLine(a + ['\n'] + b) <==> HasQuoteLine(a) || HasQuoteLine(b)
  {
    var s := a + ['\n'] + b;
    if HasQuoteLine(s) {
      var i, j :| 0 <= i <= j < |s| && QuoteAt(s, i, j);
      QuoteFromConcat(a, b, i, j);
    }
    if HasQuoteLine(a) {
      var i, j :| 0 <= i <= j < |a| && QuoteAt(a, i, j);
      QuoteInLeft(a, b, i, j);
    }
    if HasQuoteLine(b) {
      var i, j :| 0 <= i <= j < |b| && QuoteAt(b, i, j);
      QuoteInRight(a, b, i, j);
    }
  }

  /** The joined text of newline-free lines has a quote line exactly when
      one of the lines is quoted. */
  lemma {:induction false} JoinQuote(parts: seq<String>)
    requires forall k :: 0 <= k < |parts| ==> '\n' !in parts[k]
    ensures HasQuoteLine(Join(parts, '\n')) <==> exists k :: 0 <= k < |parts| && QuoteLine(parts[k])
    decreases |parts|
  {
    if |parts| == 1 {
      OneLineQuote(parts[0]);
    } else if |parts| > 1 {
      JoinQuote(parts[1..]);
      OneLineQuote(parts[0]);
      ConcatQuote(parts[0], Join(parts[1..], '\n'));
      if exists k :: 0 <= k < |parts| && QuoteLine(parts[k]) {
        var k :| 0 <= k < |parts| && QuoteLine(parts[k]);
        if k > 0 {
          assert parts[1..][k - 1] == parts[k];
        }
      }
      if exists k :: 0 <= k < |parts[1..]| && QuoteLine(parts[1..][k]) {
        var k :| 0 <= k < |parts[1..]| && QuoteLine(parts[1..][k]);
        assert parts[k + 1] == parts[1..][k];
      }
    }
  }

  /** Lines none of which is quoted join to a text without a quote line. */
  lemma NoQuoteInJoin(parts: seq<String>)
    requires forall k :: 0 <= k < |parts| ==> !QuoteLine(parts[k])
    requires forall k :: 0 <= k < |parts| ==> '\n' !in parts[k]
    ensures !HasQuoteLine(Join(parts, '\n'))
  {
    JoinQuote(parts);
  }

  lemma QuoteFromStrip(t: String, i: int, j: int)
    requires QuoteAt(Strip(t), i, j)
    ensures HasQuoteLine(t)
  {
    var a := |t| - |LStrip(t)|;
    StripSlice(t);
    LStripShape(t);
    QuoteInSlice(t, a, Strip(t), i, j);
  }

  /** The stripped text sits in the original right after the leading
      whitespace. */
  lemma StripSlice(t: String)
    ensures var a := |t| - |LStrip(t)|;
      && 0 <= a <= a + |Strip(t)| <= |t|
      && Strip(t) == t[a..a + |Strip(t)|]
  {
    var l := LStrip(t);
    var a := |t| - |l|;
    var r := RStrip(l);
    assert Strip(t) == r;
    LStripShape(t);
    RStripShape(l);
    assert r == l[..|r|];
    forall k | 0 <= k < |r|
      ensures t[a..a + |r|][k] == r[k]
    {
      assert t[a..a + |r|][k] == t[a + k] == l[k];
    }
  }

  /** A quote line of a piece of the text that follows only whitespace is
      a quote line of the text. */
  lemma QuoteInSlice(t: String, a: nat, s: String, i: int, j: int)
    requires a + |s| <= |t| && s == t[a..a + |s|]
    requires AllSpace(t[..a])
    requires QuoteAt(s, i, j)
    ensures HasQuoteLine(t)
  {
    assert 0 <= i <= j < |s| && AllSpace(s[i..j]);
    var piece := t[a + i..a + j];
    forall k | 0 <= k < |piece|
      ensures piece[k] == s[i..j][k]
    {
      assert piece[k] == t[a + i + k] == s[i + k];
    }
    assert piece == s[i..j];
    assert t[a + j] == s[j];
    if i == 0 {
      assert t[0..a + j] == t[..a] + s[..j];
      assert QuoteAt(t, 0, a + j);
    } else {
      assert t[a + i - 1] == s[i - 1];
      assert QuoteAt(t, a + i, a + j);
    }
  }

  /** Stripping a text cannot create a quote line. */
  lemma StripKeepsNoQuote(t: String)
    ensures HasQuoteLine(Strip(t)) ==> HasQuoteLine(t)
  {
    if HasQuoteLine(Strip(t)) {
      var i, j :| 0 <= i <= j < |Strip(t)| && QuoteAt(Strip(t), i, j);
      QuoteFromStrip(t, i, j);
    }
  }

  /** Read line by line, the cleaned reply has no line whose stripped form
      starts with `>`. */
  lemma CleanedLinesUnquoted(text: String)
    ensures forall k :: 0 <= k < |Split(CleanPoeResponse(text), '\n')| ==>
      !QuoteLine(Split(CleanPoeResponse(text), '\n')[k])
  {
    var r := CleanPoeResponse(text);
    JoinSplit(r, '\n');
    JoinQuote(Split(r, '\n'));
  }

  /** The first line of a text that starts with a non-space character is
      not blank. */
  lemma FirstLineNotBlank(t: String)
    requires t != [] && !IsSpace(t[0])
    ensures !Blank(Split(t, '\n')[0])
  {
    var line := Split(t, '\n')[0];
    assert line != [] && line[0] == t[0] by {
      assert t[0] != '\n';
      assert Split(t, '\n') == [[t[0]] + Split(t[1..], '\n')[0]] + Split(t[1..], '\n')[1..];
    }
    assert !AllSpace(line);
  }

  /** With no quoted line, the candidate lines are all lines, less a
      leading header line. */
  lemma CandidateWithoutQuotes(lines: seq<String>)
    requires |lines| > 0
    requires forall k :: 0 <= k < |lines| ==> !QuoteLine(lines[k])
    requires !IsHeader(Strip(lines[0]))
    ensures Candidate(lines) == lines
  {
    var q := LastQuote(lines);
    assert q == -1;
    assert lines[q + 1..] == lines;
  }

  /** A header line is never a quoted line: its first non-`*`, non-space
      character is the marker's `t`. */
  lemma HeaderNotQuote(line: String)
    requires IsHeader(Strip(line))
    ensures !QuoteLine(line)
  {
    var s := Strip(line);
    StartsWithQuote(s);
    assert Lower(s[LeadingRun(s)..LeadingRun(s) + |Marker|])[0] == LowerChar(s[LeadingRun(s)]);
  }

  /** The quoted line with no quoted line after it is the last one. */
  lemma LastQuoteIs(lines: seq<String>, i: int)
    requires -1 <= i < |lines|
    requires i >= 0 ==> QuoteLine(lines[i])
    requires forall k :: i < k < |lines| ==> !QuoteLine(lines[k])
    ensures LastQuote(lines) == i
  {
  }

  /** A join is empty only when it joins one empty line (or none). */
  lemma JoinNonEmpty(parts: seq<String>, k: int)
    requires 0 <= k < |parts| && parts[k] != []
    ensures Join(parts, '\n') != []
  {
    if |parts| > 1 {
      assert (parts[0] + ['\n'] + Join(parts[1..], '\n'))[|parts[0]|] == '\n';
    }
  }

  /** A reply given as newline-free lines, with no whitespace around it,
      is cleaned from exactly those lines. */
  lemma CleanLines(lines: seq<String>)
    requires |lines| >= 1 && Join(lines, '\n') != []
    requires forall k :: 0 <= k < |lines| ==> '\n' !in lines[k]
    requires Strip(Join(lines, '\n')) == Join(lines, '\n')
    ensures CleanPoeResponse(Join(lines, '\n'))
      == Strip(Join(DropLeadingBlank(Candidate(lines)), '\n'))
  {
    var text := Join(lines, '\n');
    SplitJoin(lines, '\n');
    assert Split(Strip(text), '\n') == lines;
    CleanUnfold(text);
  }

  /** A reasoning block ending in a quoted line, then an answer with no
      quoted line that does not open with a header: the cleaned reply is
      the answer, less its leading blank lines, stripped. */
  lemma ThinkingBlockDropped(thinking: seq<String>, answer: seq<String>)
    requires thinking != [] && QuoteLine(thinking[|thinking| - 1])
    requires forall k :: 0 <= k < |answer| ==> !QuoteLine(answer[k])
    requires answer == [] || !IsHeader(Strip(answer[0]))
    requires forall k :: 0 <= k < |thinking + answer| ==> '\n' !in (thinking + answer)[k]
    requires Strip(Join(thinking + answer, '\n')) == Join(thinking + answer, '\n')
    ensures CleanPoeResponse(Join(thinking + answer, '\n'))
      == Strip(Join(DropLeadingBlank(answer), '\n'))
  {
    var lines := thinking + answer;
    var q := |thinking| - 1;
    StartsWithQuote(Strip(lines[q]));
    JoinNonEmpty(lines, q);
    LastQuoteIs(lines, q);
    assert lines[q + 1..] == answer;
    assert Candidate(lines) == answer;
    CleanLines(lines);
  }

  /** A reply that opens with a header line and has no quoted line: the
      cleaned reply is the rest, less its leading blank lines, stripped. */
  lemma HeaderDropped(h: String, rest: seq<String>)
    requires IsHeader(Strip(h))
    requires forall k :: 0 <= k < |rest| ==> !QuoteLine(rest[k])
    requires '\n' !in h && forall k :: 0 <= k < |rest| ==> '\n' !in rest[k]
    requires Strip(Join([h] + rest, '\n')) == Join([h] + rest, '\n')
    ensures CleanPoeResponse(Join([h] + rest, '\n'))
      == Strip(Join(DropLeadingBlank(rest), '\n'))
  {
    var lines := [h] + rest;
    HeaderNotQuote(h);
    assert h != [];
    JoinNonEmpty(lines, 0);
    forall k | 0 <= k < |lines|
      ensures !QuoteLine(lines[k]) && '\n' !in lines[k]
    {
      if k > 0 {
        assert lines[k] == rest[k - 1];
      }
    }
    LastQuoteIs(lines, -1);
    assert lines[0..] == lines;
    assert lines[1..] == rest;
    assert Candidate(lines) == rest;
    CleanLines(lines);
  }

  /** The cleaning of a non-empty reply, step by step. */
  lemma CleanUnfold(text: String)
    requires text != []
    ensures CleanPoeResponse(text) == Strip(Join(DropLeadingBlank(Candidate(Split(Strip(text), '\n'))), '\n'))
  {
  }

  /** An all-whitespace reply cleans to the empty string. */
  lemma BlankReply(text: String)
    requires text != [] && Strip(text) == []
    ensures CleanPoeResponse(text) == []
  {
    var lines := Split(Strip(text), '\n');
    CleanUnfold(text);
    assert lines == [[]];
    var empty: String := [];
    assert Strip(empty) == [];
    assert !QuoteLine(empty);
    assert LastQuote(lines) == -1;
    assert !IsHeader(empty);
    assert Candidate(lines) == lines;
    assert DropLeadingBlank(lines) == DropLeadingBlank(lines[1..]);
  }

  /** Lines that are all kept join back to the stripped text. */
  lemma KeptLinesRejoin(text: String)
    requires Strip(text) != []
    requires DropLeadingBlank(Candidate(Split(Strip(text), '\n'))) == Split(Strip(text), '\n')
    ensures CleanPoeResponse(text) == Strip(text)
  {
    var t := Strip(text);
    CleanUnfold(text);
    JoinSplit(t, '\n');
    StripIdempotent(text);
  }

  /** A reply with no quoted line and no header comes back merely stripped. */
  lemma NoArtifactsUnchanged(text: String)
    requires forall k :: 0 <= k < |Split(Strip(text), '\n')| ==> !QuoteLine(Split(Strip(text), '\n')[k])
    requires !IsHeader(Strip(Split(Strip(text), '\n')[0]))
    ensures CleanPoeResponse(text) == Strip(text)
  {
    if text != [] {
      var t := Strip(text);
      var lines := Split(t, '\n');
      CandidateWithoutQuotes(lines);
      if t == [] {
        BlankReply(text);
      } else {
        FirstLineNotBlank(t);
        assert DropLeadingBlank(lines) == lines;
        KeptLinesRejoin(text);
      }
    }
  }
}

=== FILE: quiz_selection.dfy ===
/** Which word the quiz asks next: among words with a positive legacy review
    count, in the requested category, that are due (no next review date, or
    one not after now), the first in the order "dated before undated, then
    earliest next review date, then least recently updated". */
module QuizSelection {
  import opened Results

  /** The columns of a `words` row the selection query reads or orders by. */
  datatype Word = Word(id: int, category: string, reviewCount: int, nextReviewDate: Option<int>, updatedAt: int)

  /** The category filter: "All" or an empty string means no filter. */
  predicate InCategory(w: Word, category: string) {
    category == "" || category == "All" || w.category == category
  }

  /** The query's WHERE clause. */
  predicate IsCandidate(w: Word, category: string, now: int) {
    && w.reviewCount >= 1
    && InCategory(w, category)
    && (w.nextReviewDate.None? || w.nextReviewDate.value <= now)
  }

  /** The query's ORDER BY: `a` may be returned ahead of `b`. Undated words
      sort last, dated words by ascending date, ties by ascending update time. */
  predicate RanksFirst(a: Word, b: Word) {
    if a.nextReviewDate.None? != b.nextReviewDate.None? then a.nextReviewDate.Some?
    else if a.nextReviewDate.Some? && a.nextReviewDate.value != b.nextReviewDate.value then
      a.nextReviewDate.value < b.nextReviewDate.value
    else a.updatedAt <= b.updatedAt
  }

  /** The order is a total preorder, so a least element of any non-empty
      candidate set exists and "the front item" is well defined up to ties. */
  lemma RanksFirstIsTotalPreorder(a: Word, b: Word, c: Word)
    ensures RanksFirst(a, a)
    ensures RanksFirst(a, b) || RanksFirst(b, a)
    ensures RanksFirst(a, b) && RanksFirst(b, c) ==> RanksFirst(a, c)
  {
  }

  /** The row `LIMIT 1` returns, or None (the endpoint's 404) when no row
      passes the filter. */
  method SelectNextWord(words: seq<Word>, category: string, now: int) returns (r: Option<Word>)
    ensures r.None? <==> forall i :: 0 <= i < |words| ==> !IsCandidate(words[i], category, now)
    ensures r.Some? ==>
      && r.value in words
      && IsCandidate(r.value, category, now)
      && (forall i :: 0 <= i < |words| && IsCandidate(words[i], category, now) ==> RanksFirst(r.value, words[i]))
    ensures r.Some? && r.value.nextReviewDate.None? ==>
      forall i :: 0 <= i < |words| && IsCandidate(words[i], category, now) ==> words[i].nextReviewDate.None?
  {
    r := None;
    var i := 0;
    while i < |words|
      invariant 0 <= i <= |words|
      invariant r.None? <==> forall j :: 0 <= j < i ==> !IsCandidate(words[j], category, now)
      invariant r.Some? ==>
        && r.value in words[..i]
        && IsCandidate(r.value, category, now)
        && (forall j :: 0 <= j < i && IsCandidate(words[j], category, now) ==> RanksFirst(r.value, words[j]))
    {
      var w := words[i];
      if IsCandidate(w, category, now) {
        if r.None? || !RanksFirst(r.value, w) {
          if r.Some? {
            forall j | 0 <= j < i && IsCandidate(words[j], category, now)
              ensures RanksFirst(w, words[j])
            {
              RanksFirstIsTotalPreorder(w, r.value, words[j]);
            }
          }
          r := Some(w);
        }
      }
      assert words[..i + 1] == words[..i] + [w];
      i := i + 1;
    }
    assert words[..i] == words;
  }
}

=== FILE: results.dfy ===
/** Optional values and error-carrying results shared by every module of the model.
    `Option` stands for Python's `None`-or-value fields, `Result` for a value or a
    raised exception / error response. */
module Results {

  datatype Option<+T> = None | Some(value: T) {

    /** The value, or `default` when absent (Python's `x if x is not None else d`). */
    function GetOr(default: T): T {
      match this
      case Some(v) => v
      case None => default
    }
  }

  datatype Result<+T, +E> = Ok(value: T) | Err(error: E)
}

=== FILE: sql_script.dfy ===
/** How the database set-up script cuts a SQL file into statements. Lines
    are stripped; blank lines, `--` comments and `USE` statements are
    dropped; a `DELIMITER x` line switches the statement terminator; every
    other line is appended to a buffer with one space after it, and when the
    stripped buffer ends with the terminator the statement before it is
    emitted. Running the statements against the database is left out. */
module SqlScript {
  import opened Results
  import opened Text

  /** What a line of the file is, after stripping. */
  datatype LineKind =
    | Ignored                            // blank, or a `--` comment
    | Delimiter(token: Option<String>)   // `DELIMITER x`: the second token, if any
    | UseStatement                       // `USE db`, skipped on purpose
    | Code(text: String)                 // part of a statement

  function Classify(raw: String): (k: LineKind)
    ensures k == Ignored <==> Strip(raw) == [] || StartsWith(Strip(raw), "--")
    ensures k.Delimiter? ==> StartsWith(Upper(Strip(raw)), "DELIMITER")
    ensures k.Delimiter? && k.token.Some? ==> IsToken(k.token.value)
    ensures k.Delimiter? ==>
      k.token == (if |Tokens(Strip(raw))| >= 2 then Some(Tokens(Strip(raw))[1]) else None)
    ensures k.UseStatement? ==> StartsWith(Upper(Strip(raw)), "USE ")
    ensures k.Code? ==>
      && k.text == Strip(raw)
      && Trimmed(k.text)
      && !StartsWith(k.text, "--")
      && !StartsWith(Upper(k.text), "DELIMITER")
      && !StartsWith(Upper(k.text), "USE ")
  {
    var line := Strip(raw);
    if line == [] || StartsWith(line, "--") then Ignored
    else if StartsWith(Upper(line), "DELIMITER") then
      var ts := Tokens(line);
      Delimiter(if |ts| >= 2 then Some(ts[1]) else None)
    else if StartsWith(Upper(line), "USE ") then UseStatement
    else Code(line)
  }

  /** Non-empty, with no whitespace at either end. */
  predicate Trimmed(s: String) {
    s != [] && !IsSpace(s[0]) && !IsSpace(s[|s| - 1])
  }

  /** The splitter's state: the current terminator, the text buffered for
      the statement being read, and the statements emitted so far. */
  datatype Splitter = Splitter(delimiter: String, buffer: String, commands: seq<String>)

  const Start: Splitter := Splitter(";", [], [])

  /** The state stays well formed: the terminator is a non-empty run of
      non-whitespace, a non-empty buffer ends with the space put after its
      last line, and every emitted statement is non-empty and stripped. */
  predicate Good(st: Splitter) {
    && IsToken(st.delimiter)
    && (st.buffer == [] || st.buffer[|st.buffer| - 1] == ' ')
    && forall i :: 0 <= i < |st.commands| ==> Trimmed(st.commands[i])
  }

  /** A code line: buffer it, and emit a statement if the buffer now ends
      with the terminator. */
  function Feed(st: Splitter, line: String): (r: Splitter)
    requires IsToken(st.delimiter)
    ensures r.delimiter == st.delimiter
    ensures r.buffer == [] || r.buffer == st.buffer + line + " "
    ensures |st.commands| <= |r.commands| <= |st.commands| + 1
    ensures r.commands[..|st.commands|] == st.commands
    ensures |r.commands| > |st.commands| ==> r.buffer == []
    ensures |r.commands| > |st.commands| ==> Trimmed(r.commands[|st.commands|])
  {
    var buffer := st.buffer + line + " ";
    var b := Strip(buffer);
    if EndsWith(b, st.delimiter) then
      var cmd := Strip(b[..|b| - |st.delimiter|]);
      var commands := if cmd != [] then st.commands + [cmd] else st.commands;
      assert commands[..|st.commands|] == st.commands;
      Splitter(st.delimiter, [], commands)
    else
      Splitter(st.delimiter, buffer, st.commands)
  }

  /** A flushed statement is kept only when something is left of it. */
  function Emitted(cmd: String): (cs: seq<String>)
    ensures cs == [] <==> cmd == []
    ensures forall i :: 0 <= i < |cs| ==> cs[i] == cmd
  {
    if cmd != [] then [cmd] else []
  }

  /** Feeding a code line keeps the state well formed. */
  lemma FeedKeepsGood(st: Splitter, line: String)
    requires Good(st)
    ensures Good(Feed(st, line))
  {
    var r := Feed(st, line);
    forall i | 0 <= i < |r.commands|
      ensures Trimmed(r.commands[i])
    {
      if i < |st.commands| {
        assert r.commands[i] == r.commands[..|st.commands|][i];
      }
    }
  }

  datatype SqlError = DelimiterWithoutValue

  /** One line of the file. */
  function Step(st: Splitter, raw: String): (r: Result<Splitter, SqlError>)
    requires Good(st)
    ensures r.Err? <==> Classify(raw) == Delimiter(None)
    ensures r.Ok? ==> |st.commands| <= |r.value.commands| && r.value.commands[..|st.commands|] == st.commands
    ensures r.Ok? ==> Good(r.value)
    ensures Classify(raw) == Ignored || Classify(raw) == UseStatement ==> r == Ok(st)
  {
    match Classify(raw)
    case Ignored => Ok(st)
    case UseStatement => Ok(st)
    case Delimiter(token) =>
      if token.None? then Err(DelimiterWithoutValue) else Ok(st.(delimiter := token.value))
    case Code(line) =>
      FeedKeepsGood(st, line);
      Ok(Feed(st, line))
  }

  /** The lines of the file in order; the first bad `DELIMITER` line ends
      everything. */
  function Run(st: Splitter, lines: seq<String>): (r: Result<Splitter, SqlError>)
    requires Good(st)
    ensures r.Ok? ==> |st.commands| <= |r.value.commands| && r.value.commands[..|st.commands|] == st.commands
    ensures r.Ok? ==> Good(r.value)
    decreases |lines|
  {
    if lines == [] then Ok(st)
    else
      match Step(st, lines[0])
      case Err(e) => Err(e)
      case Ok(s2) => Run(s2, lines[1..])
  }

  /** The statement-splitting part of `execute_sql_file`: the statements
      of the file, or the failure that makes the script give up on it
      before running any of them. */
  function SplitStatements(content: String): (r: Result<seq<String>, SqlError>)
    ensures r.Ok? ==> forall i :: 0 <= i < |r.value| ==> Trimmed(r.value[i])
  {
    match Run(Start, Split(content, '\n'))
    case Err(e) => Err(e)
    case Ok(st) => Ok(st.commands)
  }

  /** Running two stretches of lines is running the first, then the second
      from where it left off. */
  lemma {:induction false} RunAppend(st: Splitter, a: seq<String>, b: seq<String>)
    requires Good(st)
    ensures Run(st, a + b) == (match Run(st, a) case Err(e) => Err(e) case Ok(s) => Run(s, b))
    decreases |a|
  {
    if a == [] {
      assert a + b == b;
    } else {
      assert (a + b)[0] == a[0];
      assert (a + b)[1..] == a[1..] + b;
      match Step(st, a[0])
      case Err(e) =>
      case Ok(s2) => RunAppend(s2, a[1..], b);
    }
  }

  /** Blank lines, comments and `USE` lines never reach a statement: adding
      one anywhere changes nothing. */
  lemma SkippedLineChangesNothing(st: Splitter, a: seq<String>, line: String, b: seq<String>)
    requires Good(st)
    requires Classify(line) == Ignored || Classify(line) == UseStatement
    ensures Run(st, a + [line] + b) == Run(st, a + b)
  {
    RunAppend(st, a, [line] + b);
    RunAppend(st, a, b);
    assert a + [line] + b == a + ([line] + b);
    match Run(st, a)
    case Err(e) =>
    case Ok(s) =>
      assert ([line] + b)[1..] == b;
  }

  /** A `DELIMITER` line without a terminator after it makes the whole file
      fail, whatever comes before or after it. */
  lemma BadDelimiterAborts(st: Splitter, a: seq<String>, line: String, b: seq<String>)
    requires Good(st)
    requires Classify(line) == Delimiter(None)
    ensures Run(st, a + [line] + b).Err?
  {
    RunAppend(st, a, [line] + b);
    assert a + [line] + b == a + ([line] + b);
  }

  /** A `DELIMITER` line switches the terminator and touches nothing else. */
  lemma DelimiterSwitches(st: Splitter, line: String, d: String)
    requires Good(st)
    requires Classify(line) == Delimiter(Some(d))
    ensures Step(st, line) == Ok(Splitter(d, st.buffer, st.commands))
  {
  }

  /** The stripped buffer after a code line is the buffered text, less
      its leading whitespace, followed by the line. */
  lemma BufferedText(buffer: String, line: String)
    requires line != [] && !IsSpace(line[0]) && !IsSpace(line[|line| - 1])
    ensures Strip(buffer + line + " ") == LStrip(buffer) + line
  {
    LStripBuffered(buffer, line);
    DropTrailingSpace(LStrip(buffer) + line);
  }

  lemma LStripBuffered(buffer: String, line: String)
    requires line != [] && !IsSpace(line[0])
    ensures LStrip(buffer + line + " ") == LStrip(buffer) + line + " "
  {
    var t := line + " ";
    var l := LStrip(buffer);
    assert buffer + line + " " == buffer + t;
    assert l + line + " " == l + t;
    assert !IsSpace(t[0]);
    if l == [] {
      LStripShape(buffer);
      assert AllSpace(buffer[..|buffer| - |l|]);
      assert buffer[..|buffer|] == buffer;
      LStripSpacePrefix(buffer, t);
      assert l + t == t;
    } else {
      LStripAppend(buffer, t);
    }
  }

  lemma DropTrailingSpace(z: String)
    requires z != [] && !IsSpace(z[|z| - 1])
    ensures RStrip(z + " ") == z
  {
    assert (z + " ")[..|z|] == z;
  }

  /** A terminator without whitespace ends `pre + line`, where `pre` is
      empty or ends with a space, exactly when it ends `line`. */
  lemma EndsAfterSpace(pre: String, line: String, d: String)
    requires IsToken(d)
    requires pre == [] || pre[|pre| - 1] == ' '
    ensures EndsWith(pre + line, d) <==> EndsWith(line, d)
  {
    var s := pre + line;
    if |d| <= |line| {
      assert s[|s| - |d|..] == line[|line| - |d|..];
    } else if |d| <= |s| {
      var k := |d| - |line| - 1;
      assert s[|s| - |d|..][k] == s[|pre| - 1] == ' ';
      assert !IsSpace(d[k]);
    }
  }

  /** A code line flushes the buffer exactly when it ends with the
      terminator; a line that does not adds no statement. */
  lemma FlushIffLineEnds(st: Splitter, line: String)
    requires Good(st)
    requires Trimmed(line)
    ensures Feed(st, line).buffer == [] <==> EndsWith(line, st.delimiter)
    ensures !EndsWith(line, st.delimiter) ==> Feed(st, line).commands == st.commands
  {
    FeedSees(st, line);
  }

  /** A code line ending with the terminator emits the buffered text plus
      the line without its terminator, stripped, unless nothing is left of it. */
  lemma FeedEmits(st: Splitter, line: String)
    requires Good(st)
    requires Trimmed(line) && EndsWith(line, st.delimiter)
    ensures Feed(st, line)
      == Splitter(st.delimiter, [], st.commands + Emitted(Strip(st.buffer + line[..|line| - |st.delimiter|])))
  {
    FlushSeen(st, line);
    FeedFlushes(st, line);
    CutStatement(st.buffer, line, |st.delimiter|);
  }

  lemma FlushSeen(st: Splitter, line: String)
    requires Good(st)
    requires Trimmed(line) && EndsWith(line, st.delimiter)
    ensures EndsWith(Strip(st.buffer + line + " "), st.delimiter)
  {
    FeedSees(st, line);
  }

  /** Once the stripped buffer ends with the terminator, the statement is
      what precedes the terminator, stripped. */
  lemma FeedFlushes(st: Splitter, line: String)
    requires IsToken(st.delimiter)
    requires EndsWith(Strip(st.buffer + line + " "), st.delimiter)
    ensures var b := Strip(st.buffer + line + " ");
      Feed(st, line) == Splitter(st.delimiter, [], st.commands + Emitted(Strip(b[..|b| - |st.delimiter|])))
  {
  }

  /** A code line not ending with the terminator is only buffered, followed
      by a space. */
  lemma FeedBuffers(st: Splitter, line: String)
    requires Good(st)
    requires Trimmed(line) && !EndsWith(line, st.delimiter)
    ensures Feed(st, line) == Splitter(st.delimiter, st.buffer + line + " ", st.commands)
  {
    FeedSees(st, line);
  }

  /** The stripped buffer the terminator is looked for in ends with it
      exactly when the line does. */
  lemma FeedSees(st: Splitter, line: String)
    requires Good(st)
    requires Trimmed(line)
    ensures Strip(st.buffer + line + " ") == LStrip(st.buffer) + line
    ensures EndsWith(LStrip(st.buffer) + line, st.delimiter) <==> EndsWith(line, st.delimiter)
  {
    var l := LStrip(st.buffer);
    BufferedText(st.buffer, line);
    LStripShape(st.buffer);
    assert l == [] || l[|l| - 1] == ' ';
    EndsAfterSpace(l, line, st.delimiter);
  }

  /** The statement a flushing line emits: cutting the terminator off the
      stripped buffer and stripping again gives the buffered text and the
      line without its terminator, stripped. */
  lemma CutStatement(buffer: String, line: String, n: nat)
    requires Trimmed(line) && n <= |line|
    ensures var b := Strip(buffer + line + " ");
      n <= |b| && Strip(b[..|b| - n]) == Strip(buffer + line[..|line| - n])
  {
    StripCutBuffered(buffer, line, n);
    StripLStripped(buffer, line[..|line| - n]);
  }

  lemma StripCutBuffered(buffer: String, line: String, n: nat)
    requires Trimmed(line) && n <= |line|
    ensures var b := Strip(buffer + line + " ");
      n <= |b| && Strip(b[..|b| - n]) == Strip(LStrip(buffer) + line[..|line| - n])
  {
    CutBuffered(buffer, line, n);
  }

  lemma CutBuffered(buffer: String, line: String, n: nat)
    requires Trimmed(line) && n <= |line|
    ensures var b := Strip(buffer + line + " ");
      n <= |b| && b[..|b| - n] == LStrip(buffer) + line[..|line| - n]
  {
    BufferedText(buffer, line);
    CutTerminator(Strip(buffer + line + " "), LStrip(buffer), line, n);
  }

  lemma CutTerminator(b: String, l: String, line: String, n: nat)
    requires b == l + line && n <= |line|
    ensures b[..|b| - n] == l + line[..|line| - n]
  {
  }

  /** Stripping ignores whether the leading text was already lstripped. */
  lemma StripLStripped(a: String, m: String)
    ensures Strip(LStrip(a) + m) == Strip(a + m)
  {
    var l := LStrip(a);
    if l == [] {
      assert AllSpace(a) by {
        LStripShape(a);
        assert a[..|a|] == a;
      }
      LStripSpacePrefix(a, m);
      assert LStrip(l + m) == LStrip(m) by {
        assert l + m == m;
      }
    } else {
      LStripAppend(a, m);
      assert LStrip(l) == l;
      LStripAppend(l, m);
    }
  }

  /** A line that neither switches the terminator nor ends with it. */
  predicate Continues(raw: String, d: String) {
    match Classify(raw)
    case Ignored => true
    case UseStatement => true
    case Delimiter(_) => false
    case Code(l) => !EndsWith(l, d)
  }

  lemma StepContinues(st: Splitter, raw: String)
    requires Good(st)
    requires Continues(raw, st.delimiter)
    ensures Step(st, raw).Ok?
    ensures Step(st, raw).value.delimiter == st.delimiter
    ensures Step(st, raw).value.commands == st.commands
  {
    match Classify(raw)
    case Ignored =>
    case UseStatement =>
    case Code(l) => FlushIffLineEnds(st, l);
  }

  /** Text after the last terminator is never emitted: lines that do not
      end with the terminator (and switch nothing) add no statement. */
  lemma {:induction false} TrailingTextDropped(st: Splitter, lines: seq<String>)
    requires Good(st)
    requires forall i :: 0 <= i < |lines| ==> Continues(lines[i], st.delimiter)
    ensures Run(st, lines).Ok? && Run(st, lines).value.commands == st.commands
    decreases |lines|
  {
    if lines != [] {
      StepContinues(st, lines[0]);
      var s2 := Step(st, lines[0]).value;
      assert forall i :: 0 <= i < |lines[1..]| ==> Continues(lines[1..][i], s2.delimiter) by {
        forall i | 0 <= i < |lines[1..]|
          ensures Continues(lines[1..][i], s2.delimiter)
        {
          assert lines[1..][i] == lines[i + 1];
        }
      }
      TrailingTextDropped(s2, lines[1..]);
    }
  }

  // ---------------------------------------------------------------------
  // A whole file.

  /** `DELIMITER d` switches the terminator to `d`, whatever `d` is. */
  lemma DelimiterLine(d: String)
    requires IsToken(d)
    ensures Classify("DELIMITER " + d) == Delimiter(Some(d))
  {
    var line := "DELIMITER " + d;
    assert Trimmed(line) by {
      assert line[|line| - 1] == d[|d| - 1];
    }
    StripUnchanged(line);
    assert !StartsWith(line, "--") by {
      assert line[1] == 'E';
    }
    DelimiterPrefix(d);
    DelimiterTokens(d);
    assert Tokens(line)[1] == d;
  }

  lemma DelimiterPrefix(d: String)
    ensures StartsWith(Upper("DELIMITER " + d), "DELIMITER")
  {
    var u := Upper("DELIMITER " + d);
    forall k | 0 <= k < 9
      ensures u[k] == "DELIMITER"[k]
    {
      assert u[k] == UpperChar(("DELIMITER " + d)[k]);
    }
  }

  lemma DelimiterTokens(d: String)
    requires IsToken(d)
    ensures Tokens("DELIMITER " + d) == ["DELIMITER", d]
  {
    KeywordSplits(d);
    KeywordIsToken();
    TokensSpaceJoin("DELIMITER", d);
    TokenAlone("DELIMITER");
    TokenAlone(d);
  }

  lemma KeywordSplits(d: String)
    ensures "DELIMITER " + d == "DELIMITER" + " " + d
  {
    assert "DELIMITER " == "DELIMITER" + " ";
  }

  lemma KeywordIsToken()
    ensures IsToken("DELIMITER")
  {
    forall k | 0 <= k < 9
      ensures !IsSpace("DELIMITER"[k])
    {
    }
  }

  /** A stripped line that starts neither a comment, a `DELIMITER` nor a
      `USE` is code. */
  lemma CodeLine(line: String)
    requires Trimmed(line)
    requires line[0] != '-' && UpperChar(line[0]) != 'D' && UpperChar(line[0]) != 'U'
    ensures Classify(line) == Code(line)
  {
    StripUnchanged(line);
    assert Upper(line)[0] == UpperChar(line[0]);
  }

  /** A statement line read with an empty buffer emits the line without its
      terminator. */
  lemma OneLineStatement(st: Splitter, stmt: String, d: String)
    requires Good(st) && st.buffer == [] && d == st.delimiter
    requires Trimmed(stmt) && stmt[0] != '-' && UpperChar(stmt[0]) != 'D' && UpperChar(stmt[0]) != 'U'
    ensures Step(st, stmt + d) == Ok(Splitter(d, [], st.commands + [stmt]))
  {
    var line := stmt + d;
    assert line[|line| - 1] == d[|d| - 1];
    CodeLine(line);
    assert EndsWith(line, d);
    assert line[..|line| - |d|] == stmt;
    assert st.buffer + stmt == stmt;
    StripUnchanged(stmt);
    FeedEmits(st, line);
  }

  /** A `DELIMITER` line with a value switches the terminator and changes nothing else. */
  lemma StepDelimiter(st: Splitter, d: String)
    requires Good(st) && IsToken(d)
    ensures Step(st, "DELIMITER " + d) == Ok(st.(delimiter := d))
  {
    DelimiterLine(d);
  }

  /** The shape of a trigger file: the terminator is switched to `d`, a body
      ended by `d` follows, the terminator is switched back to `;`, and one
      more statement follows. The body is one statement whatever it holds,
      `;` included, and the statement after it is another. */
  lemma DelimitedBlock(d: String, body: String, stmt: String)
    requires IsToken(d)
    requires Trimmed(body) && body[0] != '-' && UpperChar(body[0]) != 'D' && UpperChar(body[0]) != 'U'
    requires Trimmed(stmt) && stmt[0] != '-' && UpperChar(stmt[0]) != 'D' && UpperChar(stmt[0]) != 'U'
    requires '\n' !in body && '\n' !in stmt
    ensures SplitStatements(Join(["DELIMITER " + d, body + d, "DELIMITER " + ";", stmt + ";"], '\n'))
      == Ok([body, stmt])
  {
    var lines := ["DELIMITER " + d, body + d, "DELIMITER " + ";", stmt + ";"];
    TokenHasNo(d, '\n');
    assert forall i :: 0 <= i < |lines| ==> '\n' !in lines[i];
    SplitJoin(lines, '\n');
    BlockRuns(d, body, stmt);
  }

  lemma BlockRuns(d: String, body: String, stmt: String)
    requires IsToken(d)
    requires Trimmed(body) && body[0] != '-' && UpperChar(body[0]) != 'D' && UpperChar(body[0]) != 'U'
    requires Trimmed(stmt) && stmt[0] != '-' && UpperChar(stmt[0]) != 'D' && UpperChar(stmt[0]) != 'U'
    ensures Run(Start, ["DELIMITER " + d, body + d, "DELIMITER " + ";", stmt + ";"]) == Ok(Splitter(";", [], [body, stmt]))
  {
    var lines := ["DELIMITER " + d, body + d, "DELIMITER " + ";", stmt + ";"];
    var s1 := Start.(delimiter := d);
    var s2 := s1.(commands := s1.commands + [body]);
    var s3 := s2.(delimiter := ";");
    var s4 := s3.(commands := s3.commands + [stmt]);
    PairOfCommands(body, stmt);
    DelimiterRun(Start, lines, 0, d);
    StatementRun(s1, lines, 1, body);
    DelimiterRun(s2, lines, 2, ";");
    StatementRun(s3, lines, 3, stmt);
    assert lines[0..] == lines;
  }

  lemma PairOfCommands(a: String, b: String)
    ensures [] + [a] + [b] == [a, b]
  {
  }

  lemma DelimiterRun(st: Splitter, lines: seq<String>, i: nat, d: String)
    requires Good(st) && IsToken(d) && i < |lines| && lines[i] == "DELIMITER " + d
    ensures Run(st, lines[i..]) == Run(st.(delimiter := d), lines[i + 1..])
  {
    StepDelimiter(st, d);
    RunFrom(st, lines, i, st.(delimiter := d));
  }

  lemma StatementRun(st: Splitter, lines: seq<String>, i: nat, stmt: String)
    requires Good(st) && st.buffer == [] && i < |lines| && lines[i] == stmt + st.delimiter
    requires Trimmed(stmt) && stmt[0] != '-' && UpperChar(stmt[0]) != 'D' && UpperChar(stmt[0]) != 'U'
    ensures Run(st, lines[i..]) == Run(st.(commands := st.commands + [stmt]), lines[i + 1..])
  {
    OneLineStatement(st, stmt, st.delimiter);
    RunFrom(st, lines, i, st.(commands := st.commands + [stmt]));
  }

  /** A trigger whose body holds `;`, between `DELIMITER //` and `DELIMITER ;`. */
  lemma TriggerFileSplits()
    ensures SplitStatements(Join(["DELIMITER " + "//", "CREATE TRIGGER t BEGIN SET x = 1; END" + "//", "DELIMITER " + ";", "SELECT 1" + ";"], '\n'))
      == Ok(["CREATE TRIGGER t BEGIN SET x = 1; END", "SELECT 1"])
  {
    DelimitedBlock("//", "CREATE TRIGGER t BEGIN SET x = 1; END", "SELECT 1");
  }

  lemma TokenHasNo(w: String, c: char)
    requires IsToken(w) && IsSpace(c)
    ensures c !in w
  {
    forall k | 0 <= k < |w|
      ensures w[k] != c
    {
    }
  }

  /** One step, then the rest. */
  lemma RunFrom(st: Splitter, lines: seq<String>, i: nat, s1: Splitter)
    requires Good(st) && i < |lines| && Step(st, lines[i]) == Ok(s1)
    ensures Good(s1) && Run(st, lines[i..]) == Run(s1, lines[i + 1..])
  {
    assert lines[i..][1..] == lines[i + 1..];
  }

}

=== FILE: srs.dfy ===
/** The spaced-repetition step of the quiz (a simplified SM-2): how a
    "remember" / "not remember" answer moves a word's interval, repetition
    count, ease factor, legacy review count and next review time, and the quiz
    result endpoint that reads a word, applies the step and writes it back.

    Ease factors are integer hundredths (2.5 is 250); timestamps are integer
    seconds and one day is `SecondsPerDay` seconds. */
module Srs {
  import opened Results
  import opened Arith

  const SecondsPerDay: int := 86400
  /** 2.5, the ease factor of a word that has none. */
  const DefaultEase: int := 250
  /** 1.3, the floor a failed answer cannot push the ease factor below. */
  const MinEase: int := 130
  /** 0.15, what a failed answer takes off the ease factor. */
  const EasePenalty: int := 15

  datatype Answer = Remember | NotRemember

  /** The SRS fields of one word as the scheduler sees them. */
  datatype SrsState = SrsState(interval: int, repetitions: int, ease: int)

  /** The columns of a `words` row that the quiz touches; the SRS columns are
      nullable. */
  datatype WordRow = WordRow(
    reviewCount: int,
    interval: Option<int>,
    repetitions: Option<int>,
    ease: Option<int>,
    nextReviewDate: Option<int>,
    lastReviewed: Option<int>,
    updatedAt: int)

  /** The scheduler's verdict for one answer. */
  datatype Step = Step(state: SrsState, reviewCount: int, nextReview: int)

  /** Python `int(a / b)` for `b > 0`: division truncating toward zero. */
  function TruncDiv(a: int, b: int): (q: int)
    requires b > 0
    ensures a >= 0 ==> q * b <= a < (q + 1) * b
    ensures a < 0 ==> (q - 1) * b < a <= q * b
  {
    if a >= 0 then a / b else -((-a) / b)
  }

  /** `int(interval * ease_factor)` with the ease factor in hundredths. */
  function ScaleInterval(interval: int, ease: int): int {
    TruncDiv(interval * ease, 100)
  }

  /** The state a stored row starts from: a missing interval or repetition
      count is 0, and a missing ease factor is 2.5 -- and so is a stored 0,
      which Python's `or` treats like a missing value. */
  function StateOf(w: WordRow): (s: SrsState)
    ensures s.interval == w.interval.GetOr(0)
    ensures s.repetitions == w.repetitions.GetOr(0)
    ensures w.ease.None? || w.ease == Some(0) ==> s.ease == DefaultEase
    ensures w.ease.Some? && w.ease.value != 0 ==> s.ease == w.ease.value
    ensures s.ease != 0
  {
    SrsState(
      w.interval.GetOr(0),
      w.repetitions.GetOr(0),
      if w.ease.None? || w.ease.value == 0 then DefaultEase else w.ease.value)
  }

  /** When the next review falls due: immediately for interval 0, otherwise
      that many days from now. */
  function NextReview(now: int, interval: int): (t: int)
    ensures t == now + interval * SecondsPerDay
    ensures interval >= 0 ==> t >= now
    ensures t == now <==> interval == 0
  {
    if interval == 0 then now else now + interval * SecondsPerDay
  }

  /** One answer applied to a word's SRS state and legacy review count. */
  function ApplyAnswer(s: SrsState, reviewCount: int, answer: Answer, now: int): (r: Step)
    ensures answer == Remember ==>
      && r.state.repetitions == s.repetitions + 1
      && r.state.ease == s.ease
      && (s.repetitions == 0 ==> r.state.interval == 1)
      && (s.repetitions == 1 ==> r.state.interval == 6)
      && (s.repetitions != 0 && s.repetitions != 1 && s.interval >= 0 && s.ease >= 0 ==>
            r.state.interval * 100 <= s.interval * s.ease < (r.state.interval + 1) * 100)
      && r.reviewCount >= 0
      && r.reviewCount >= reviewCount - 1
      && (reviewCount >= 1 ==> r.reviewCount == reviewCount - 1)
      && (reviewCount < 1 ==> r.reviewCount == 0)
    ensures answer == NotRemember ==>
      && r.state.repetitions == 0
      && r.state.interval == 0
      && r.state.ease >= MinEase
      && r.state.ease <= Max(s.ease - EasePenalty, MinEase)
      && (s.ease - EasePenalty >= MinEase ==> r.state.ease == s.ease - EasePenalty)
      && r.reviewCount == reviewCount + 1
      && r.nextReview == now
    ensures r.nextReview == now + r.state.interval * SecondsPerDay
    ensures r.state.interval >= 0 ==> r.nextReview >= now
    ensures r.nextReview == now <==> r.state.interval == 0
  {
    match answer
    case Remember =>
      var interval :=
        if s.repetitions == 0 then 1
        else if s.repetitions == 1 then 6
        else ScaleInterval(s.interval, s.ease);
      Step(SrsState(interval, s.repetitions + 1, s.ease), Max(0, reviewCount - 1), NextReview(now, interval))
    case NotRemember =>
      Step(SrsState(0, 0, Max(MinEase, s.ease - EasePenalty)), reviewCount + 1, NextReview(now, 0))
  }

  /** The state after `n` consecutive failed answers. */
  function FailTimes(s: SrsState, n: nat): SrsState
    decreases n
  {
    if n == 0 then s else ApplyAnswer(FailTimes(s, n - 1), 0, NotRemember, 0).state
  }

  /** However many answers fail in a row, the ease factor drops by 0.15 per
      failure and is then held at 1.3: it never ends below 1.3. */
  lemma {:induction false} RepeatedFailures(s: SrsState, n: nat)
    requires n >= 1
    ensures FailTimes(s, n) == SrsState(0, 0, Max(MinEase, s.ease - EasePenalty * n))
    ensures FailTimes(s, n).ease >= MinEase
    decreases n
  {
    if n > 1 {
      RepeatedFailures(s, n - 1);
    }
  }

  /** The legacy review count never goes negative, and repeated "remember"
      answers from 0 keep it at 0. */
  lemma ReviewCountStaysNatural(s: SrsState, reviewCount: int, answer: Answer, now: int)
    requires reviewCount >= 0
    ensures ApplyAnswer(s, reviewCount, answer, now).reviewCount >= 0
    ensures reviewCount == 0 && answer == Remember ==> ApplyAnswer(s, reviewCount, answer, now).reviewCount == 0
  {
  }

  /** From repetition 2 on, a successful answer never shrinks a non-negative
      interval while the ease factor is at least 1.0, and a larger ease factor
      never gives a shorter interval. */
  lemma {:induction false} SuccessInterval(s: SrsState, ease2: int, now: int)
    requires s.repetitions >= 2 && s.interval >= 0 && s.ease <= ease2
    ensures s.ease >= 100 ==> ApplyAnswer(s, 0, Remember, now).state.interval >= s.interval
    ensures ApplyAnswer(s, 0, Remember, now).state.interval
         <= ApplyAnswer(s.(ease := ease2), 0, Remember, now).state.interval
  {
    var a := ApplyAnswer(s, 0, Remember, now).state.interval;
    var b := ApplyAnswer(s.(ease := ease2), 0, Remember, now).state.interval;
    assert s.interval * s.ease <= s.interval * ease2 by {
      MulMonotone(s.interval, s.ease, ease2);
    }
    if s.ease >= 100 {
      assert s.interval * 100 <= s.interval * s.ease by {
        MulMonotone(s.interval, 100, s.ease);
      }
    }
  }

  lemma MulMonotone(x: int, a: int, b: int)
    requires x >= 0 && a <= b
    ensures x * a <= x * b
  {
  }

  /** A fresh word (no SRS data) answered "remember" and then "not remember"
      ends with repetitions 0, interval 0 and ease factor 2.35. */
  lemma FreshRememberThenForget(now: int)
    ensures var initial := StateOf(WordRow(1, None, None, None, None, None, now));
            var first := ApplyAnswer(initial, 1, Remember, now);
            var second := ApplyAnswer(first.state, first.reviewCount, NotRemember, now);
            && first.state == SrsState(1, 1, 250)
            && second.state == SrsState(0, 0, 235)
            && second.reviewCount == 1
  {
  }

  /** The state after `n` consecutive "remember" answers. */
  function RememberTimes(s: SrsState, n: nat): SrsState
    decreases n
  {
    if n == 0 then s else ApplyAnswer(RememberTimes(s, n - 1), 0, Remember, 0).state
  }

  /** At ease 2.5 a fresh word's interval grows 1, 6, 15, 37, ...: after 16
      "remember" answers it is 2192375 days (about 6000 years), and the
      17th answer asks for 5480937 days (about 15000 years). */
  lemma {:induction false} FreshWordIntervals()
    ensures RememberTimes(SrsState(0, 0, DefaultEase), 16) == SrsState(2192375, 16, DefaultEase)
    ensures RememberTimes(SrsState(0, 0, DefaultEase), 17) == SrsState(5480937, 17, DefaultEase)
  {
    var s0 := SrsState(0, 0, DefaultEase);
    assert RememberTimes(s0, 1) == SrsState(1, 1, DefaultEase);
    assert RememberTimes(s0, 2) == SrsState(6, 2, DefaultEase);
    assert RememberTimes(s0, 3) == SrsState(15, 3, DefaultEase);
    assert RememberTimes(s0, 4) == SrsState(37, 4, DefaultEase);
    assert RememberTimes(s0, 5) == SrsState(92, 5, DefaultEase);
    assert RememberTimes(s0, 6) == SrsState(230, 6, DefaultEase);
    assert RememberTimes(s0, 7) == SrsState(575, 7, DefaultEase);
    assert RememberTimes(s0, 8) == SrsState(1437, 8, DefaultEase);
    assert RememberTimes(s0, 9) == SrsState(3592, 9, DefaultEase);
    assert RememberTimes(s0, 10) == SrsState(8980, 10, DefaultEase);
    assert RememberTimes(s0, 11) == SrsState(22450, 11, DefaultEase);
    assert RememberTimes(s0, 12) == SrsState(56125, 12, DefaultEase);
    assert RememberTimes(s0, 13) == SrsState(140312, 13, DefaultEase);
    assert RememberTimes(s0, 14) == SrsState(350780, 14, DefaultEase);
    assert RememberTimes(s0, 15) == SrsState(876950, 15, DefaultEase);
    assert RememberTimes(s0, 16) == SrsState(2192375, 16, DefaultEase);
  }

  /** The instants Python's `datetime` can hold, in the same seconds as `now`:
      adding a `timedelta` that leaves them raises `OverflowError`. */
  datatype TimeRange = TimeRange(first: int, last: int)

  /** The due date of a non-zero interval leaves the representable range. */
  predicate DueOutOfRange(step: Step, range: TimeRange) {
    step.state.interval != 0 && !(range.first <= step.nextReview <= range.last)
  }

  /** Why the quiz result endpoint refused a request. `DueDateOutOfRange` is
      the `OverflowError` of the due date computation, which the handler
      answers with a 500 before anything is committed. */
  datatype SubmitError = MissingField | InvalidResult | WordNotFound | DueDateOutOfRange

  /** The two result strings the endpoint accepts. */
  function ParseAnswer(result: string): (a: Option<Answer>)
    ensures a == Some(Remember) <==> result == "remember"
    ensures a == Some(NotRemember) <==> result == "not_remember"
  {
    if result == "remember" then Some(Remember)
    else if result == "not_remember" then Some(NotRemember)
    else None
  }

  /** The quiz result endpoint on a word table: the request fields are
      checked first, then the word is looked up, then the new SRS fields, the
      legacy count and both timestamps are written to that one row -- unless
      the due date falls outside what `datetime` can hold, when nothing is
      written. */
  function SubmitQuizResult(words: map<int, WordRow>, wordId: Option<int>, result: Option<string>,
                            now: int, range: TimeRange)
    : (r: Result<map<int, WordRow>, SubmitError>)
    ensures r == Err(MissingField) <==> wordId.None? || result.None?
    ensures r == Err(InvalidResult) <==> wordId.Some? && result.Some? && ParseAnswer(result.value).None?
    ensures r == Err(WordNotFound) <==>
              wordId.Some? && result.Some? && ParseAnswer(result.value).Some? && wordId.value !in words
    ensures r == Err(DueDateOutOfRange) <==>
              && wordId.Some? && result.Some? && ParseAnswer(result.value).Some? && wordId.value in words
              && var before := words[wordId.value];
                 DueOutOfRange(ApplyAnswer(StateOf(before), before.reviewCount, ParseAnswer(result.value).value, now), range)
    ensures r.Ok? <==>
              && wordId.Some? && result.Some? && ParseAnswer(result.value).Some? && wordId.value in words
              && var before := words[wordId.value];
                 !DueOutOfRange(ApplyAnswer(StateOf(before), before.reviewCount, ParseAnswer(result.value).value, now), range)
    ensures r.Ok? ==>
      && wordId.Some? && result.Some? && wordId.value in words
      && r.value.Keys == words.Keys
      && (forall id :: id in words && id != wordId.value ==> r.value[id] == words[id])
      && var before := words[wordId.value];
         var step := ApplyAnswer(StateOf(before), before.reviewCount, ParseAnswer(result.value).value, now);
         r.value[wordId.value] == WordRow(
           step.reviewCount, Some(step.state.interval), Some(step.state.repetitions),
           Some(step.state.ease), Some(step.nextReview), Some(now), now)
  {
    if wordId.None? || result.None? then Err(MissingField)
    else
      match ParseAnswer(result.value)
      case None => Err(InvalidResult)
      case Some(answer) =>
        if wordId.value !in words then Err(WordNotFound)
        else
          var w := words[wordId.value];
          var step := ApplyAnswer(StateOf(w), w.reviewCount, answer, now);
          if DueOutOfRange(step, range) then Err(DueDateOutOfRange)
          else Ok(words[wordId.value := WordRow(
            step.reviewCount, Some(step.state.interval), Some(step.state.repetitions),
            Some(step.state.ease), Some(step.nextReview), Some(now), now)])
  }

  /** The 17th "remember" answer in a row on a fresh word is refused once
      15000 years from now lie beyond the representable range, and the table
      is left as it was. */
  lemma SeventeenthRememberRefused(words: map<int, WordRow>, id: int, now: int, range: TimeRange)
    requires id in words
    requires words[id].interval == Some(2192375) && words[id].repetitions == Some(16)
    requires words[id].ease == Some(DefaultEase)
    requires range.last < now + 5480937 * SecondsPerDay
    ensures SubmitQuizResult(words, Some(id), Some("remember"), now, range) == Err(DueDateOutOfRange)
  {
    var w := words[id];
    assert StateOf(w) == SrsState(2192375, 16, DefaultEase);
    assert ApplyAnswer(StateOf(w), w.reviewCount, Remember, now).state.interval == 5480937;
  }

  /** A "not remember" answer is never refused for its due date: it is due
      now, which needs no `timedelta`. */
  lemma ForgetAlwaysWritten(words: map<int, WordRow>, id: int, now: int, range: TimeRange)
    requires id in words
    ensures SubmitQuizResult(words, Some(id), Some("not_remember"), now, range).Ok?
  {
  }
}

=== FILE: tag_update.dfy ===
/** The script that renames three tags in the vocabulary XML files: every
    line of every file it finds has each old `<tags>` element replaced by
    its new one, in a fixed order, and `AI.xml` is finally renamed to
    `AI_CS.xml`. Reading, writing and renaming files are left out: a file is
    its lines and the directory is the set of names that exist. */
module TagUpdate {
  import opened Results
  import opened Text

  // ---------------------------------------------------------------------
  // Rewriting one line.

  /** `<tags>t</tags>`. */
  function TagElement(t: String): String {
    "<tags>" + t + "</tags>"
  }

  /** The tag names replaced, and what replaces them, in the order applied. */
  const Renames: seq<(String, String)> := [
    ("电信_计算机", "电信_IT"),
    ("心理学", "哲学_心理"),
    ("AI", "AI_CS")
  ]

  /** The replacement table: old tag element to new tag element. */
  function Replacements(): (reps: seq<(String, String)>)
    ensures |reps| == |Renames|
    ensures forall i :: 0 <= i < |reps| ==>
      reps[i] == (TagElement(Renames[i].0), TagElement(Renames[i].1))
  {
    seq(|Renames|, i requires 0 <= i < |Renames| => (TagElement(Renames[i].0), TagElement(Renames[i].1)))
  }

  /** One entry of the table applied to a line: replaced everywhere when
      it occurs. */
  function ApplyReplacement(line: String, oldTag: String, newTag: String): (r: String)
    requires oldTag != []
    ensures !Contains(line, oldTag) ==> r == line
  {
    if Contains(line, oldTag) then ReplaceAll(line, oldTag, newTag) else line
  }

  /** The entries applied in order. */
  function ApplyAll(line: String, reps: seq<(String, String)>): String
    requires forall i :: 0 <= i < |reps| ==> reps[i].0 != []
    decreases |reps|
  {
    if reps == [] then line
    else ApplyAll(ApplyReplacement(line, reps[0].0, reps[0].1), reps[1..])
  }

  /** The per-line rewrite of the script. */
  function RewriteLine(line: String): String {
    ApplyAll(line, Replacements())
  }

  /** A line that contains none of the old tag elements is written
      unchanged. */
  lemma UntouchedLine(line: String)
    requires forall i :: 0 <= i < |Renames| ==> !Contains(line, TagElement(Renames[i].0))
    ensures RewriteLine(line) == line
  {
    UntouchedBy(line, Replacements());
  }

  lemma {:induction false} UntouchedBy(line: String, reps: seq<(String, String)>)
    requires forall i :: 0 <= i < |reps| ==> reps[i].0 != [] && !Contains(line, reps[i].0)
    ensures ApplyAll(line, reps) == line
    decreases |reps|
  {
    if reps != [] {
      UntouchedBy(line, reps[1..]);
    }
  }

  // ---------------------------------------------------------------------
  // Lines holding one tag element.

  /** `<` occurs nowhere in `s`. */
  predicate Plain(s: String) {
    '<' !in s
  }

  /** A line of the cleaned layout holding a tags element: indentation, the
      element, and what follows it (the newline). */
  function TagLine(indent: String, t: String, tail: String): String {
    indent + TagElement(t) + tail
  }

  /** The tag name a line ends up with. */
  function Rename(t: String): (r: String)
    ensures (exists i :: 0 <= i < |Renames| && Renames[i].0 == t) || r == t
  {
    if t == Renames[0].0 then Renames[0].1
    else if t == Renames[1].0 then Renames[1].1
    else if t == Renames[2].0 then Renames[2].1
    else t
  }

  /** Replacing leaves a prefix that cannot start a match alone. */
  lemma {:induction false} ReplaceSkips(a: String, x: String, pat: String, rep: String)
    requires pat != [] && pat[0] !in a
    ensures ReplaceAll(a + x, pat, rep) == a + ReplaceAll(x, pat, rep)
    decreases |a|
  {
    if a != [] {
      var s := a + x;
      assert s[0] == a[0];
      if |s| < |pat| {
        assert ReplaceAll(x, pat, rep) == x;
      } else {
        assert s[..|pat|][0] != pat[0];
        assert s[1..] == a[1..] + x;
        ReplaceSkips(a[1..], x, pat, rep);
      }
    } else {
      assert a + x == x;
    }
  }

  /** A string without `<` holds no tag element. */
  lemma PlainUnchanged(s: String, pat: String, rep: String)
    requires pat != [] && pat[0] == '<' && Plain(s)
    ensures ReplaceAll(s, pat, rep) == s
  {
    ReplaceSkips(s, [], pat, rep);
    assert s + [] == s;
  }

  /** The only `<` of a tag line are the two of its element. */
  lemma TagLineOpenings(indent: String, t: String, tail: String)
    requires Plain(indent) && Plain(t) && Plain(tail)
    ensures forall i :: 0 <= i < |TagLine(indent, t, tail)| && i != |indent| && i != |indent| + 6 + |t| ==>
                TagLine(indent, t, tail)[i] != '<'
  {
    var s := TagLine(indent, t, tail);
    assert s == indent + "<tags>" + t + "</tags>" + tail;
    forall i | 0 <= i < |s| && i != |indent| && i != |indent| + 6 + |t|
      ensures s[i] != '<'
    {
      if i < |indent| {
        assert s[i] == indent[i];
      } else if i < |indent| + 6 {
        assert s[i] == "<tags>"[i - |indent|];
      } else if i < |indent| + 6 + |t| {
        assert s[i] == t[i - |indent| - 6];
      } else if i < |indent| + 6 + |t| + 7 {
        assert s[i] == "</tags>"[i - |indent| - 6 - |t|];
      } else {
        assert s[i] == tail[i - |indent| - 13 - |t|];
      }
    }
  }

  /** A tag line holds the element `<tags>x</tags>` exactly when its tag
      is `x`. */
  lemma TagLineContains(indent: String, t: String, tail: String, x: String)
    requires Plain(indent) && Plain(t) && Plain(tail) && Plain(x)
    ensures Contains(TagLine(indent, t, tail), TagElement(x)) <==> t == x
  {
    var s := TagLine(indent, t, tail);
    var p := TagElement(x);
    assert s == indent + "<tags>" + t + "</tags>" + tail;
    assert p == "<tags>" + x + "</tags>";
    if t == x {
      assert s[|indent|..|indent| + |p|] == p;
      assert OccursAt(s, p, |indent|);
    } else {
      TagLineOpenings(indent, t, tail);
      forall i | 0 <= i <= |s| - |p|
        ensures !OccursAt(s, p, i)
      {
        var w := s[i..i + |p|];
        if i == |indent| {
          TagMismatch(s[i..], t, x, "</tags>" + tail);
          assert w == s[i..][..|p|];
        } else if i == |indent| + 6 + |t| {
          assert w[1] == s[i + 1] == '/';
          assert p[1] == 't';
        } else {
          assert w[0] == s[i] != '<';
        }
      }
    }
  }

  /** A window starting with `<tags>t<` differs from `<tags>x</tags>` when
      `t` and `x` are different names without `<`. */
  lemma TagMismatch(u: String, t: String, x: String, rest: String)
    requires Plain(t) && Plain(x) && t != x
    requires rest != [] && rest[0] == '<'
    requires u == "<tags>" + t + rest
    ensures |TagElement(x)| <= |u| ==> u[..|TagElement(x)|] != TagElement(x)
  {
    var p := TagElement(x);
    assert p == "<tags>" + x + "</tags>";
    if |p| <= |u| {
      var w := u[..|p|];
      if |t| < |x| {
        assert w[6 + |t|] == '<';
        assert p[6 + |t|] == x[|t|];
      } else if |t| > |x| {
        assert p[6 + |x|] == '<';
        assert w[6 + |x|] == t[|x|];
      } else {
        var j :| 0 <= j < |t| && t[j] != x[j];
        assert w[6 + j] == t[j];
        assert p[6 + j] == x[j];
      }
    }
  }

  /** One entry of the table on a tag line: the tag is renamed when it is
      the entry's old tag, and the line keeps its shape. */
  lemma ApplyToTagLine(indent: String, t: String, tail: String, x: String, y: String)
    requires Plain(indent) && Plain(t) && Plain(tail) && Plain(x) && Plain(y)
    ensures ApplyReplacement(TagLine(indent, t, tail), TagElement(x), TagElement(y))
      == TagLine(indent, if t == x then y else t, tail)
  {
    TagLineContains(indent, t, tail, x);
    if t == x {
      var p := TagElement(x);
      assert TagLine(indent, t, tail) == indent + (p + tail);
      ReplaceSkips(indent, p + tail, p, TagElement(y));
      assert (p + tail)[..|p|] == p && (p + tail)[|p|..] == tail;
      PlainUnchanged(tail, p, TagElement(y));
    }
  }

  /** The whole rewrite on a tag line renames its tag. */
  lemma RewriteTagLine(indent: String, t: String, tail: String)
    requires Plain(indent) && Plain(t) && Plain(tail)
    ensures RewriteLine(TagLine(indent, t, tail)) == TagLine(indent, Rename(t), tail)
  {
    var reps := Replacements();
    var t1 := if t == Renames[0].0 then Renames[0].1 else t;
    var t2 := if t1 == Renames[1].0 then Renames[1].1 else t1;
    var t3 := if t2 == Renames[2].0 then Renames[2].1 else t2;
    ApplyToTagLine(indent, t, tail, Renames[0].0, Renames[0].1);
    ApplyToTagLine(indent, t1, tail, Renames[1].0, Renames[1].1);
    ApplyToTagLine(indent, t2, tail, Renames[2].0, Renames[2].1);
    assert reps[1..][1..][1..] == [];
    assert t3 == Rename(t);
  }

  /** Rewriting a rewritten file changes nothing: no new tag is an old
      one. */
  lemma RewriteIdempotent(indent: String, t: String, tail: String)
    requires Plain(indent) && Plain(t) && Plain(tail)
    ensures RewriteLine(RewriteLine(TagLine(indent, t, tail))) == RewriteLine(TagLine(indent, t, tail))
  {
    RewriteTagLine(indent, t, tail);
    RewriteTagLine(indent, Rename(t), tail);
  }

  /** A tags line with some other tag is left alone. */
  lemma OtherTagUntouched(indent: String, t: String, tail: String)
    requires Plain(indent) && Plain(t) && Plain(tail)
    requires forall i :: 0 <= i < |Renames| ==> Renames[i].0 != t
    ensures RewriteLine(TagLine(indent, t, tail)) == TagLine(indent, t, tail)
  {
    RewriteTagLine(indent, t, tail);
    assert Renames[0].0 != t && Renames[1].0 != t && Renames[2].0 != t;
  }

  // ---------------------------------------------------------------------
  // Choosing the files.

  /** The files named in the script, in order. */
  const FilesToProcess: seq<String> := ["vocab.xml", "AI.xml", "经济_管理.xml", "日常词汇.xml", "人物.xml"]

  /** The file actually opened for a listed name: the name itself when it
      exists; for `AI.xml` that is missing, `AI_CS.xml` when that exists;
      otherwise the name is skipped. */
  function SelectFile(name: String, existing: set<String>): (r: Option<String>)
    ensures name in existing ==> r == Some(name)
    ensures name !in existing && name == "AI.xml" && "AI_CS.xml" in existing ==> r == Some("AI_CS.xml")
    ensures name !in existing && (name != "AI.xml" || "AI_CS.xml" !in existing) ==> r == None
  {
    if name in existing then Some(name)
    else if name == "AI.xml" && "AI_CS.xml" in existing then Some("AI_CS.xml")
    else None
  }

  /** The files processed, in order. */
  function ProcessedFiles(names: seq<String>, existing: set<String>): (fs: seq<String>)
    ensures forall f :: f in fs ==> f in existing
    ensures |fs| <= |names|
    decreases |names|
  {
    if names == [] then []
    else
      (match SelectFile(names[0], existing) case Some(f) => [f] case None => [])
        + ProcessedFiles(names[1..], existing)
  }

  /** A listed file that exists is processed, and nothing that does not
      exist is. */
  lemma {:induction false} ExistingProcessed(names: seq<String>, existing: set<String>, f: String)
    requires f in names && f in existing
    ensures f in ProcessedFiles(names, existing)
    decreases |names|
  {
    if names[0] != f {
      ExistingProcessed(names[1..], existing, f);
    }
  }

  /** When `AI.xml` is gone but `AI_CS.xml` exists, the renamed file is
      processed in its place; when both are gone the run goes through the
      other names only. */
  lemma AiFallback(existing: set<String>)
    ensures "AI.xml" !in existing && "AI_CS.xml" in existing ==> "AI_CS.xml" in ProcessedFiles(FilesToProcess, existing)
    ensures "AI.xml" in existing ==> "AI.xml" in ProcessedFiles(FilesToProcess, existing)
    ensures "AI.xml" !in existing && "AI_CS.xml" !in existing ==>
      ProcessedFiles(FilesToProcess, existing) == ProcessedFiles(FilesToProcess[..1] + FilesToProcess[2..], existing)
  {
    var names := FilesToProcess;
    assert names == names[..1] + [names[1]] + names[2..];
    match SelectFile("AI.xml", existing)
    case Some(f) => AiChosen(names[..1], names[2..], existing, f);
    case None => AiSkipped(names[..1], names[2..], existing);
  }

  /** For any list with `AI.xml` in it, the file chosen for that name is
      processed. */
  lemma AiChosen(head: seq<String>, rest: seq<String>, existing: set<String>, f: String)
    requires SelectFile("AI.xml", existing) == Some(f)
    ensures f in ProcessedFiles(head + ["AI.xml"] + rest, existing)
  {
    var ai: seq<String> := ["AI.xml"];
    var p := ProcessedFiles(head, existing);
    var all := ProcessedFiles(head + ai + rest, existing);
    assert all == p + ProcessedFiles(ai, existing) + ProcessedFiles(rest, existing) by {
      ProcessedAppend(head + ai, rest, existing);
      ProcessedAppend(head, ai, existing);
    }
    assert ProcessedFiles(ai, existing) == [f] by {
      assert ai[1..] == [];
    }
    assert all[|p|] == f;
  }

  /** For any list with `AI.xml` in it, a name with no file to stand for it
      drops out of the run. */
  lemma AiSkipped(head: seq<String>, rest: seq<String>, existing: set<String>)
    requires SelectFile("AI.xml", existing) == None
    ensures ProcessedFiles(head + ["AI.xml"] + rest, existing) == ProcessedFiles(head + rest, existing)
  {
    var ai: seq<String> := ["AI.xml"];
    assert ProcessedFiles(ai, existing) == [] by {
      assert ai[1..] == [];
    }
    ProcessedAppend(head + ai, rest, existing);
    ProcessedAppend(head, ai, existing);
    ProcessedAppend(head, rest, existing);
  }

  /** The files processed for two lists of names, one after the other. */
  lemma {:induction false} ProcessedAppend(a: seq<String>, b: seq<String>, existing: set<String>)
    ensures ProcessedFiles(a + b, existing) == ProcessedFiles(a, existing) + ProcessedFiles(b, existing)
    decreases |a|
  {
    if a != [] {
      assert (a + b)[1..] == a[1..] + b;
      ProcessedAppend(a[1..], b, existing);
    } else {
      assert a + b == b;
    }
  }

  /** What becomes of `AI.xml` at the end. The directory is a Windows path,
      where renaming onto an existing file fails. */
  datatype RenameOutcome = Renamed | RenameFailed | AlreadyRenamed | NotFound

  function RenameAi(existing: set<String>): (r: RenameOutcome)
    ensures r == Renamed <==> "AI.xml" in existing && "AI_CS.xml" !in existing
    ensures r == RenameFailed <==> "AI.xml" in existing && "AI_CS.xml" in existing
    ensures r == AlreadyRenamed <==> "AI.xml" !in existing && "AI_CS.xml" in existing
  {
    if "AI.xml" in existing then
      if "AI_CS.xml" in existing then RenameFailed else Renamed
    else if "AI_CS.xml" in existing then AlreadyRenamed
    else NotFound
  }

  /** The files present afterwards. */
  function FilesAfter(existing: set<String>): (r: set<String>)
    ensures "AI.xml" in r <==> RenameAi(existing) == RenameFailed
    ensures "AI_CS.xml" in r <==> "AI.xml" in existing || "AI_CS.xml" in existing
    ensures forall f :: f != "AI.xml" && f != "AI_CS.xml" ==> (f in r <==> f in existing)
  {
    if RenameAi(existing) == Renamed then existing - {"AI.xml"} + {"AI_CS.xml"} else existing
  }

  /** Each file processed is its lines, rewritten one by one. */
  function RewriteFile(lines: seq<String>): (r: seq<String>)
    ensures |r| == |lines|
    ensures forall i :: 0 <= i < |lines| ==> r[i] == RewriteLine(lines[i])
  {
    seq(|lines|, i requires 0 <= i < |lines| => RewriteLine(lines[i]))
  }
}

=== FILE: text.dfy ===
/** Python `str` operations the scripts rely on, over `seq<char>`: `isspace`,
    `strip`/`lstrip`/`rstrip`, `startswith`/`endswith`, `in`, `split(sep)`,
    `sep.join(...)`, whitespace `split()`, `replace` and ASCII `lower`/`upper`. */
module Text {

  type String = seq<char>

  /** The characters for which Python's `str.isspace()` holds; the same set is
      matched by `\s` in a `str` regular expression. */
  predicate IsSpace(c: char) {
    || c == ' ' || c == '\t' || c == '\n' || c == '\r' || c == '\U{0b}' || c == '\U{0c}'
    || ('\U{1c}' <= c <= '\U{1f}')
    || c == '\U{85}' || c == '\U{a0}' || c == '\U{1680}'
    || ('\U{2000}' <= c <= '\U{200a}')
    || c == '\U{2028}' || c == '\U{2029}' || c == '\U{202f}' || c == '\U{205f}' || c == '\U{3000}'
  }

  predicate AllSpace(s: String) {
    forall k :: 0 <= k < |s| ==> IsSpace(s[k])
  }

  /** Python `s.lstrip()`: the suffix left after dropping leading whitespace
      (`LStripShape` states that it is a suffix, after whitespace only). */
  function LStrip(s: String): (r: String)
    ensures |r| <= |s|
    ensures r == [] || !IsSpace(r[0])
    decreases |s|
  {
    if |s| > 0 && IsSpace(s[0]) then LStrip(s[1..]) else s
  }

  /** Python `s.rstrip()`: the prefix left after dropping trailing whitespace
      (`RStripShape` states that it is a prefix, before whitespace only). */
  function RStrip(s: String): (r: String)
    ensures |r| <= |s|
    ensures r == [] || !IsSpace(r[|r| - 1])
    decreases |s|
  {
    if |s| > 0 && IsSpace(s[|s| - 1]) then RStrip(s[..|s| - 1]) else s
  }

  /** `lstrip()` drops a prefix of whitespace and keeps the rest. */
  lemma {:induction false} LStripShape(s: String)
    ensures |LStrip(s)| <= |s| && LStrip(s) == s[|s| - |LStrip(s)|..]
    ensures AllSpace(s[..|s| - |LStrip(s)|])
    decreases |s|
  {
    var r := LStrip(s);
    if |s| > 0 && IsSpace(s[0]) {
      LStripShape(s[1..]);
      assert s[1..][|s| - 1 - |r|..] == s[|s| - |r|..];
      var pre := s[..|s| - |r|];
      forall k | 0 <= k < |pre|
        ensures IsSpace(pre[k])
      {
        if k > 0 {
          assert pre[k] == s[1..][..|s| - 1 - |r|][k - 1];
        }
      }
    } else {
      assert s[|s| - |r|..] == s;
    }
  }

  /** `rstrip()` drops a suffix of whitespace and keeps the rest. */
  lemma {:induction false} RStripShape(s: String)
    ensures |RStrip(s)| <= |s| && RStrip(s) == s[..|RStrip(s)|]
    ensures AllSpace(s[|RStrip(s)|..])
    decreases |s|
  {
    var r := RStrip(s);
    if |s| > 0 && IsSpace(s[|s| - 1]) {
      var p := s[..|s| - 1];
      RStripShape(p);
      assert p[..|r|] == s[..|r|];
      forall k | 0 <= k < |s| - |r|
        ensures IsSpace(s[|r|..][k])
      {
        if k < |s| - 1 - |r| {
          assert s[|r|..][k] == p[|r|..][k];
        }
      }
    } else {
      assert s[..|r|] == s;
    }
  }

  /** Python `s.strip()`. */
  function Strip(s: String): (r: String)
    ensures |r| <= |s|
    ensures r == [] || (!IsSpace(r[0]) && !IsSpace(r[|r| - 1]))
    ensures r == [] <==> AllSpace(s)
  {
    var l := LStrip(s);
    LStripShape(s);
    RStripShape(l);
    assert l != [] ==> !AllSpace(s) by {
      if l != [] {
        assert !IsSpace(s[|s| - |l|]);
      }
    }
    assert l == [] ==> AllSpace(s) by {
      if l == [] {
        assert s[..|s|] == s;
      }
    }
    RStrip(l)
  }

  /** A string with no whitespace at either end is its own `strip()`. */
  lemma StripUnchanged(s: String)
    requires s == [] || (!IsSpace(s[0]) && !IsSpace(s[|s| - 1]))
    ensures Strip(s) == s
  {
  }

  /** `strip()` is idempotent. */
  lemma StripIdempotent(s: String)
    ensures Strip(Strip(s)) == Strip(s)
  {
    StripUnchanged(Strip(s));
  }

  /** An all-whitespace string lstrips to nothing. */
  lemma {:induction false} AllSpaceLStrip(s: String)
    requires AllSpace(s)
    ensures LStrip(s) == []
    decreases |s|
  {
    if |s| > 0 {
      AllSpaceLStrip(s[1..]);
    }
  }

  /** `lstrip` of a string with a non-whitespace character before the
      appended tail only touches the front. */
  lemma {:induction false} LStripAppend(s: String, t: String)
    requires LStrip(s) != []
    ensures LStrip(s + t) == LStrip(s) + t
    decreases |s|
  {
    if IsSpace(s[0]) {
      assert (s + t)[1..] == s[1..] + t;
      LStripAppend(s[1..], t);
    }
  }
  /** Leading whitespace in front of `t` does not survive `lstrip()`. */
  lemma {:induction false} LStripSpacePrefix(a: String, t: String)
    requires AllSpace(a)
    ensures LStrip(a + t) == LStrip(t)
    decreases |a|
  {
    if a == [] {
      assert a + t == t;
    } else {
      assert IsSpace((a + t)[0]);
      assert (a + t)[1..] == a[1..] + t;
      LStripSpacePrefix(a[1..], t);
    }
  }

  predicate StartsWith(s: String, prefix: String) {
    |prefix| <= |s| && s[..|prefix|] == prefix
  }

  predicate EndsWith(s: String, suffix: String) {
    |suffix| <= |s| && s[|s| - |suffix|..] == suffix
  }

  /** `p` occurs in `s` starting at index `i`. */
  predicate OccursAt(s: String, p: String, i: int) {
    0 <= i && i + |p| <= |s| && s[i..i + |p|] == p
  }

  /** Python `p in s`. */
  predicate Contains(s: String, p: String) {
    exists i | 0 <= i <= |s| - |p| :: OccursAt(s, p, i)
  }

  /** Python `s.split(sep)` for a one-character separator: always at least one
      part, and no part contains the separator. */
  function Split(s: String, sep: char): (parts: seq<String>)
    ensures |parts| >= 1
    ensures forall i :: 0 <= i < |parts| ==> sep !in parts[i]
    decreases |s|
  {
    if |s| == 0 then [[]]
    else
      var rest := Split(s[1..], sep);
      if s[0] == sep then [[]] + rest
      else [[s[0]] + rest[0]] + rest[1..]
  }

  /** Python `sep.join(parts)` for a one-character separator. */
  function Join(parts: seq<String>, sep: char): String
    decreases |parts|
  {
    if |parts| == 0 then []
    else if |parts| == 1 then parts[0]
    else parts[0] + [sep] + Join(parts[1..], sep)
  }

  /** Joining the parts of a split restores the original string. */
  lemma {:induction false} JoinSplit(s: String, sep: char)
    ensures Join(Split(s, sep), sep) == s
    decreases |s|
  {
    if |s| > 0 {
      var rest := Split(s[1..], sep);
      JoinSplit(s[1..], sep);
      if s[0] == sep {
        assert Split(s, sep) == [[]] + rest;
        assert ([[]] + rest)[1..] == rest;
      } else {
        var parts := [[s[0]] + rest[0]] + rest[1..];
        assert Split(s, sep) == parts;
        if |rest| == 1 {
          assert Join(parts, sep) == [s[0]] + rest[0];
        } else {
          assert parts[1..] == rest[1..];
          assert Join(parts, sep) == [s[0]] + rest[0] + [sep] + Join(rest[1..], sep);
          assert Join(rest, sep) == rest[0] + [sep] + Join(rest[1..], sep);
        }
        assert s == [s[0]] + s[1..];
      }
    }
  }

  /** A string without the separator splits into itself alone. */
  lemma {:induction false} SplitNoSeparator(s: String, sep: char)
    requires sep !in s
    ensures Split(s, sep) == [s]
    decreases |s|
  {
    if |s| > 0 {
      SplitNoSeparator(s[1..], sep);
      assert s == [s[0]] + s[1..];
    }
  }

  /** Splitting at a separator that follows a separator-free prefix. */
  lemma {:induction false} SplitAfterPrefix(a: String, b: String, sep: char)
    requires sep !in a
    ensures Split(a + [sep] + b, sep) == [a] + Split(b, sep)
    decreases |a|
  {
    if |a| == 0 {
      assert a + [sep] + b == [sep] + b;
      assert ([sep] + b)[1..] == b;
    } else {
      var s := a + [sep] + b;
      assert s[0] == a[0];
      assert s[1..] == a[1..] + [sep] + b;
      SplitAfterPrefix(a[1..], b, sep);
      assert [a[0]] + a[1..] == a;
    }
  }

  /** Splitting a join of separator-free parts gives the parts back. */
  lemma {:induction false} SplitJoin(parts: seq<String>, sep: char)
    requires |parts| >= 1
    requires forall i :: 0 <= i < |parts| ==> sep !in parts[i]
    ensures Split(Join(parts, sep), sep) == parts
    decreases |parts|
  {
    if |parts| == 1 {
      SplitNoSeparator(parts[0], sep);
    } else {
      SplitJoin(parts[1..], sep);
      SplitAfterPrefix(parts[0], Join(parts[1..], sep), sep);
      assert [parts[0]] + parts[1..] == parts;
    }
  }

  /** ASCII `lower()` of one character. */
  function LowerChar(c: char): char {
    if 'A' <= c <= 'Z' then (c as int + 32) as char else c
  }

  /** ASCII `upper()` of one character. */
  function UpperChar(c: char): char {
    if 'a' <= c <= 'z' then (c as int - 32) as char else c
  }

  /** Python `s.lower()`, restricted to the ASCII case mapping. */
  function Lower(s: String): (r: String)
    ensures |r| == |s|
  {
    seq(|s|, i requires 0 <= i < |s| => LowerChar(s[i]))
  }

  /** Python `s.upper()`, restricted to the ASCII case mapping. */
  function Upper(s: String): (r: String)
    ensures |r| == |s|
  {
    seq(|s|, i requires 0 <= i < |s| => UpperChar(s[i]))
  }

  /** The longest prefix of `s` without whitespace. */
  function TakeNonSpace(s: String): (w: String)
    ensures |w| <= |s| && w == s[..|w|]
    ensures forall k :: 0 <= k < |w| ==> !IsSpace(w[k])
    ensures |w| == |s| || IsSpace(s[|w|])
    decreases |s|
  {
    if |s| == 0 || IsSpace(s[0]) then [] else [s[0]] + TakeNonSpace(s[1..])
  }

  /** A non-empty run of non-whitespace characters. */
  predicate IsToken(w: String) {
    w != [] && forall k :: 0 <= k < |w| ==> !IsSpace(w[k])
  }

  /** Python `s.split()` with no argument: the maximal runs of non-whitespace. */
  function Tokens(s: String): (ts: seq<String>)
    ensures forall i :: 0 <= i < |ts| ==> IsToken(ts[i])
    decreases |s|
  {
    var t := LStrip(s);
    if t == [] then []
    else
      var w := TakeNonSpace(t);
      FirstToken(t);
      var rest := Tokens(t[|w|..]);
      ConsTokens(w, rest);
      [w] + rest
  }

  /** A string starting with a non-whitespace character starts with a
      token. */
  lemma FirstToken(t: String)
    requires t != [] && !IsSpace(t[0])
    ensures 0 < |TakeNonSpace(t)| <= |t| && IsToken(TakeNonSpace(t))
  {
  }

  lemma ConsTokens(w: String, rest: seq<String>)
    requires IsToken(w)
    requires forall i :: 0 <= i < |rest| ==> IsToken(rest[i])
    ensures forall i :: 0 <= i < |[w] + rest| ==> IsToken(([w] + rest)[i])
  {
  }

  /** `split()` finds nothing exactly in an all-whitespace string. */
  lemma TokensEmpty(s: String)
    ensures Tokens(s) == [] <==> AllSpace(s)
  {
    LStripShape(s);
    if LStrip(s) == [] {
      assert s[..|s|] == s;
    } else {
      var k := |s| - |LStrip(s)|;
      assert s[k] == LStrip(s)[0];
    }
  }

  /** A single token splits to itself. */
  lemma TokenAlone(w: String)
    requires IsToken(w)
    ensures Tokens(w) == [w]
  {
    assert LStrip(w) == w;
    var t := TakeNonSpace(w);
    assert t == w;
    assert w[|t|..] == [];
  }

  /** A run of non-whitespace stops at the space in front of `b`. */
  lemma {:induction false} TakeNonSpaceStops(t: String, b: String)
    ensures TakeNonSpace(t + " " + b) == TakeNonSpace(t)
    decreases |t|
  {
    if t == [] {
      assert (t + " " + b)[0] == ' ';
    } else if IsSpace(t[0]) {
      assert (t + " " + b)[0] == t[0];
    } else {
      assert (t + " " + b)[0] == t[0];
      assert (t + " " + b)[1..] == t[1..] + " " + b;
      TakeNonSpaceStops(t[1..], b);
    }
  }

  /** `split()` only looks at what `lstrip()` leaves. */
  lemma TokensSameLStrip(x: String, y: String)
    requires LStrip(x) == LStrip(y)
    ensures Tokens(x) == Tokens(y)
  {
  }

  /** One step of `split()`: the first token, then the tokens after it. */
  lemma TokensUnfold(s: String)
    requires LStrip(s) != []
    ensures var t := LStrip(s); var w := TakeNonSpace(t);
      0 < |w| <= |t| && Tokens(s) == [w] + Tokens(t[|w|..])
  {
    FirstToken(LStrip(s));
  }

  /** `split()` of two strings joined by a space is the tokens of the first
      followed by the tokens of the second: no token spans the space, and
      the order is kept. */
  lemma {:induction false} TokensSpaceJoin(a: String, b: String)
    ensures Tokens(a + " " + b) == Tokens(a) + Tokens(b)
    decreases |a|
  {
    var s := a + " " + b;
    var t := LStrip(a);
    if t == [] {
      SpacedTail(a, b);
      TokensSameLStrip(s, b);
    } else {
      var w := TakeNonSpace(t);
      var u := t[|w|..];
      NonSpaceHead(a, b);
      TokensUnfold(a);
      TokensUnfold(s);
      TokensSpaceJoin(u, b);
    }
  }

  /** With `a` all whitespace, `lstrip()` reaches straight into `b`. */
  lemma SpacedTail(a: String, b: String)
    requires LStrip(a) == []
    ensures LStrip(a + " " + b) == LStrip(b)
  {
    LStripShape(a);
    var sp := a + " ";
    assert a[..|a|] == a;
    assert AllSpace(sp);
    assert a + " " + b == sp + b;
    LStripSpacePrefix(sp, b);
  }

  /** With a token in `a`, the first token of `a + " " + b` is that of `a`,
      and what follows it is the rest of `a`, the space and `b`. */
  lemma NonSpaceHead(a: String, b: String)
    requires LStrip(a) != []
    ensures var t := LStrip(a); var w := TakeNonSpace(t);
      && LStrip(a + " " + b) == t + " " + b
      && TakeNonSpace(t + " " + b) == w
      && |w| <= |t|
      && (t + " " + b)[|w|..] == t[|w|..] + " " + b
  {
    var t := LStrip(a);
    LStripAppend(a, " " + b);
    assert a + (" " + b) == a + " " + b;
    assert t + (" " + b) == t + " " + b;
    TakeNonSpaceStops(t, b);
  }

  /** Python `s.replace(pat, rep)`: every leftmost non-overlapping occurrence of
      `pat` is replaced. */
  function ReplaceAll(s: String, pat: String, rep: String): String
    requires pat != []
    decreases |s|
  {
    if |s| < |pat| then s
    else if s[..|pat|] == pat then rep + ReplaceAll(s[|pat|..], pat, rep)
    else [s[0]] + ReplaceAll(s[1..], pat, rep)
  }

  /** Replacing a string that does not occur changes nothing. */
  lemma {:induction false} ReplaceAbsent(s: String, pat: String, rep: String)
    requires pat != []
    requires !Contains(s, pat)
    ensures ReplaceAll(s, pat, rep) == s
    decreases |s|
  {
    if |s| >= |pat| {
      assert !OccursAt(s, pat, 0);
      assert !Contains(s[1..], pat) by {
        forall i | 0 <= i <= |s[1..]| - |pat|
          ensures !OccursAt(s[1..], pat, i)
        {
          assert !OccursAt(s, pat, i + 1);
          assert s[1..][i..i + |pat|] == s[i + 1..i + 1 + |pat|];
        }
      }
      ReplaceAbsent(s[1..], pat, rep);
      assert s == [s[0]] + s[1..];
    }
  }
}

=== FILE: triggers.dfy ===
/** The two database triggers that keep `daily_study_log` in step with edits
    to `words`. The newer BEFORE UPDATE trigger credits today once per word
    per day for any significant edit and stamps the word with the day; the
    older AFTER UPDATE trigger credits every positive change of the legacy
    review count. `today` stands for `CURDATE()`. */
module ActivityTriggers {
  import opened Results
  import opened Arith
  import opened DailyCounter

  /** The columns of a `words` row the triggers look at; `word` and `tags`
      stand for every column neither trigger compares. */
  datatype WordRecord = WordRecord(
    word: string,
    category: string,
    reviewCount: int,
    translation: string,
    sampleSentence: Option<string>,
    tags: string,
    lastActivity: Option<int>)

  /** The trigger's sample sentence test: NULL to a value, a value to NULL,
      or two different values. */
  predicate SampleChanged(before: Option<string>, after: Option<string>) {
    || (after.None? && before.Some?)
    || (after.Some? && before.None?)
    || (after.Some? && before.Some? && after.value != before.value)
  }

  /** The trigger's test for a significant update. */
  predicate Significant(before: WordRecord, after: WordRecord) {
    || after.category != before.category
    || after.reviewCount != before.reviewCount
    || after.translation != before.translation
    || SampleChanged(before.sampleSentence, after.sampleSentence)
  }

  /** The four columns whose change counts as activity. */
  function Watched(w: WordRecord): (string, int, string, Option<string>) {
    (w.category, w.reviewCount, w.translation, w.sampleSentence)
  }

  /** An update is significant exactly when it changes one of the watched
      columns; the NULL-aware sample sentence test is plain inequality of
      optional values. */
  lemma SignificantMeansWatchedChanged(before: WordRecord, after: WordRecord)
    ensures Significant(before, after) <==> Watched(before) != Watched(after)
  {
  }

  /** The word has not been counted yet today. */
  predicate NotCountedToday(w: WordRecord, today: int) {
    w.lastActivity.None? || w.lastActivity.value < today
  }

  /** What the BEFORE UPDATE trigger leaves behind: the log and the row
      actually stored. */
  datatype BeforeOutcome = BeforeOutcome(log: Ledger, stored: WordRecord, counted: bool)

  /** `before_word_update_daily_count` on one row: `before` is OLD, `after`
      is NEW as the UPDATE statement wrote it. */
  function BeforeUpdate(log: Ledger, before: WordRecord, after: WordRecord, today: int): (r: BeforeOutcome)
    ensures r.counted <==> Significant(before, after) && NotCountedToday(before, today)
    ensures r.counted ==>
      && Count(r.log, today) == Count(log, today) + 1
      && r.stored == after.(lastActivity := Some(today))
    ensures !r.counted ==> r.log == log && r.stored == after
    ensures forall d :: d != today ==> Count(r.log, d) == Count(log, d)
  {
    if Significant(before, after) && NotCountedToday(before, today) then
      BeforeOutcome(Credit(log, today), after.(lastActivity := Some(today)), true)
    else
      BeforeOutcome(log, after, false)
  }

  /** An UPDATE statement that assigns the given values: the row it asks
      for keeps the stored activity date, which the statement does not set. */
  function Requested(current: WordRecord, values: WordRecord): WordRecord {
    values.(lastActivity := current.lastActivity)
  }

  /** A day's updates of one word, in order, through the BEFORE UPDATE trigger. */
  function RunUpdates(log: Ledger, w: WordRecord, updates: seq<WordRecord>, today: int): (Ledger, WordRecord)
    decreases |updates|
  {
    if |updates| == 0 then (log, w)
    else
      var o := BeforeUpdate(log, w, Requested(w, updates[0]), today);
      RunUpdates(o.log, o.stored, updates[1..], today)
  }

  /** Some update of the sequence is significant against the row it meets. */
  predicate SomeSignificant(w: WordRecord, updates: seq<WordRecord>)
    decreases |updates|
  {
    |updates| > 0 &&
      (Significant(w, Requested(w, updates[0]))
       || SomeSignificant(Requested(w, updates[0]), updates[1..]))
  }

  /** Once per day: however many updates a word gets on one day, today's
      count rises by at most one, and by exactly one when the word was not
      yet counted today and some update is significant. Other days are
      untouched. A word already counted today adds nothing at all. */
  lemma {:induction false} OncePerDay(log: Ledger, w: WordRecord, updates: seq<WordRecord>, today: int)
    ensures var (log2, w2) := RunUpdates(log, w, updates, today);
            && (Count(log2, today) == Count(log, today) + 1 <==>
                  NotCountedToday(w, today) && SomeSignificant(w, updates))
            && (Count(log2, today) == Count(log, today) || Count(log2, today) == Count(log, today) + 1)
            && (forall d :: d != today ==> Count(log2, d) == Count(log, d))
    decreases |updates|
  {
    if |updates| > 0 {
      var o := BeforeUpdate(log, w, Requested(w, updates[0]), today);
      OncePerDay(o.log, o.stored, updates[1..], today);
      if o.counted {
        AlreadyCounted(o.log, o.stored, updates[1..], today);
      } else {
        assert o.stored == Requested(w, updates[0]);
      }
    }
  }

  /** A word stamped with today passes every later update of the day through
      unchanged in the log and keeps its stamp. */
  lemma {:induction false} AlreadyCounted(log: Ledger, w: WordRecord, updates: seq<WordRecord>, today: int)
    requires w.lastActivity == Some(today)
    ensures RunUpdates(log, w, updates, today).0 == log
    ensures RunUpdates(log, w, updates, today).1.lastActivity == Some(today)
    decreases |updates|
  {
    if |updates| > 0 {
      AlreadyCounted(log, Requested(w, updates[0]), updates[1..], today);
    }
  }

  /** The scripted check of the trigger: a fresh word changes category
      (+1), then its review count drops by one (+0), then its translation
      changes (+0). */
  lemma DailyLogicScenario(log: Ledger, today: int)
    ensures var w0 := WordRecord("TEST_WORD_DAILY", "TestCat", 0, "Test", None, "", None);
            var s1 := BeforeUpdate(log, w0, w0.(category := "NewCat"), today);
            var s2 := BeforeUpdate(s1.log, s1.stored, s1.stored.(reviewCount := s1.stored.reviewCount - 1), today);
            var s3 := BeforeUpdate(s2.log, s2.stored, s2.stored.(translation := "NewTrans"), today);
            && Count(s1.log, today) == Count(log, today) + 1
            && Count(s2.log, today) == Count(s1.log, today)
            && Count(s3.log, today) == Count(s2.log, today)
  {
    var w0 := WordRecord("TEST_WORD_DAILY", "TestCat", 0, "Test", None, "", None);
    assert Significant(w0, w0.(category := "NewCat")) by {
      assert "NewCat" != "TestCat" by {
        assert "NewCat"[0] != "TestCat"[0];
      }
    }
  }

  // ---------------------------------------------------------------------
  // The older AFTER UPDATE trigger.

  /** `after_review_increment`: a rise of the legacy review count by `diff`
      adds `diff` to today's row (creating it); a fall or no change adds
      nothing. */
  function AfterUpdate(log: Ledger, before: WordRecord, after: WordRecord, today: int): (r: Ledger)
    ensures Count(r, today) == Count(log, today) + Max(0, after.reviewCount - before.reviewCount)
    ensures forall d :: d != today ==> Count(r, d) == Count(log, d)
    ensures after.reviewCount <= before.reviewCount ==> r == log
    ensures after.reviewCount > before.reviewCount ==> r.Keys == log.Keys + {today}
  {
    var diff := after.reviewCount - before.reviewCount;
    if diff > 0 then log[today := Count(log, today) + diff] else log
  }

  /** Only the review count matters to the AFTER trigger: two updates with
      the same old and new review counts have the same effect, whatever else
      they change. */
  lemma AfterIgnoresOtherColumns(log: Ledger, b1: WordRecord, a1: WordRecord, b2: WordRecord, a2: WordRecord, today: int)
    requires b1.reviewCount == b2.reviewCount && a1.reviewCount == a2.reviewCount
    ensures AfterUpdate(log, b1, a1, today) == AfterUpdate(log, b2, a2, today)
  {
  }

  /** A day's successive review counts of one word through the AFTER trigger. */
  function RunCounts(log: Ledger, w: WordRecord, counts: seq<int>, today: int): Ledger
    decreases |counts|
  {
    if |counts| == 0 then log
    else RunCounts(AfterUpdate(log, w, w.(reviewCount := counts[0]), today), w.(reviewCount := counts[0]), counts[1..], today)
  }

  /** The positive steps along a sequence of review counts starting at `start`. */
  function Rises(start: int, counts: seq<int>): int
    decreases |counts|
  {
    if |counts| == 0 then 0 else Max(0, counts[0] - start) + Rises(counts[0], counts[1..])
  }

  /** Over any run of updates the log never shrinks: today's row grows by the
      sum of the rises, which is at least the net change of the review count,
      and no other day moves. */
  lemma {:induction false} AfterNeverDecreases(log: Ledger, w: WordRecord, counts: seq<int>, today: int)
    ensures Count(RunCounts(log, w, counts, today), today) == Count(log, today) + Rises(w.reviewCount, counts)
    ensures Rises(w.reviewCount, counts) >= 0
    ensures |counts| > 0 ==> Rises(w.reviewCount, counts) >= counts[|counts| - 1] - w.reviewCount
    ensures forall d :: d != today ==> Count(RunCounts(log, w, counts, today), d) == Count(log, d)
    decreases |counts|
  {
    if |counts| > 0 {
      var w1 := w.(reviewCount := counts[0]);
      AfterNeverDecreases(AfterUpdate(log, w, w1, today), w1, counts[1..], today);
      if |counts| > 1 {
        assert counts[1..][|counts[1..]| - 1] == counts[|counts| - 1];
      }
    }
  }
}

=== FILE: uploads.dfy ===
/** Which uploaded file names the upload endpoint accepts: the name must
    contain a dot, and the text after the last dot, lower-cased, must be one
    of the allowed extensions (only `xml`). */
module Uploads {
  import opened Text

  /** The configured set of allowed extensions. */
  const AllowedExtensions: set<String> := {"xml"}

  /** The index of the last occurrence of `c` in `s`, or -1. */
  function LastIndexOf(s: String, c: char): (r: int)
    ensures -1 <= r < |s|
    ensures r >= 0 ==> s[r] == c
    ensures forall k :: r < k < |s| ==> s[k] != c
    ensures r == -1 <==> c !in s
    decreases |s|
  {
    if |s| == 0 then -1
    else if s[|s| - 1] == c then |s| - 1
    else
      var r := LastIndexOf(s[..|s| - 1], c);
      assert s == s[..|s| - 1] + [s[|s| - 1]];
      r
  }

  /** `name.rsplit(".", 1)[1]`: the text after the last dot. */
  function Extension(name: String): (ext: String)
    requires '.' in name
    ensures '.' !in ext
    ensures |ext| < |name|
    ensures name == name[..|name| - |ext| - 1] + "." + ext
  {
    var i := LastIndexOf(name, '.');
    var ext := name[i + 1..];
    assert forall k :: 0 <= k < |ext| ==> ext[k] == name[i + 1 + k];
    assert name == name[..i] + "." + ext;
    ext
  }

  /** `allowed_file`. */
  predicate AllowedFile(name: String) {
    '.' in name && Lower(Extension(name)) in AllowedExtensions
  }

  /** The accepted names are exactly those of the form `stem.ext` where the
      extension has no dot and lower-cases to an allowed extension. */
  lemma AllowedFileMeans(name: String)
    ensures AllowedFile(name) <==>
      exists stem: String, ext: String ::
        name == stem + "." + ext && '.' !in ext && Lower(ext) in AllowedExtensions
  {
    if AllowedFile(name) {
      var ext := Extension(name);
      var stem := name[..|name| - |ext| - 1];
      assert name == stem + "." + ext;
    }
    if exists stem: String, ext: String :: name == stem + "." + ext && '.' !in ext && Lower(ext) in AllowedExtensions {
      var stem: String, ext: String :| name == stem + "." + ext && '.' !in ext && Lower(ext) in AllowedExtensions;
      assert name[|stem|] == '.';
      UniqueExtension(name, stem, ext);
    }
  }

  /** A split at a dot with no dot after it is the split at the last dot. */
  lemma UniqueExtension(name: String, stem: String, ext: String)
    requires name == stem + "." + ext && '.' !in ext
    ensures '.' in name && Extension(name) == ext
  {
    assert name[|stem|] == '.';
    var i := LastIndexOf(name, '.');
    assert i == |stem|;
    assert name[i + 1..] == ext;
  }

  /** A name split at a dot with a dot-free extension that lower-cases to
      `xml` is accepted. */
  lemma Accepted(name: String, stem: String, ext: String)
    requires name == stem + "." + ext && '.' !in ext && Lower(ext) == "xml"
    ensures AllowedFile(name)
  {
    UniqueExtension(name, stem, ext);
  }

  /** A name whose extension lower-cases to something else is rejected. */
  lemma RejectedBy(name: String, stem: String, ext: String)
    requires name == stem + "." + ext && '.' !in ext
    requires |ext| != 3 || LowerChar(ext[0]) != 'x'
    ensures !AllowedFile(name)
  {
    UniqueExtension(name, stem, ext);
    if |ext| == 3 {
      assert Lower(ext)[0] != "xml"[0];
    }
  }

  lemma AcceptsTestXml()
    ensures AllowedFile("test.xml")
  {
    Accepted("test.xml", "test", "xml");
  }

  lemma AcceptsVocabularyXml()
    ensures AllowedFile("vocabulary.xml")
  {
    Accepted("vocabulary.xml", "vocabulary", "xml");
  }

  lemma AcceptsUpperCaseXml()
    ensures AllowedFile("NOTES.XML")
  {
    Accepted("NOTES.XML", "NOTES", "XML");
  }

  lemma RejectsTestExe()
    ensures !AllowedFile("test.exe")
  {
    RejectedBy("test.exe", "test", "exe");
  }

  lemma RejectsTestPy()
    ensures !AllowedFile("test.py")
  {
    RejectedBy("test.py", "test", "py");
  }

  lemma RejectsTestTxt()
    ensures !AllowedFile("test.txt")
  {
    RejectedBy("test.txt", "test", "txt");
  }

  lemma RejectsNoExtension()
    ensures !AllowedFile("noextension")
  {
  }

  lemma RejectsDoubleExtension()
    ensures !AllowedFile("archive.xml.zip")
  {
    RejectedBy("archive.xml.zip", "archive.xml", "zip");
  }
}

=== FILE: vocab_xml.dfy ===
/** The vocabulary XML parser: validation of the document's shape, the
    extraction of word records, the whitespace clean-up of translations and
    the batch accounting of the database import. The database is a
    parameter: each batch either reports how many rows it added or fails. */
module VocabXml {
  import opened Results
  import opened Arith
  import opened Text
  import opened XmlItems

  // ---------------------------------------------------------------------
  // Validation.

  datatype Field = WordField | TransField | TagsField

  datatype ValidationError =
    | ParseFailed                       // the file could not be read or parsed
    | WrongRoot(tag: String)            // the root is not `wordbook`
    | NoItems                           // the root has no `item` child
    | Missing(index: nat, field: Field) // 1-based item index, first missing child

  /** How many leading items validation inspects. */
  const CheckedItems: nat := 5

  /** The first required child the item lacks, in the order checked. */
  function FirstMissing(it: Item): (f: Option<Field>)
    ensures f.None? <==> it.word.Some? && it.trans.Some? && it.tags.Some?
    ensures f == Some(WordField) <==> it.word.None?
    ensures f == Some(TransField) <==> it.word.Some? && it.trans.None?
    ensures f == Some(TagsField) <==> it.word.Some? && it.trans.Some? && it.tags.None?
  {
    if it.word.None? then Some(WordField)
    else if it.trans.None? then Some(TransField)
    else if it.tags.None? then Some(TagsField)
    else None
  }

  predicate Complete(it: Item) {
    FirstMissing(it).None?
  }

  /** The loop over `items[:5]`, numbering from `n`. */
  function CheckItems(items: seq<Item>, n: nat): (r: Result<(), ValidationError>)
    ensures r.Ok? <==> forall i :: 0 <= i < |items| ==> Complete(items[i])
    ensures r.Err? ==>
      && r.error.Missing?
      && n <= r.error.index < n + |items|
      && FirstMissing(items[r.error.index - n]) == Some(r.error.field)
      && forall i :: 0 <= i < r.error.index - n ==> Complete(items[i])
    decreases |items|
  {
    if |items| == 0 then Ok(())
    else
      match FirstMissing(items[0])
      case Some(f) => Err(Missing(n, f))
      case None => CheckItems(items[1..], n + 1)
  }

  /** What `validate_xml` leaves behind: its verdict, and the root it
      stored, which is set as soon as parsing succeeds, before any check. */
  datatype Validation = Validation(outcome: Result<(), ValidationError>, root: Option<Tree>)

  /** `validate_xml`; `parsed` is `None` when the file could not be parsed. */
  function ValidateXml(parsed: Option<Tree>): (v: Validation)
    ensures v.root == parsed
    ensures parsed.None? ==> v.outcome == Err(ParseFailed)
    ensures parsed.Some? && parsed.value.rootTag != "wordbook" ==>
      v.outcome == Err(WrongRoot(parsed.value.rootTag))
    ensures parsed.Some? && parsed.value.rootTag == "wordbook" && parsed.value.items == [] ==>
      v.outcome == Err(NoItems)
    ensures v.outcome.Ok? <==>
      && parsed.Some?
      && parsed.value.rootTag == "wordbook"
      && parsed.value.items != []
      && forall i :: 0 <= i < |parsed.value.items| && i < CheckedItems ==> Complete(parsed.value.items[i])
    ensures v.outcome.Err? && v.outcome.error.Missing? ==>
      var items := parsed.value.items;
      var k := v.outcome.error.index;
      && 1 <= k <= CheckedItems
      && k <= |items|
      && FirstMissing(items[k - 1]) == Some(v.outcome.error.field)
      && forall i :: 0 <= i < k - 1 ==> Complete(items[i])
  {
    match parsed
    case None => Validation(Err(ParseFailed), None)
    case Some(t) =>
      var outcome :=
        if t.rootTag != "wordbook" then Err(WrongRoot(t.rootTag))
        else if t.items == [] then Err(NoItems)
        else CheckItems(t.items[..Min(CheckedItems, |t.items|)], 1);
      Validation(outcome, parsed)
  }

  /** Items after the fifth are never looked at: dropping or changing them
      does not change the verdict. */
  lemma OnlyFirstFiveChecked(rootTag: String, items: seq<Item>, more: seq<Item>)
    requires |items| >= CheckedItems
    ensures ValidateXml(Some(Tree(rootTag, items + more))).outcome
         == ValidateXml(Some(Tree(rootTag, items[..CheckedItems]))).outcome
  {
    assert (items + more)[..CheckedItems] == items[..CheckedItems];
    assert items[..CheckedItems][..CheckedItems] == items[..CheckedItems];
  }

  /** A document whose sixth item is incomplete still passes validation. */
  lemma SixthItemNotChecked(good: Item, bad: Item)
    requires Complete(good) && !Complete(bad)
    ensures ValidateXml(Some(Tree("wordbook", [good, good, good, good, good, bad]))).outcome.Ok?
  {
  }

  // ---------------------------------------------------------------------
  // Translation clean-up.

  /** A character matched by `[ \t]`. */
  predicate IsBlank(c: char) {
    c == ' ' || c == '\t'
  }

  predicate NoDoubleSpace(s: String) {
    forall k :: 0 <= k < |s| - 1 ==> !(s[k] == ' ' && s[k + 1] == ' ')
  }

  /** No whitespace directly after a line break. */
  predicate NoIndent(s: String) {
    forall k :: 0 <= k < |s| - 1 ==> s[k] == '\n' ==> !IsSpace(s[k + 1])
  }

  /** The suffix after the leading run of spaces and tabs. */
  function DropBlanks(s: String): (r: String)
    ensures |r| <= |s| && r == s[|s| - |r|..]
    ensures forall k :: 0 <= k < |s| - |r| ==> IsBlank(s[k])
    ensures r == [] || !IsBlank(r[0])
    decreases |s|
  {
    if |s| > 0 && IsBlank(s[0]) then DropBlanks(s[1..]) else s
  }

  /** `re.sub(r'[ \t]+', ' ', s)`: every run of spaces and tabs becomes one
      space. */
  function CollapseBlanks(s: String): (r: String)
    ensures '\t' !in r
    ensures NoDoubleSpace(r)
    ensures s != [] ==> r != [] && r[0] == (if IsBlank(s[0]) then ' ' else s[0])
    ensures s != [] && !IsBlank(s[|s| - 1]) ==> r[|r| - 1] == s[|s| - 1]
    decreases |s|
  {
    if s == [] then []
    else if IsBlank(s[0]) then
      var t := DropBlanks(s[1..]);
      assert !IsBlank(s[|s| - 1]) ==> t != [] && t[|t| - 1] == s[|s| - 1] by {
        if !IsBlank(s[|s| - 1]) {
          assert s[1..][|s| - 2] == s[|s| - 1];
        }
      }
      [' '] + CollapseBlanks(t)
    else [s[0]] + CollapseBlanks(s[1..])
  }

  /** `re.sub(r'\n\s+', '\n', s)`: a line break followed by whitespace
      swallows the whole whitespace run after it. */
  function JoinIndented(s: String): (r: String)
    ensures NoIndent(r)
    ensures s != [] ==> r != [] && r[0] == s[0]
    ensures s != [] && !IsSpace(s[|s| - 1]) ==> r[|r| - 1] == s[|s| - 1]
    ensures '\t' !in s ==> '\t' !in r
    ensures NoDoubleSpace(s) ==> NoDoubleSpace(r)
    decreases |s|
  {
    if s == [] then []
    else if s[0] == '\n' && |s| > 1 && IsSpace(s[1]) then
      var t := LStrip(s[1..]);
      IndentDropped(s);
      "\n" + JoinIndented(t)
    else
      [s[0]] + JoinIndented(s[1..])
  }

  /** What `JoinIndented` keeps of the text after a line break and the
      whitespace that follows it. */
  lemma IndentDropped(s: String)
    requires |s| > 1 && s[0] == '\n' && IsSpace(s[1])
    ensures var t := LStrip(s[1..]);
      && ('\t' !in s ==> '\t' !in t)
      && (NoDoubleSpace(s) ==> NoDoubleSpace(t))
      && (t != [] ==> t[|t| - 1] == s[|s| - 1])
      && (t == [] ==> IsSpace(s[|s| - 1]))
  {
    var u := s[1..];
    var t := LStrip(u);
    LStripShape(u);
    assert forall k :: 0 <= k < |t| ==> t[k] == u[|u| - |t| + k];
    if t == [] {
      assert u[..|u|][|u| - 1] == s[|s| - 1];
    }
  }

  /** `_extract_cdata_content`: a missing element gives the empty string;
      otherwise all its text, stripped, with runs of spaces and tabs made
      one space and the indentation after each line break removed. */
  function ExtractCdata(e: Option<Elem>): (r: String)
    ensures e.None? ==> r == []
    ensures r == [] <==> e.None? || AllSpace(e.value.allText)
    ensures '\t' !in r
    ensures NoDoubleSpace(r)
    ensures NoIndent(r)
    ensures r == [] || (!IsSpace(r[0]) && !IsSpace(r[|r| - 1]))
  {
    match e
    case None => []
    case Some(el) =>
      var content := Strip(el.allText);
      JoinIndented(CollapseBlanks(content))
  }

  /** The characters other than spaces and tabs, in order. */
  function NonBlank(s: String): String
    decreases |s|
  {
    if s == [] then [] else (if IsBlank(s[0]) then [] else [s[0]]) + NonBlank(s[1..])
  }

  /** The characters other than whitespace, in order. */
  function NonSpace(s: String): String
    decreases |s|
  {
    if s == [] then [] else (if IsSpace(s[0]) then [] else [s[0]]) + NonSpace(s[1..])
  }

  lemma {:induction false} NonBlankDropBlanks(s: String)
    ensures NonBlank(DropBlanks(s)) == NonBlank(s)
    decreases |s|
  {
    if |s| > 0 && IsBlank(s[0]) {
      NonBlankDropBlanks(s[1..]);
    }
  }

  lemma {:induction false} NonSpaceLStrip(s: String)
    ensures NonSpace(LStrip(s)) == NonSpace(s)
    decreases |s|
  {
    if |s| > 0 && IsSpace(s[0]) {
      NonSpaceLStrip(s[1..]);
    }
  }

  /** Collapsing blanks keeps every other character, in order. */
  lemma {:induction false} CollapseKeepsText(s: String)
    ensures NonBlank(CollapseBlanks(s)) == NonBlank(s)
    decreases |s|
  {
    if s != [] {
      var r := CollapseBlanks(s);
      if IsBlank(s[0]) {
        var t := DropBlanks(s[1..]);
        CollapseKeepsText(t);
        NonBlankDropBlanks(s[1..]);
        assert r == [' '] + CollapseBlanks(t);
        assert NonBlank(r) == NonBlank(CollapseBlanks(t)) by {
          assert r[1..] == CollapseBlanks(t);
        }
      } else {
        CollapseKeepsText(s[1..]);
        assert r[1..] == CollapseBlanks(s[1..]);
      }
    }
  }

  /** Removing indentation only removes whitespace. */
  lemma {:induction false} JoinKeepsText(s: String)
    ensures NonSpace(JoinIndented(s)) == NonSpace(s)
    decreases |s|
  {
    if s != [] {
      var r := JoinIndented(s);
      if s[0] == '\n' && |s| > 1 && IsSpace(s[1]) {
        var t := LStrip(s[1..]);
        JoinKeepsText(t);
        NonSpaceLStrip(s[1..]);
        assert r[1..] == JoinIndented(t);
      } else {
        JoinKeepsText(s[1..]);
        assert r[1..] == JoinIndented(s[1..]);
      }
    }
  }

  /** A blank-collapsed string is unchanged by a second collapse. */
  lemma {:induction false} CollapseIdempotent(s: String)
    ensures CollapseBlanks(CollapseBlanks(s)) == CollapseBlanks(s)
    decreases |s|
  {
    if s != [] {
      CollapseFixed(CollapseBlanks(s));
    }
  }

  /** Text without tabs and without two spaces in a row is already
      collapsed. */
  lemma {:induction false} CollapseFixed(s: String)
    requires '\t' !in s && NoDoubleSpace(s)
    ensures CollapseBlanks(s) == s
    decreases |s|
  {
    if s != [] {
      assert '\t' !in s[1..] && NoDoubleSpace(s[1..]) by {
        forall k | 0 <= k < |s[1..]| - 1
          ensures !(s[1..][k] == ' ' && s[1..][k + 1] == ' ')
        {
          assert s[1..][k] == s[k + 1];
        }
      }
      if IsBlank(s[0]) {
        assert DropBlanks(s[1..]) == s[1..] by {
          if |s| > 1 {
            assert s[1] != ' ';
          }
        }
      }
      CollapseFixed(s[1..]);
    }
  }

  // ---------------------------------------------------------------------
  // Parsing word records.

  datatype WordData = WordData(word: String, translation: String, category: String)

  /** The three fields are non-empty and carry no surrounding whitespace. */
  predicate Usable(w: WordData) {
    && w.word != [] && !IsSpace(w.word[0]) && !IsSpace(w.word[|w.word| - 1])
    && w.translation != [] && !IsSpace(w.translation[0]) && !IsSpace(w.translation[|w.translation| - 1])
    && w.category != [] && !IsSpace(w.category[0]) && !IsSpace(w.category[|w.category| - 1])
  }

  /** One item of `parse_words`: skipped unless word, translation and
      category all come out non-empty. */
  function ParseItem(it: Item): (r: Option<WordData>)
    ensures r.Some? ==> Usable(r.value)
    ensures r.Some? ==> it.word.Some? && it.trans.Some? && it.tags.Some?
    ensures r.Some? <==> OwnText(it.word) != [] && ExtractCdata(it.trans) != [] && OwnText(it.tags) != []
    ensures r.Some? ==> r.value == WordData(OwnText(it.word), ExtractCdata(it.trans), OwnText(it.tags))
  {
    var word := OwnText(it.word);
    var translation := ExtractCdata(it.trans);
    var category := OwnText(it.tags);
    if word == [] || translation == [] || category == [] then None
    else Some(WordData(word, translation, category))
  }

  /** The loop of `parse_words` over the items. */
  function ParseItems(items: seq<Item>): (ws: seq<WordData>)
    ensures |ws| <= |items|
    ensures forall i :: 0 <= i < |ws| ==> Usable(ws[i])
    decreases |items|
  {
    if items == [] then [] else Emit(items[0]) + ParseItems(items[1..])
  }

  /** The records one item contributes: none or one. */
  function Emit(it: Item): (ws: seq<WordData>)
    ensures |ws| <= 1
    ensures forall i :: 0 <= i < |ws| ==> Usable(ws[i])
  {
    match ParseItem(it)
    case Some(w) => [w]
    case None => []
  }

  /** Records come out in document order: parsing a concatenation is the
      concatenation of the parses. */
  lemma {:induction false} ParseItemsAppend(a: seq<Item>, b: seq<Item>)
    ensures ParseItems(a + b) == ParseItems(a) + ParseItems(b)
    decreases |a|
  {
    if a != [] {
      calc {
        ParseItems(a + b);
        Emit((a + b)[0]) + ParseItems((a + b)[1..]);
        { assert (a + b)[0] == a[0]; assert (a + b)[1..] == a[1..] + b; }
        Emit(a[0]) + ParseItems(a[1..] + b);
        { ParseItemsAppend(a[1..], b); }
        Emit(a[0]) + (ParseItems(a[1..]) + ParseItems(b));
      }
    } else {
      assert a + b == b;
    }
  }

  /** Every returned record comes from some item. */
  lemma {:induction false} RecordSource(items: seq<Item>, w: WordData) returns (i: nat)
    requires w in ParseItems(items)
    ensures i < |items| && ParseItem(items[i]) == Some(w)
    decreases |items|
  {
    assert ParseItems(items) == Emit(items[0]) + ParseItems(items[1..]);
    if w in Emit(items[0]) {
      i := 0;
    } else {
      var j := RecordSource(items[1..], w);
      assert items[1..][j] == items[j + 1];
      i := j + 1;
    }
  }

  /** Every item that parses contributes its record. */
  lemma {:induction false} RecordKept(items: seq<Item>, i: nat)
    requires i < |items| && ParseItem(items[i]).Some?
    ensures ParseItem(items[i]).value in ParseItems(items)
    decreases |items|
  {
    var w := ParseItem(items[i]).value;
    assert ParseItems(items) == Emit(items[0]) + ParseItems(items[1..]);
    if i == 0 {
      assert Emit(items[0]) == [w];
    } else {
      assert items[1..][i - 1] == items[i];
      RecordKept(items[1..], i - 1);
      assert w in ParseItems(items[1..]);
    }
  }

  /** Every item yields a record exactly when all three fields parse:
      then nothing is skipped. */
  lemma {:induction false} NothingSkipped(items: seq<Item>)
    requires forall i :: 0 <= i < |items| ==> ParseItem(items[i]).Some?
    ensures |ParseItems(items)| == |items|
    decreases |items|
  {
    if items != [] {
      NothingSkipped(items[1..]);
    }
  }

  datatype ParserError = NotValidated

  /** `parse_words`: refused unless a root has been stored. */
  function ParseWords(root: Option<Tree>): (r: Result<seq<WordData>, ParserError>)
    ensures r.Err? <==> root.None?
    ensures r.Ok? ==> forall i :: 0 <= i < |r.value| ==> Usable(r.value[i])
    ensures r.Ok? ==> |r.value| <= |root.value.items|
    ensures r.Ok? ==> r.value == ParseItems(root.value.items)
  {
    match root
    case None => Err(NotValidated)
    case Some(t) => Ok(ParseItems(t.items))
  }

  /** The root is stored before the root tag is checked, so records can be
      parsed after a validation that failed on the root tag. */
  lemma ParseAfterFailedValidation(t: Tree)
    requires t.rootTag != "wordbook"
    ensures ValidateXml(Some(t)).outcome.Err?
    ensures ParseWords(ValidateXml(Some(t)).root).Ok?
  {
  }

  // ---------------------------------------------------------------------
  // Batches and import statistics.

  /** `[xs[i:i + size] for i in range(0, len(xs), size)]`. */
  function Batches<T>(xs: seq<T>, size: nat): (bs: seq<seq<T>>)
    requires size > 0
    ensures forall i :: 0 <= i < |bs| ==> 0 < |bs[i]| <= size
    ensures forall i :: 0 <= i < |bs| - 1 ==> |bs[i]| == size
    ensures xs == [] <==> bs == []
    decreases |xs|
  {
    if |xs| == 0 then []
    else if |xs| <= size then [xs]
    else [xs[..size]] + Batches(xs[size..], size)
  }

  function Flatten<T>(bs: seq<seq<T>>): seq<T>
    decreases |bs|
  {
    if bs == [] then [] else bs[0] + Flatten(bs[1..])
  }

  /** The batches cover the records exactly once, in order. */
  lemma {:induction false} BatchesCover<T>(xs: seq<T>, size: nat)
    requires size > 0
    ensures Flatten(Batches(xs, size)) == xs
    decreases |xs|
  {
    if |xs| > size {
      var bs := Batches(xs, size);
      BatchesCover(xs[size..], size);
      assert bs[1..] == Batches(xs[size..], size);
      assert xs == xs[..size] + xs[size..];
    } else if |xs| > 0 {
      assert Batches(xs, size) == [xs];
      assert xs + [] == xs;
    }
  }

  /** What the database does with one batch: it added so many rows
      (`rows_after - rows_before`), or the insert raised. */
  datatype BatchOutcome = Inserted(added: int) | Failed

  datatype ImportStats = ImportStats(totalProcessed: nat, added: int, skippedDuplicates: int, errors: nat)

  /** The batch loop; `db(k)` is the database's answer to the `k`-th batch. */
  function RunBatches(bs: seq<seq<WordData>>, k: nat, db: nat -> BatchOutcome, s: ImportStats): (r: ImportStats)
    ensures r.totalProcessed == s.totalProcessed
    ensures r.added + r.skippedDuplicates + r.errors == s.added + s.skippedDuplicates + s.errors + |Flatten(bs)|
    ensures r.errors >= s.errors
    decreases |bs|
  {
    if bs == [] then s
    else
      var n := |bs[0]|;
      var s2 := match db(k)
        case Inserted(a) => s.(added := s.added + a, skippedDuplicates := s.skippedDuplicates + (n - a))
        case Failed => s.(errors := s.errors + n);
      RunBatches(bs[1..], k + 1, db, s2)
  }

  datatype ImportError =
    | ValidationFailed(reason: ValidationError)
    | ZeroBatchSize    // `range()` refuses a step of 0

  /** `import_to_database`: validation first, then parsing, then one insert
      per batch; a failed batch counts all its records as errors. A negative
      batch size gives an empty `range()` and so no batches at all. */
  function ImportToDatabase(parsed: Option<Tree>, batchSize: int, db: nat -> BatchOutcome): (r: Result<ImportStats, ImportError>)
    ensures ValidateXml(parsed).outcome.Err? <==> r.Err? && r.error.ValidationFailed?
    ensures r.Err? && r.error.ValidationFailed? ==> r.error.reason == ValidateXml(parsed).outcome.error
    ensures r == Err(ZeroBatchSize) <==> ValidateXml(parsed).outcome.Ok? && batchSize == 0
    ensures r.Ok? <==> ValidateXml(parsed).outcome.Ok? && batchSize != 0
    ensures r.Ok? ==> parsed.Some? && r.value.totalProcessed == |ParseItems(parsed.value.items)|
    ensures r.Ok? && batchSize > 0 ==>
      r.value.added + r.value.skippedDuplicates + r.value.errors == r.value.totalProcessed
    ensures r.Ok? && batchSize < 0 ==>
      r.value.added == 0 && r.value.skippedDuplicates == 0 && r.value.errors == 0
  {
    var v := ValidateXml(parsed);
    if v.outcome.Err? then Err(ValidationFailed(v.outcome.error))
    else
      var words := ParseItems(parsed.value.items);
      var start := ImportStats(|words|, 0, 0, 0);
      if batchSize == 0 then Err(ZeroBatchSize)
      else if batchSize < 0 then Ok(start)
      else
        BatchesCover(words, batchSize);
        Ok(RunBatches(Batches(words, batchSize), 0, db, start))
  }

  /** When every batch fails, every record is an error and none is added. */
  lemma {:induction false} AllBatchesFail(bs: seq<seq<WordData>>, k: nat, s: ImportStats)
    ensures var r := RunBatches(bs, k, _ => Failed, s);
      r.errors == s.errors + |Flatten(bs)| && r.added == s.added && r.skippedDuplicates == s.skippedDuplicates
    decreases |bs|
  {
    if bs != [] {
      AllBatchesFail(bs[1..], k + 1, s.(errors := s.errors + |bs[0]|));
    }
  }
}

=== FILE: word_debt.dfy ===
/** Word debt: the shortfall against a quota of 100 reviews a day. Every day
    from the first logged day up to yesterday adds `100 - count` (missing days
    count 0), today only ever subtracts its surplus over 100, and the total is
    held at 0 or above. A breakdown lists the raw `100 - count` of up to 20
    days, yesterday first. The module also models the diagnostic script's
    per-row total, which sums only the rows it fetched and does not clamp. */
module WordDebt {
  import opened Results
  import opened Arith
  import opened DailyCounter

  const DailyQuota: int := 100
  /** How many past days the breakdown reaches back. */
  const BreakdownDays: int := 20

  datatype DayDebt = DayDebt(day: int, debt: int)
  datatype DebtReport = DebtReport(total: int, breakdown: seq<DayDebt>)

  /** A finite set of days holding `x` has a first day. */
  lemma {:induction false} FirstDayExists(days: set<int>, x: int)
    requires x in days
    ensures exists e :: e in days && forall d :: d in days ==> e <= d
    decreases |days|
  {
    var rest := days - {x};
    if y :| y in rest {
      FirstDayExists(rest, y);
      var e :| e in rest && forall d :: d in rest ==> e <= d;
      var m := if x < e then x else e;
      forall d | d in days
        ensures m <= d
      {
        if d != x {
          assert d in rest;
        }
      }
      assert m in days;
    } else {
      forall d | d in days
        ensures x <= d
      {
        assert d !in rest;
      }
    }
  }

  /** The ledger has at least one row. */
  predicate HasDays(l: Ledger) {
    exists d :: d in l
  }

  /** `SELECT MIN(date) FROM daily_study_log` on a ledger with rows. */
  ghost function Earliest(l: Ledger): (e: int)
    requires HasDays(l)
    ensures e in l
    ensures forall d :: d in l ==> e <= d
  {
    var x :| x in l;
    FirstDayExists(l.Keys, x);
    var e :| e in l && forall d :: d in l ==> e <= d;
    e
  }

  /** The debt one finished day adds: its shortfall, negative for a surplus. */
  function DayShortfall(l: Ledger, day: int): int {
    DailyQuota - Count(l, day)
  }

  /** The shortfalls of the days `lo <= d < hi`, summed. */
  function DebtBetween(l: Ledger, lo: int, hi: int): int
    decreases hi - lo
  {
    if lo >= hi then 0 else DebtBetween(l, lo, hi - 1) + DayShortfall(l, hi - 1)
  }

  /** What today's count takes off the debt: only the part above the quota. */
  function TodaySurplus(l: Ledger, today: int): (s: int)
    ensures s >= 0
    ensures Count(l, today) <= DailyQuota ==> s == 0
    ensures Count(l, today) > DailyQuota ==> s == Count(l, today) - DailyQuota
  {
    if Count(l, today) > DailyQuota then Count(l, today) - DailyQuota else 0
  }

  /** The report in closed form: the reference the endpoint's loops are
      proved against. */
  ghost function DebtOf(l: Ledger, today: int): DebtReport {
    if !HasDays(l) then DebtReport(0, [])
    else
      var e := Earliest(l);
      var n := Min(BreakdownDays, Max(0, today - e));
      DebtReport(
        Max(0, DebtBetween(l, e, today) - TodaySurplus(l, today)),
        seq(n, i requires 0 <= i < n => DayDebt(today - 1 - i, DayShortfall(l, today - 1 - i))))
  }

  /** The debt endpoint as written: the earliest day, a day-by-day loop to
      yesterday, today's surplus, the clamp, then a backward walk of at most
      20 days that stops before the earliest day. */
  method GetWordDebt(l: Ledger, today: int) returns (r: DebtReport)
    ensures r == DebtOf(l, today)
  {
    var found, earliest := FindEarliest(l);
    if !found {
      return DebtReport(0, []);
    }
    var total := SumShortfalls(l, earliest, today);
    var todayCount := Count(l, today);
    if todayCount > DailyQuota {
      total := total - (todayCount - DailyQuota);
    }
    if total < 0 {
      total := 0;
    }
    var breakdown := WalkBack(l, earliest, today);
    r := DebtReport(total, breakdown);
  }

  /** `SELECT MIN(date)`: whether the ledger has a row, and its first day. */
  method FindEarliest(l: Ledger) returns (found: bool, earliest: int)
    ensures found <==> HasDays(l)
    ensures found ==> earliest in l && forall d :: d in l ==> earliest <= d
    ensures found ==> earliest == Earliest(l)
  {
    found := false;
    earliest := 0;
    if x :| x in l {
      FirstDayExists(l.Keys, x);
      found := true;
      earliest :| earliest in l && forall d :: d in l ==> earliest <= d;
    }
  }

  /** The loop from the earliest day up to yesterday, adding each day's
      shortfall. */
  method SumShortfalls(l: Ledger, earliest: int, today: int) returns (total: int)
    ensures total == DebtBetween(l, earliest, today)
  {
    total := 0;
    var current := earliest;
    while current < today
      invariant earliest <= current
      invariant current <= today || current == earliest
      invariant total == DebtBetween(l, earliest, current)
      decreases today - current
    {
      total := total + (DailyQuota - Count(l, current));
      current := current + 1;
    }
  }

  /** The breakdown loop: from yesterday backwards, at most 20 days and
      never before the earliest day. */
  method WalkBack(l: Ledger, earliest: int, today: int) returns (breakdown: seq<DayDebt>)
    ensures |breakdown| == Min(BreakdownDays, Max(0, today - earliest))
    ensures forall k :: 0 <= k < |breakdown| ==>
      breakdown[k] == DayDebt(today - 1 - k, DayShortfall(l, today - 1 - k))
  {
    breakdown := [];
    var day := today - 1;
    var i := 0;
    while i < BreakdownDays
      invariant 0 <= i <= BreakdownDays
      invariant day == today - 1 - i
      invariant |breakdown| == i
      invariant i <= Max(0, today - earliest)
      invariant forall k :: 0 <= k < i ==> breakdown[k] == DayDebt(today - 1 - k, DayShortfall(l, today - 1 - k))
    {
      if day < earliest {
        break;
      }
      breakdown := breakdown + [DayDebt(day, DailyQuota - Count(l, day))];
      day := day - 1;
      i := i + 1;
    }
  }

  /** The report's promises: no ledger means no debt and no breakdown; the
      total is never negative; the breakdown walks back from yesterday one day
      at a time, never past 20 days nor before the first logged day, and shows
      each day's raw, unclamped shortfall. */
  lemma DebtReportShape(l: Ledger, today: int)
    ensures l == map[] ==> DebtOf(l, today) == DebtReport(0, [])
    ensures DebtOf(l, today).total >= 0
    ensures |DebtOf(l, today).breakdown| <= BreakdownDays
    ensures HasDays(l) && Earliest(l) < today ==>
      |DebtOf(l, today).breakdown| == Min(BreakdownDays, today - Earliest(l))
    ensures HasDays(l) && Earliest(l) >= today ==> DebtOf(l, today).breakdown == []
    ensures forall i :: 0 <= i < |DebtOf(l, today).breakdown| ==>
      && DebtOf(l, today).breakdown[i].day == today - 1 - i
      && DebtOf(l, today).breakdown[i].debt == DailyQuota - Count(l, today - 1 - i)
      && HasDays(l) && DebtOf(l, today).breakdown[i].day >= Earliest(l)
  {
    if HasDays(l) {
      var e := Earliest(l);
      var n := Min(BreakdownDays, Max(0, today - e));
      var b := DebtOf(l, today).breakdown;
      assert |b| == n;
      forall i | 0 <= i < n
        ensures b[i].day == today - 1 - i && b[i].debt == DailyQuota - Count(l, today - 1 - i)
        ensures b[i].day >= e
      {
        assert b[i] == DayDebt(today - 1 - i, DayShortfall(l, today - 1 - i));
      }
    }
  }

  /** Adding one more finished day adds exactly its shortfall. */
  lemma DebtBetweenExtend(l: Ledger, lo: int, hi: int)
    requires lo <= hi
    ensures DebtBetween(l, lo, hi + 1) == DebtBetween(l, lo, hi) + DailyQuota - Count(l, hi)
  {
  }

  /** Today never adds debt: a count above the quota lowers the unclamped
      total by its surplus, and any count up to the quota leaves it alone. */
  lemma {:induction false} TodayOnlyRepays(l: Ledger, today: int, count: int)
    requires HasDays(l) && Earliest(l) < today
    ensures var l2 := l[today := count];
            && HasDays(l2)
            && Earliest(l2) == Earliest(l)
            && (count <= DailyQuota ==> DebtOf(l2, today).total == Max(0, DebtBetween(l, Earliest(l), today)))
            && (count > DailyQuota ==>
                  DebtOf(l2, today).total == Max(0, DebtBetween(l, Earliest(l), today) - (count - DailyQuota)))
  {
    var l2 := l[today := count];
    assert today in l2;
    var e := Earliest(l);
    assert e in l2;
    forall d | d in l2
      ensures e <= d
    {
      if d != today {
        assert d in l;
      }
    }
    assert Earliest(l2) <= e;
    assert Earliest(l2) == e;
    SameBefore(l, l2, e, today);
  }

  /** Changing the count of a day at or after `hi` leaves the sum before it alone. */
  lemma {:induction false} SameBefore(l: Ledger, l2: Ledger, lo: int, hi: int)
    requires forall d :: d < hi ==> Count(l, d) == Count(l2, d)
    ensures DebtBetween(l, lo, hi) == DebtBetween(l2, lo, hi)
    decreases hi - lo
  {
    if lo < hi {
      SameBefore(l, l2, lo, hi - 1);
    }
  }

  /** The worked example: counts 0, 150 and 50 on the three days before
      today and nothing today give a total of 100 and the breakdown
      50, -50, 100 from yesterday backwards. */
  lemma ThreeDayExample(today: int)
    ensures DebtOf(map[today - 3 := 0, today - 2 := 150, today - 1 := 50], today)
         == DebtReport(100, [DayDebt(today - 1, 50), DayDebt(today - 2, -50), DayDebt(today - 3, 100)])
  {
    var l := map[today - 3 := 0, today - 2 := 150, today - 1 := 50];
    assert today - 3 in l;
    assert Earliest(l) == today - 3;
    assert DebtBetween(l, today - 3, today - 2) == 100;
    assert DebtBetween(l, today - 3, today - 1) == 50;
    assert DebtBetween(l, today - 3, today) == 100;
  }

  // ---------------------------------------------------------------------
  // The diagnostic script: per-row contributions of the fetched rows.

  /** One row of `SELECT date, review_count FROM daily_study_log`. */
  datatype LogRow = LogRow(day: int, count: int)

  /** A row's contribution: nothing for a future row, only the surplus
      (negated) for today's row, the shortfall for a past row. */
  function RowContribution(row: LogRow, today: int): (c: int)
    ensures row.day > today ==> c == 0
    ensures row.day == today ==> c <= 0 && (row.count > DailyQuota ==> c == DailyQuota - row.count)
    ensures row.day == today && row.count <= DailyQuota ==> c == 0
    ensures row.day < today ==> c == DailyQuota - row.count
  {
    if row.day > today then 0
    else if row.day == today then (if row.count > DailyQuota then -(row.count - DailyQuota) else 0)
    else DailyQuota - row.count
  }

  /** The script's running total over the rows it fetched: a plain sum, no
      filling of missing days, no clamp. */
  function DiagnosticTotal(rows: seq<LogRow>, today: int): int
    decreases |rows|
  {
    if |rows| == 0 then 0 else RowContribution(rows[0], today) + DiagnosticTotal(rows[1..], today)
  }

  /** The `k` consecutive days before today, newest first, with their counts
      (0 for a day with no row): what the query returns for those days when
      each of them has a row. */
  function PastRows(l: Ledger, today: int, k: nat): (rows: seq<LogRow>)
    ensures |rows| == k
    ensures forall i :: 0 <= i < k ==> rows[i] == LogRow(today - 1 - i, Count(l, today - 1 - i))
  {
    seq(k, i requires 0 <= i < k => LogRow(today - 1 - i, Count(l, today - 1 - i)))
  }

  /** When the fetched rows are exactly today and the `k` days before it
      (no gaps), the diagnostic total is the endpoint's total before the
      clamp, with those `k` days as the whole history. */
  lemma {:induction false} DiagnosticAgreesWithoutGaps(l: Ledger, today: int, k: nat)
    ensures DiagnosticTotal(PastRows(l, today, k), today) == DebtBetween(l, today - k, today)
    ensures DiagnosticTotal([LogRow(today, Count(l, today))] + PastRows(l, today, k), today)
         == DebtBetween(l, today - k, today) - TodaySurplus(l, today)
    decreases k
  {
    if k > 0 {
      DiagnosticAgreesWithoutGaps(l, today, k - 1);
      var rows := PastRows(l, today, k);
      assert rows == PastRows(l, today, k - 1) + [LogRow(today - k, Count(l, today - k))];
      DiagnosticAppend(PastRows(l, today, k - 1), LogRow(today - k, Count(l, today - k)), today);
      DebtBetweenPrepend(l, today - k, today);
    }
    var full := [LogRow(today, Count(l, today))] + PastRows(l, today, k);
    assert full[1..] == PastRows(l, today, k);
  }

  /** Appending a row adds its contribution. */
  lemma {:induction false} DiagnosticAppend(rows: seq<LogRow>, row: LogRow, today: int)
    ensures DiagnosticTotal(rows + [row], today) == DiagnosticTotal(rows, today) + RowContribution(row, today)
    decreases |rows|
  {
    if |rows| > 0 {
      DiagnosticAppend(rows[1..], row, today);
      assert (rows + [row])[1..] == rows[1..] + [row];
    }
  }

  /** The sum over `[lo, hi)` splits off its first day. */
  lemma {:induction false} DebtBetweenPrepend(l: Ledger, lo: int, hi: int)
    requires lo < hi
    ensures DebtBetween(l, lo, hi) == DayShortfall(l, lo) + DebtBetween(l, lo + 1, hi)
    decreases hi - lo
  {
    if lo + 1 < hi {
      DebtBetweenPrepend(l, lo, hi - 1);
    }
  }

  /** With a gap the two disagree: a single logged day two days ago at
      quota leaves the diagnostic at 0, while the endpoint charges 100 for the
      unlogged yesterday. */
  lemma GapIsNotFilled(today: int)
    ensures DiagnosticTotal([LogRow(today - 2, 100)], today) == 0
    ensures DebtOf(map[today - 2 := 100], today).total == 100
  {
    var l := map[today - 2 := 100];
    assert today - 2 in l;
    assert Earliest(l) == today - 2;
    assert DebtBetween(l, today - 2, today - 1) == 0;
    assert DebtBetween(l, today - 2, today) == 100;
  }

  // ---------------------------------------------------------------------
  // What the script fetches.

  /** How many rows the diagnostic script fetches. */
  const FetchLimit: nat := 30

  /** `SELECT date, review_count FROM daily_study_log ORDER BY date DESC
      LIMIT limit`: logged rows with their counts, newest first, as many as
      the limit allows, and no logged day left out is newer than one that
      was fetched. */
  predicate RecentRows(l: Ledger, rows: seq<LogRow>, limit: nat) {
    && |rows| == Min(limit, |l.Keys|)
    && (forall i :: 0 <= i < |rows| ==> rows[i].day in l && rows[i].count == l[rows[i].day])
    && (forall i, j :: 0 <= i < j < |rows| ==> rows[i].day > rows[j].day)
    && (forall d :: d in l && d !in FetchedDays(rows) ==>
          forall i :: 0 <= i < |rows| ==> d < rows[i].day)
  }

  /** The days of the fetched rows. */
  function FetchedDays(rows: seq<LogRow>): set<int> {
    if rows == [] then {} else {rows[0].day} + FetchedDays(rows[1..])
  }

  /** The days `a <= d <= b`. */
  function DayRange(a: int, b: int): (ds: set<int>)
    ensures forall d :: d in ds <==> a <= d <= b
    ensures a <= b + 1 ==> |ds| == b - a + 1
    decreases b - a
  {
    if a > b then {} else DayRange(a, b - 1) + {b}
  }

  /** Strictly decreasing days drop by at least one per position. */
  lemma {:induction false} DaysSpread(rows: seq<LogRow>, i: int, j: int)
    requires forall x, y :: 0 <= x < y < |rows| ==> rows[x].day > rows[y].day
    requires 0 <= i <= j < |rows|
    ensures rows[i].day - rows[j].day >= j - i
    decreases j - i
  {
    if i < j {
      DaysSpread(rows, i, j - 1);
      assert rows[j - 1].day > rows[j].day;
    }
  }

  /** With no future row and no missing day since the first logged one, the
      logged days are exactly the first day through today, or through
      yesterday when today has no row yet. */
  lemma LoggedDays(l: Ledger, today: int)
    requires HasDays(l)
    requires forall d :: d in l ==> d <= today
    requires forall d :: Earliest(l) <= d < today ==> d in l
    ensures var top := if today in l then today else today - 1;
      && Earliest(l) <= top
      && l.Keys == DayRange(Earliest(l), top)
  {
    var e := Earliest(l);
    var top := if today in l then today else today - 1;
    assert e in l;
    forall d
      ensures d in l.Keys <==> d in DayRange(e, top)
    {
      if d in l {
        assert e <= d <= today;
      }
    }
    assert l.Keys == DayRange(e, top);
  }

  /** `n` strictly decreasing days between `e` and `e + n - 1` are those
      days, newest first. */
  lemma RowsAreDays(rows: seq<LogRow>, e: int, top: int)
    requires |rows| == top - e + 1
    requires forall i :: 0 <= i < |rows| ==> e <= rows[i].day <= top
    requires forall x, y :: 0 <= x < y < |rows| ==> rows[x].day > rows[y].day
    ensures forall i :: 0 <= i < |rows| ==> rows[i].day == top - i
  {
    forall i | 0 <= i < |rows|
      ensures rows[i].day == top - i
    {
      DaysSpread(rows, 0, i);
      DaysSpread(rows, i, |rows| - 1);
    }
  }

  /** A fetch of a history of at most `FetchLimit` days without gaps or
      future rows is every row, newest first. */
  lemma FetchIsWholeHistory(l: Ledger, today: int, rows: seq<LogRow>)
    requires HasDays(l)
    requires forall d :: d in l ==> d <= today
    requires forall d :: Earliest(l) <= d < today ==> d in l
    requires today - Earliest(l) < FetchLimit
    requires RecentRows(l, rows, FetchLimit)
    ensures today in l ==> rows == [LogRow(today, Count(l, today))] + PastRows(l, today, today - Earliest(l))
    ensures today !in l ==> rows == PastRows(l, today, today - Earliest(l))
  {
    var e := Earliest(l);
    var top := if today in l then today else today - 1;
    LoggedDays(l, today);
    assert |l.Keys| == top - e + 1;
    assert |rows| == top - e + 1;
    forall i | 0 <= i < |rows|
      ensures e <= rows[i].day <= top
    {
      assert rows[i].day in l.Keys;
    }
    RowsAreDays(rows, e, top);
    if today in l {
      RowsFromToday(l, rows, today, today - e);
    } else {
      RowsFromYesterday(l, rows, today, today - e);
    }
  }

  /** Logged rows for today and the `k` days before it, newest first. */
  lemma RowsFromToday(l: Ledger, rows: seq<LogRow>, today: int, k: nat)
    requires |rows| == k + 1
    requires forall i :: 0 <= i < |rows| ==> rows[i].day == today - i
    requires forall i :: 0 <= i < |rows| ==> rows[i].day in l && rows[i].count == l[rows[i].day]
    ensures rows == [LogRow(today, Count(l, today))] + PastRows(l, today, k)
  {
    var past := PastRows(l, today, k);
    assert rows[0] == LogRow(today, Count(l, today));
    assert rows[1..] == past by {
      forall i | 0 <= i < k
        ensures rows[1..][i] == past[i]
      {
        assert rows[i + 1].day == today - 1 - i;
      }
    }
    assert rows == [rows[0]] + rows[1..];
  }

  /** Logged rows for the `k` days before today, newest first. */
  lemma RowsFromYesterday(l: Ledger, rows: seq<LogRow>, today: int, k: nat)
    requires |rows| == k
    requires forall i :: 0 <= i < |rows| ==> rows[i].day == today - 1 - i
    requires forall i :: 0 <= i < |rows| ==> rows[i].day in l && rows[i].count == l[rows[i].day]
    ensures rows == PastRows(l, today, k)
  {
    var past := PastRows(l, today, k);
    forall i | 0 <= i < k
      ensures rows[i] == past[i]
    {
      assert rows[i].day == today - 1 - i;
    }
  }

  /** With no future row, no missing day since the first logged one, and a
      history of at most 30 days, the script fetches every row and its total
      is the endpoint's total before the clamp -- and the endpoint's total
      itself whenever that is not negative. */
  lemma DiagnosticMatchesEndpoint(l: Ledger, today: int, rows: seq<LogRow>)
    requires HasDays(l)
    requires forall d :: d in l ==> d <= today
    requires forall d :: Earliest(l) <= d < today ==> d in l
    requires today - Earliest(l) < FetchLimit
    requires RecentRows(l, rows, FetchLimit)
    ensures DiagnosticTotal(rows, today) == DebtBetween(l, Earliest(l), today) - TodaySurplus(l, today)
    ensures DiagnosticTotal(rows, today) >= 0 ==> DiagnosticTotal(rows, today) == DebtOf(l, today).total
  {
    var k := today - Earliest(l);
    FetchIsWholeHistory(l, today, rows);
    DiagnosticAgreesWithoutGaps(l, today, k);
    if today !in l {
      assert TodaySurplus(l, today) == 0;
    }
  }
}

=== FILE: xml_cleaning.dfy ===
/** The two scripts that rewrite a raw vocabulary file into the cleaned
    `<wordbook>` layout, and the script that imports a new-word file into the
    fixed category `202512_New`. Reading and writing files is left out: a
    script takes the parsed items and returns the lines it would write. */
module XmlCleaning {
  import opened Results
  import opened Text
  import opened XmlItems

  // ---------------------------------------------------------------------
  // The cleaned layout.

  const OpenBook: String := "<wordbook>"
  const CloseBook: String := "</wordbook>"
  const OpenItem: String := "<item>"
  const CloseItem: String := "</item>"

  /** The lines written for one item: nothing unless it has both a `word`
      and a `trans` element; the `tags` line only when the tags element has
      text. */
  function ItemLines(it: Item): (ls: seq<String>)
    ensures !HasWordAndTrans(it) <==> ls == []
    ensures HasWordAndTrans(it) ==>
      && (|ls| == 4 || |ls| == 5)
      && ls[0] == OpenItem
      && ls[1] == "  <word>" + OwnText(it.word) + "</word>"
      && ls[2] == "  <trans><![CDATA[" + OwnText(it.trans) + "]]></trans>"
      && ls[|ls| - 1] == CloseItem
      && (|ls| == 5 <==> it.tags.Some? && HasOwnText(it.tags.value))
      && (|ls| == 5 ==> ls[3] == "  <tags>" + OwnText(it.tags) + "</tags>")
  {
    if !HasWordAndTrans(it) then []
    else
      var tagLine := if it.tags.Some? && HasOwnText(it.tags.value) then ["  <tags>" + OwnText(it.tags) + "</tags>"] else [];
      [OpenItem, "  <word>" + OwnText(it.word) + "</word>", "  <trans><![CDATA[" + OwnText(it.trans) + "]]></trans>"]
        + tagLine + [CloseItem]
  }

  function ItemBlocks(items: seq<Item>): seq<String>
    decreases |items|
  {
    if items == [] then [] else ItemLines(items[0]) + ItemBlocks(items[1..])
  }

  /** The lines of the cleaned file. */
  function CleanedLines(items: seq<Item>): (ls: seq<String>)
    ensures |ls| >= 2 && ls[0] == OpenBook && ls[|ls| - 1] == CloseBook
  {
    [OpenBook] + ItemBlocks(items) + [CloseBook]
  }

  /** How many items are written. */
  function Kept(items: seq<Item>): (n: nat)
    ensures n <= |items|
    decreases |items|
  {
    if items == [] then 0 else (if HasWordAndTrans(items[0]) then 1 else 0) + Kept(items[1..])
  }

  /** How many lines equal `line`. */
  function Occurrences(ls: seq<String>, line: String): nat
    decreases |ls|
  {
    if ls == [] then 0 else (if ls[0] == line then 1 else 0) + Occurrences(ls[1..], line)
  }

  lemma {:induction false} OccurrencesAppend(a: seq<String>, b: seq<String>, line: String)
    ensures Occurrences(a + b, line) == Occurrences(a, line) + Occurrences(b, line)
    decreases |a|
  {
    if a == [] {
      assert a + b == b;
    } else {
      assert (a + b)[1..] == a[1..] + b;
      OccurrencesAppend(a[1..], b, line);
    }
  }

  lemma {:induction false} OccurrencesAbsent(ls: seq<String>, line: String)
    requires line !in ls
    ensures Occurrences(ls, line) == 0
    decreases |ls|
  {
    if ls != [] {
      OccurrencesAbsent(ls[1..], line);
    }
  }

  /** An item contributes one `<item>` line when it is written, none
      otherwise. */
  lemma ItemLinesOpenOnce(it: Item)
    ensures Occurrences(ItemLines(it), OpenItem) == if HasWordAndTrans(it) then 1 else 0
  {
    var ls := ItemLines(it);
    if HasWordAndTrans(it) {
      var rest := ls[1..];
      forall k | 0 <= k < |rest|
        ensures rest[k] != OpenItem
      {
        if k == |rest| - 1 {
          assert rest[k][1] != OpenItem[1];
        } else {
          assert rest[k][0] != OpenItem[0];
        }
      }
      OccurrencesAbsent(rest, OpenItem);
      assert ls == [OpenItem] + rest;
      OccurrencesAppend([OpenItem], rest, OpenItem);
    }
  }

  /** The `<item>` lines of the cleaned file are exactly the items written. */
  lemma {:induction false} OpenLinesCountKept(items: seq<Item>)
    ensures Occurrences(ItemBlocks(items), OpenItem) == Kept(items)
    decreases |items|
  {
    if items != [] {
      OccurrencesAppend(ItemLines(items[0]), ItemBlocks(items[1..]), OpenItem);
      ItemLinesOpenOnce(items[0]);
      OpenLinesCountKept(items[1..]);
    }
  }

  /** The result of a cleaning script: the text written and the count it
      reports. */
  datatype Cleaned = Cleaned(text: String, count: nat)

  /** `clean_raw_xml` of the import script: reports the number of items
      written. */
  function CleanRawXml(items: seq<Item>): (r: Cleaned)
    ensures r.text == Join(CleanedLines(items), '\n')
    ensures r.count == Occurrences(CleanedLines(items), OpenItem)
  {
    var ls := CleanedLines(items);
    OccurrencesAppend([OpenBook] + ItemBlocks(items), [CloseBook], OpenItem);
    OccurrencesAppend([OpenBook], ItemBlocks(items), OpenItem);
    OpenLinesCountKept(items);
    Cleaned(Join(ls, '\n'), Kept(items))
  }

  /** `clean_xml` of the data script: the same file, but the total it prints
      is the number of `item` elements read, skipped ones included. */
  function CleanXml(items: seq<Item>): (r: Cleaned)
    ensures r.text == CleanRawXml(items).text
    ensures r.count == |items|
  {
    Cleaned(Join(CleanedLines(items), '\n'), |items|)
  }

  /** The two reported counts agree exactly when no item is skipped. */
  lemma {:induction false} CountsAgreeIffNoneSkipped(items: seq<Item>)
    ensures CleanRawXml(items).count == CleanXml(items).count <==>
      forall i :: 0 <= i < |items| ==> HasWordAndTrans(items[i])
    decreases |items|
  {
    OpenLinesCountKept(items);
    KeptAll(items);
  }

  lemma {:induction false} KeptAll(items: seq<Item>)
    ensures Kept(items) == |items| <==> forall i :: 0 <= i < |items| ==> HasWordAndTrans(items[i])
    decreases |items|
  {
    if items != [] {
      KeptAll(items[1..]);
      if forall i :: 0 <= i < |items| ==> HasWordAndTrans(items[i]) {
        forall i | 0 <= i < |items[1..]|
          ensures HasWordAndTrans(items[1..][i])
        {
          assert items[1..][i] == items[i + 1];
        }
      }
      if Kept(items) == |items| {
        forall i | 0 <= i < |items|
          ensures HasWordAndTrans(items[i])
        {
          if i > 0 {
            assert items[i] == items[1..][i - 1];
          }
        }
      }
    }
  }

  // ---------------------------------------------------------------------
  // The new-word import.

  datatype NewWord = NewWord(word: String, translation: String)

  /** The translation read by `parse_xml_words`: all text of the element,
      stripped, but only when the element has leading text of its own. */
  function NewWordTranslation(trans: Elem): (r: String)
    ensures r != [] ==> HasOwnText(trans)
    ensures HasOwnText(trans) ==> r == Strip(trans.allText)
  {
    if HasOwnText(trans) then Strip(trans.allText) else []
  }

  /** One item of `parse_xml_words`. */
  function NewWordOf(it: Item): (r: Option<NewWord>)
    ensures r.Some? <==> HasWordAndTrans(it) && OwnText(it.word) != [] && NewWordTranslation(it.trans.value) != []
    ensures r.Some? ==> r.value.word != [] && r.value.translation != []
    ensures r.Some? ==> HasOwnText(it.trans.value)
    ensures r.Some? ==> r.value == NewWord(OwnText(it.word), NewWordTranslation(it.trans.value))
  {
    if !HasWordAndTrans(it) then None
    else
      var word := OwnText(it.word);
      var translation := NewWordTranslation(it.trans.value);
      if word != [] && translation != [] then Some(NewWord(word, translation)) else None
  }

  /** `parse_xml_words` over the items, in order. */
  function ParseXmlWords(items: seq<Item>): (ws: seq<NewWord>)
    ensures |ws| <= |items|
    ensures forall i :: 0 <= i < |ws| ==> ws[i].word != [] && ws[i].translation != []
    decreases |items|
  {
    if items == [] then [] else EmitNew(items[0]) + ParseXmlWords(items[1..])
  }

  /** The records one item contributes: none or one. */
  function EmitNew(it: Item): (ws: seq<NewWord>)
    ensures |ws| <= 1
    ensures forall i :: 0 <= i < |ws| ==> ws[i].word != [] && ws[i].translation != []
  {
    match NewWordOf(it)
    case Some(w) => [w]
    case None => []
  }

  /** Records come out in document order: parsing a concatenation is the
      concatenation of the parses. */
  lemma {:induction false} NewWordsAppend(a: seq<Item>, b: seq<Item>)
    ensures ParseXmlWords(a + b) == ParseXmlWords(a) + ParseXmlWords(b)
    decreases |a|
  {
    if a != [] {
      calc {
        ParseXmlWords(a + b);
        EmitNew((a + b)[0]) + ParseXmlWords((a + b)[1..]);
        { assert (a + b)[0] == a[0]; assert (a + b)[1..] == a[1..] + b; }
        EmitNew(a[0]) + ParseXmlWords(a[1..] + b);
        { NewWordsAppend(a[1..], b); }
        EmitNew(a[0]) + (ParseXmlWords(a[1..]) + ParseXmlWords(b));
      }
    } else {
      assert a + b == b;
    }
  }

  /** Every returned record comes from some item that yields exactly it. */
  lemma {:induction false} NewWordSource(items: seq<Item>, w: NewWord) returns (i: nat)
    requires w in ParseXmlWords(items)
    ensures i < |items| && NewWordOf(items[i]) == Some(w)
    decreases |items|
  {
    assert ParseXmlWords(items) == EmitNew(items[0]) + ParseXmlWords(items[1..]);
    if w in EmitNew(items[0]) {
      i := 0;
    } else {
      var j := NewWordSource(items[1..], w);
      assert items[1..][j] == items[j + 1];
      i := j + 1;
    }
  }

  /** Every item with a word and a translation contributes its record. */
  lemma {:induction false} NewWordKept(items: seq<Item>, i: nat)
    requires i < |items| && NewWordOf(items[i]).Some?
    ensures NewWordOf(items[i]).value in ParseXmlWords(items)
    decreases |items|
  {
    var w := NewWordOf(items[i]).value;
    assert ParseXmlWords(items) == EmitNew(items[0]) + ParseXmlWords(items[1..]);
    if i == 0 {
      assert EmitNew(items[0]) == [w];
    } else {
      assert items[1..][i - 1] == items[i];
      NewWordKept(items[1..], i - 1);
      assert w in ParseXmlWords(items[1..]);
    }
  }

  /** A translation that starts with a child element (CDATA after a nested
      tag, say) has no leading text, so the item is dropped even though the
      element holds text. */
  lemma NestedTranslationDropped(w: String, inner: String)
    requires Strip(w) != [] && Strip(inner) != []
    ensures ParseXmlWords([Item(Some(Elem(Some(w), w)), Some(Elem(None, inner)), None)]) == []
  {
  }

  /** What the database does with one `INSERT IGNORE`: a row was added, it
      was ignored as a duplicate, or the statement raised. */
  datatype InsertOutcome = Added | Ignored | Raised

  /** The statement issued for one word. */
  datatype Insert = Insert(word: String, translation: String, category: String)

  const NewCategory: String := "202512_New"

  datatype NewWordStats = NewWordStats(totalInXml: nat, added: nat, skipped: int, errors: nat)

  function CountOf(outcomes: seq<InsertOutcome>, o: InsertOutcome): (n: nat)
    ensures n <= |outcomes|
    decreases |outcomes|
  {
    if outcomes == [] then 0 else (if outcomes[0] == o then 1 else 0) + CountOf(outcomes[1..], o)
  }

  /** `import_words`: one insert per word into the fixed category; the
      statistics count added rows and raised statements, and report as
      skipped everything that was not added. `outcomes[i]` is the database's
      answer to the `i`-th insert. */
  function ImportWords(words: seq<NewWord>, outcomes: seq<InsertOutcome>): (r: (seq<Insert>, NewWordStats))
    requires |outcomes| == |words|
    ensures |r.0| == |words|
    ensures forall i :: 0 <= i < |words| ==>
      r.0[i] == Insert(words[i].word, words[i].translation, NewCategory)
    ensures r.1.totalInXml == |words|
    ensures r.1.added == CountOf(outcomes, Added)
    ensures r.1.errors == CountOf(outcomes, Raised)
    ensures r.1.skipped == |words| - r.1.added
  {
    var inserts := seq(|words|, i requires 0 <= i < |words| => Insert(words[i].word, words[i].translation, NewCategory));
    var added := CountOf(outcomes, Added);
    (inserts, NewWordStats(|words|, added, |words| - added, CountOf(outcomes, Raised)))
  }

  lemma {:induction false} OutcomesPartition(outcomes: seq<InsertOutcome>)
    ensures CountOf(outcomes, Added) + CountOf(outcomes, Ignored) + CountOf(outcomes, Raised) == |outcomes|
    decreases |outcomes|
  {
    if outcomes != [] {
      OutcomesPartition(outcomes[1..]);
    }
  }

  /** The skipped count lumps failed inserts in with duplicates. */
  lemma SkippedIncludesErrors(words: seq<NewWord>, outcomes: seq<InsertOutcome>)
    requires |outcomes| == |words|
    ensures var s := ImportWords(words, outcomes).1;
      s.skipped == CountOf(outcomes, Ignored) + s.errors && s.skipped >= s.errors
  {
    OutcomesPartition(outcomes);
  }
}

=== FILE: xml_items.dfy ===
/** The parsed vocabulary XML as the import code sees it. ElementTree is
    not modelled: a document is its root tag and the `item` children of the
    root, and an item is the first `word`, `trans` and `tags` child of each,
    when present. */
module XmlItems {
  import opened Results
  import opened Text

  /** An element: its own leading text (`element.text`, `None` when the
      element starts with a child or is empty) and the concatenation of all
      text inside it, CDATA included (`''.join(element.itertext())`). */
  datatype Elem = Elem(text: Option<String>, allText: String)

  /** `item.find('word')`, `item.find('trans')`, `item.find('tags')`. */
  datatype Item = Item(word: Option<Elem>, trans: Option<Elem>, tags: Option<Elem>)

  /** The root element's tag and `root.findall('item')`. */
  datatype Tree = Tree(rootTag: String, items: seq<Item>)

  /** `e.text` is truthy: present and non-empty. */
  predicate HasOwnText(e: Elem) {
    e.text.Some? && e.text.value != []
  }

  /** `e.text.strip() if e.text else ''` for an element that may be missing. */
  function OwnText(e: Option<Elem>): (r: String)
    ensures e.None? ==> r == []
    ensures r == [] || (!IsSpace(r[0]) && !IsSpace(r[|r| - 1]))
    ensures r != [] ==> e.Some? && HasOwnText(e.value)
    ensures e.Some? && HasOwnText(e.value) ==> r == Strip(e.value.text.value)
  {
    if e.Some? && HasOwnText(e.value) then Strip(e.value.text.value) else []
  }

  /** The item has both a `word` and a `trans` element. */
  predicate HasWordAndTrans(it: Item) {
    it.word.Some? && it.trans.Some?
  }
}
